=== FILE: README.md ===
# Creature record editor — a Dafny model of its form-state rules

`app.js` drives a single-page editor for one "creature record" and keeps
a "box" of saved records. This project models the rules that keep the
edited record consistent as fields change:

- the six-stat spreads and their caps: each EV is 0..252, EVs total at most 510, and each IV is 0..31;
- the level floor, taken from `LV_Min` and, in boss mode, `Boss_LV_Min`, with the 1..100 clamp;
- the body size, which is 0..255 and forced to 255 in boss mode;
- the four mutually exclusive move slots, with rollback;
- the list of sprite image paths to try, and the load token that discards stale probes;
- parsing of the reference lists and the move pools;
- the record collected from the form, and saving it to, editing it in and deleting it from the box.

The DOM is replaced by plain state:

- an input is its text;
- a `<select>` is its option list plus the value it reports;
- the box is a sequence of `Entry` objects compared by identity.

JavaScript values are modelled as follows:

- A loosely typed field is `Values.Field`: missing, text, an integer or a boolean.
- A record is a map from field names to fields.
- `NaN` is `None`.
- `Number.parseInt`, `Number(...)` on integer text, `String(n)`, `trim()`, `split` and `join` are written out in `Numbers` and `Text`.

Modules follow the components of the editor:

| module | component |
|---|---|
| `Values`, `Text`, `Numbers`, `Unique` | JavaScript values, strings, integer text and insertion-ordered sets |
| `SpreadCodec` | reading and writing `hp-atk-def-spa-spd-spe` spreads |
| `StatAllocator` | the EV and IV inputs (class `StatPanel`) |
| `LevelConstraint` | the level floor and the level input (class `LevelInput`) |
| `BodySize` | the body size input (class `BodySizeInput`) |
| `Selects` | a select element (class `Select`) and `populateSelect` / `ensureOption` |
| `Moves` | move pools and the four move slots (class `MoveSlots`) |
| `Sprite` | sprite candidates and the load-token guard (class `SpriteView`) |
| `ReferenceLists` | the ball, item and nature list parsers |
| `Box` | `collectFormData`, the box and its edit, delete and save actions (classes `Entry`, `BoxState`) |

## Model

| member | source | states |
|---|---|---|
| Text.Trim | app.js:161 | `trim()`: the result has no leading or trailing whitespace and is no longer than the input; `TrimInfix` states that it is the input with its whitespace prefix and suffix removed |
| Text.TrimInfix | app.js:161 | the trimmed text is the slice of the input between a whitespace-only prefix and a whitespace-only suffix; being trimmed, those are the longest such |
| Text.TrimOfTrimmed | app.js:433 | text with no surrounding whitespace is its own trim |
| Text.TrimBlank | app.js:337 | `trim()` gives `''` exactly when every character is whitespace |
| Text.SplitOn | app.js:340 | splitting on a set of single-character separators gives at least one part, and no part holds a separator |
| Text.SplitOnAppend | app.js:160 | text joined at a separator splits into the parts of the left side followed by the parts of the right side |
| Text.SplitJoin | app.js:191 | splitting on a character undoes joining parts that do not contain it |
| Text.JoinSplit | app.js:191 | joining the pieces of a split with the same character gives back the text |
| Text.Words | app.js:165 | `split(/\s+/)` gives at least one piece and no piece holds whitespace; `WordsOfJoin` states that it returns the words themselves |
| Text.JoinWords | app.js:165 | words without whitespace joined by single spaces start with the first word's first character, end in a non-space and hold no line break |
| Text.WordsCons | app.js:165 | a word, a space and text that does not start with a space split into that word followed by the words of the text |
| Text.WordsOfJoin | app.js:165 | splitting words joined by single spaces gives back exactly those words, for any number of them |
| Text.FirstWordOf | app.js:181 | the first piece of a word followed by a space and anything is that word |
| Text.WordsOfPair | app.js:165 | `id name` splits into exactly `[id, name]` |
| Text.LowerAsciiString | app.js:447 | lower-casing keeps the length and lower-cases character by character |
| Numbers.IntToString | app.js:251 | `String(n)` for any integer: a `-` before the digits of a negative; `ParseIntOfString` and `NumberOfString` state that `parseInt` and `Number` read it back |
| Numbers.ParseInt | app.js:246 | `Number.parseInt(s, 10)`: leading whitespace, an optional sign and the longest digit run, NaN without a digit; `ParseIntPrinted`, `ParseIntOfString` and `ParseIntBlank` state its behaviour |
| Numbers.JsNumber | app.js:342 | `Number(s)` on integer text: blank is 0, an optionally signed digit string its value, anything else NaN; `NumberOfString` and `NumberOfDigits` state its behaviour |
| Numbers.NatToString | app.js:251 | `String(n)` for `n >= 0` is non-empty decimal digits without a superfluous leading zero |
| Numbers.NatToStringValue | app.js:251 | the digits `String(n)` prints have the value `n` |
| Numbers.NatToStringOfDigits | app.js:448 | digits without a superfluous leading zero are exactly what `String` prints for their value |
| Numbers.ParseIntPrinted | app.js:374 | `parseInt` reads back what `String(n)` printed, also when a non-digit follows |
| Numbers.ParseIntOfString | app.js:265 | `parseInt(String(n))` is `n` for every integer |
| Numbers.NumberOfString | app.js:342 | `Number(String(n))` is `n` for every integer |
| Numbers.NumberOfDigits | app.js:342 | `Number` of a digit string is its decimal value |
| Numbers.ParseIntTrim | app.js:261-265 | `parseInt` of the trimmed text equals `parseInt` of the text itself |
| Numbers.ParseIntBlank | app.js:246 | `parseInt` of blank text is NaN |
| Unique.Dedup | app.js:192-200 | the values in first-seen order, no longer than the input; `DedupDistinct`, `DedupKeepsFirstSeenOrder` and `DedupSnoc` state what that means |
| Unique.DedupDistinct | app.js:192-200 | de-duplication repeats no value and keeps exactly the values of the input |
| Unique.DedupKeepsFirstSeenOrder | app.js:450-454 | de-duplicated values keep the order of their first occurrences, as a `Set` does |
| Unique.DedupSnoc | app.js:196-200 | adding one value extends the de-duplicated sequence by it exactly when it is new |
| Unique.DedupOfDistinct | app.js:450-454 | a sequence without repeats is its own de-duplication |
| Unique.DedupAppendDisjoint | app.js:462-468 | de-duplicating two sequences with no shared value de-duplicates each |
| Selects.Shows | app.js:580-581 | assigning a value makes the select show it exactly when it is `''` or an option carries it, else `''` |
| Selects.DefaultShown | app.js:208-222 | a rebuilt select shows `''` or the value of one of its options |
| Selects.EnsuredOptions | app.js:228-239 | a non-empty value has an option afterwards; at most one option is appended and the old options are kept in front; for `''` or a value some option already carries the options are unchanged |
| Selects.EnsuredIdempotent | app.js:228-239 | ensuring the same value twice adds nothing the second time |
| Selects.EnsuredShows | app.js:228-239 | once a value is ensured, assigning it makes the select show it |
| Selects.BuiltOptions | app.js:205-222 | the rebuilt list holds one option per name, plus one for a non-empty placeholder; the option values are `''` for the placeholder, if any, then the names in order |
| Selects.BuiltDefaultIsFirstName | app.js:216-222 | without a placeholder or an earlier value, the first name is selected |
| Selects.BuiltDefaultIsPlaceholder | app.js:210-215 | with a placeholder and no earlier value, the placeholder (value `''`) is selected |
| Selects.Select.EnsureOption | app.js:228-239 | the options become the ensured options; a non-empty value is selected and `''` changes nothing |
| Selects.Select.Populate | app.js:205-226 | the options are rebuilt and the earlier value ensured; the earlier value stays selected, else the default is |
| SpreadCodec.ParseSpread | app.js:336-345 | the result always has six values; a non-string or blank spread gives the fallback |
| SpreadCodec.ComposeSpread | app.js:366-368 | `composeSpread`: each input's number, an empty input counting as 0, joined with `-`; `ComposeDecimals` and `SpreadRoundTrip` relate it to `ParseSpread` |
| SpreadCodec.ComposeDecimals | app.js:366-368 | composing inputs that hold decimal text joins that text unchanged with `-` |
| SpreadCodec.ParseSpreadEntries | app.js:340-344 | for a non-blank spread, a position whose part `Number` reads takes that number, and a position with no part or a NaN part takes the fallback's value |
| SpreadCodec.SpreadRoundTrip | app.js:336-368 | a spread composed from six non-negative values parses back to those values whatever the fallback |
| SpreadCodec.EmptyPositionIsZero | app.js:342-343 | an empty position between two separators reads as 0, not as the fallback |
| StatAllocator.ClampStat | app.js:374-376 | a re-read stat is at most the cap: an integer within 0..cap is kept, NaN and a negative give 0, and one above the cap gives the cap |
| StatAllocator.ClampAll | app.js:372-379 | every clamped value is within the cap, one per input |
| StatAllocator.CapTotal | app.js:381-386 | only the edited input can change, and it can only go down |
| StatAllocator.CapTotalSum | app.js:382-385 | after an overflowing edit the total is exactly 510 when the other inputs fit within it, and the others' sum otherwise |
| StatAllocator.CapTotalUnchanged | app.js:381 | within the budget, or with no edited input (blur), nothing is capped |
| StatAllocator.CapTotalBound | app.js:381-386 | capping never raises the total, and leaves it at most 510 unless the other inputs alone exceed 510 |
| StatAllocator.CapTotalExample | app.js:381-386 | `[252, 252, 50, 0, 0, 0]` with the third input edited becomes `[252, 252, 6, 0, 0, 0]` |
| StatAllocator.LoadCanStayOverBudget | app.js:353-354 | loading `252-252-252-0-0-0` charges spe, which is already 0, so the total stays at 756 |
| StatAllocator.ClampStatOfDecimal | app.js:374-377 | a value within the clamp, written and re-read, is that value |
| StatAllocator.ClampAllOfDecimals | app.js:372-379 | re-reading rewritten inputs changes nothing: the rewrite is a fixed point |
| StatAllocator.ClampStatOfPrinted | app.js:351 | an integer assigned to an input reads back clamped like the integer itself |
| StatAllocator.NumberOfDecimal | app.js:367 | `Number` reads each rewritten input back as its value |
| StatAllocator.LoadRoundTrip | app.js:347-355 | loading a composed in-budget spread gives back the same six values |
| StatAllocator.SettledAllocation | app.js:894 | after any update every EV is at most 252, and a following blur update changes nothing |
| StatAllocator.ReadStat | app.js:374-376 | the value read is the clamp of the input text |
| StatAllocator.StatPanel.UpdateEvState | app.js:370-391 | the inputs are rewritten as the clamped and capped values; the total is their sum; the warning shows exactly when the total is at least 510; the hidden spread is re-composed; the IVs are untouched |
| StatAllocator.StatPanel.ClampEvInputs | app.js:371-379 | the loop rewrites each EV as its clamp and returns the sum of the clamps |
| StatAllocator.StatPanel.ChargeOverflow | app.js:381-386 | the inputs and total become those of `CapTotal` |
| StatAllocator.StatPanel.UpdateIvField | app.js:393-402 | every IV is rewritten clamped to 0..31 and the IV spread is re-composed; the EV state is untouched |
| StatAllocator.StatPanel.ClampIvInputs | app.js:394-400 | the loop rewrites each IV as its clamp |
| StatAllocator.StatPanel.ApplyEvSpread | app.js:347-355 | the parsed spread is written to the inputs, then the EV update runs with spe as the edited input |
| StatAllocator.StatPanel.WriteEvInputs | app.js:349-352 | each EV input holds `String` of the matching value |
| StatAllocator.StatPanel.ApplyIvSpread | app.js:357-364 | the parsed spread is written to the IV inputs, then re-clamped and re-composed |
| StatAllocator.StatPanel.WriteIvInputs | app.js:359-362 | each IV input holds `String` of the matching value |
| LevelConstraint.ClampToRange | app.js:275 | the result is within 1..100: below 1 gives 1, above 100 gives 100, and a level within the range is kept |
| LevelConstraint.ParseLevelValue | app.js:254-267 | a number is its value and non-string values are NaN; text reads as `parseInt` reads it untrimmed, since trimming and the blank test change nothing (via `ParseIntTrim`) |
| LevelConstraint.BaseMinLevel | app.js:269-276 | the floor is within 1..100, is 1 without an `LV_Min` value, is `LV_Min` when that is in range, 1 when it is below 1 and 100 when it is above 100 |
| LevelConstraint.BossMinLevel | app.js:278-287 | the boss floor is between the base floor and 100; it is the base floor without a `Boss_LV_Min` value, `Boss_LV_Min` itself when that lies between the base floor and 100, the base floor when it is below it and 100 when it is above 100 |
| LevelConstraint.EffectiveMinLevel | app.js:289-295 | the floor is within 1..100: the boss floor in boss mode, else the base floor |
| LevelConstraint.ClampLevelValue | app.js:297-314 | the level is within 1..100 and at least a floor of at most 100; a parsed level below a floor in 1..100 becomes exactly the floor, and one above 100 becomes 100 |
| LevelConstraint.ClampLevelKeeps | app.js:304-312 | a level that meets the floor and the ceiling is kept |
| LevelConstraint.ClampLevelMissing | app.js:299-302 | a level with no value becomes the floor |
| LevelConstraint.EnforcedLevel | app.js:327-333 | the level `updateLevelConstraints` writes: the floor for blank text, else the clamped level; `EnforcedLevelRange`, `EnforcedLevelKeeps` and `EnforcedLevelIdempotent` state its properties |
| LevelConstraint.EnforcedLevelRange | app.js:327-333 | the enforced level lies between the floor and 100, and blank text becomes exactly the floor |
| LevelConstraint.ParseLevelOfString | app.js:261-266 | the text of a level reads back as that level |
| LevelConstraint.EnforcedLevelKeeps | app.js:332-333 | enforcing a floor no higher than the stored in-range level keeps it |
| LevelConstraint.EnforcedLevelIdempotent | app.js:327-333 | enforcing the same floor twice changes nothing the second time |
| LevelConstraint.ClearingBossKeepsLevel | app.js:943-947 | turning boss mode off never lowers a level enforced under the boss floor |
| LevelConstraint.SettingBossRaisesLevel | app.js:943-947 | turning boss mode on raises the level to at least the boss floor |
| LevelConstraint.DigitsOnly | app.js:930 | the filtered text is all digits, no longer than the input, and digit-only text is kept |
| LevelConstraint.DigitsOnlyAppend | app.js:930 | the digits of two pieces of text are those of the first followed by those of the second, so the digits keep their order |
| LevelConstraint.DigitsOnlyKeepsDigits | app.js:930 | every digit character is kept with its multiplicity, and every other character is dropped |
| LevelConstraint.LevelInput.UpdateLevelConstraints | app.js:316-334 | `min` becomes the effective floor and `max` becomes 100; when enforcing, the value becomes the enforced level, else it is kept |
| LevelConstraint.LevelInput.HandleInput | app.js:929-934 | non-digits are dropped from the value, and the bounds are kept |
| BodySize.ClampBodySize | app.js:250 | the size is within 0..255: a negative gives 0, above 255 gives 255, and a size within the range is kept |
| BodySize.NormaliseBodySize | app.js:241-252 | the result is empty exactly when empty is allowed and the value is blank text; otherwise a parsed value below 0 gives `"0"` and one above 255 gives `"255"` (`NormalisedIsCanonical`, `NoIntegerIsDefault` and `InRangeKept` state the rest) |
| BodySize.NormalisedIsCanonical | app.js:246-251 | a non-empty result is the text of an integer in 0..255 that reads back as itself |
| BodySize.NormalisedEmpty | app.js:243-245 | the empty result comes exactly from blank text with empty allowed |
| BodySize.NoIntegerIsDefault | app.js:246-248 | with no integer to read, the size is 255 |
| BodySize.InRangeKept | app.js:250-251 | the text, or the number, of a size in 0..255 is kept |
| BodySize.NormaliseIdempotent | app.js:241-252 | normalising a normalised size changes nothing |
| BodySize.FocusMakesNoDifference | app.js:423-426 | keeping a blank focused field empty is what normalising with empty allowed does anyway |
| BodySize.BlurOfBlankDiffersFromNormalise | app.js:241-248 | `normaliseBodySize('')` without empty allowed gives `'255'`; the blur handler's blank-to-0 rule is stated by `BodySizeInput.HandleBlur` |
| BodySize.BodySizeInput.UpdateBodySizeControl | app.js:413-428 | boss mode forces 255 and disables the field; otherwise the field is enabled and the value normalised with empty allowed |
| BodySize.BodySizeInput.HandleInput | app.js:908-910 | the value is normalised with empty allowed as it is typed |
| BodySize.BodySizeInput.HandleBlur | app.js:911-917 | blank becomes 0, anything else is normalised; the result is always an integer in 0..255 |
| ReferenceLists.NonEmptyLines | app.js:162 | a line is kept exactly when it is in the input and non-empty |
| ReferenceLists.NonEmptyLinesAppend | app.js:162 | the kept lines of two blocks are those of the first followed by those of the second, so order is kept |
| ReferenceLists.ContentLines | app.js:159-162 | the remaining lines are non-empty and trimmed; `ContentLinesMember` and `ContentLinesAppend` state which lines remain and in what order |
| ReferenceLists.ContentLinesMember | app.js:159-162 | a text is a content line exactly when it is non-empty and the trim of some line of the text: every non-blank line survives |
| ReferenceLists.ContentLinesAppend | app.js:159-162 | the content lines of two texts joined by a line break are those of the first followed by those of the second |
| ReferenceLists.Skip | app.js:163 | `slice(n)` drops `n` lines, or all of them |
| ReferenceLists.ParseTableLine | app.js:164-170 | the id holds no whitespace, and a non-blank trimmed line gives a non-empty id and name; `TableLineOfWord` and `TableLineOfWords` state which id and name |
| ReferenceLists.FilterNamed | app.js:171 | `.filter((item) => item.name)` for ball, item and nature entries alike: an entry is kept exactly when it is in the input and its name is non-empty |
| ReferenceLists.FilterNamedAppend | app.js:171 | the kept entries of two lists are those of the first followed by those of the second, so order is kept |
| ReferenceLists.ParseTableList | app.js:158-172 | every item has a non-empty, whitespace-free id and a non-empty name |
| ReferenceLists.TableListOnePerLine | app.js:163-171 | the name filter drops nothing: the items are exactly the parsed content lines after the header, one each, in order (which lines those are: `ContentLinesMember`, `ContentLinesAppend`) |
| ReferenceLists.TableLineOfWord | app.js:168 | a one-word line names the item by its id |
| ReferenceLists.TableLineOfPair | app.js:165-169 | an `id name` line gives that id and that name |
| ReferenceLists.TableLineOfWords | app.js:164-170 | a line `id w1 … wn` gives that id and the name `w1 … wn` joined by single spaces |
| ReferenceLists.TableLineOfItem | app.js:164-170 | the line `id name`, for a name of single-spaced words, is trimmed, has no line break and parses back to that item |
| ReferenceLists.TableListRoundTrip | app.js:158-172 | a header followed by one `id name` line per item, where a name may have several single-spaced words, parses back to the items |
| ReferenceLists.ParseNatureList | app.js:174-185 | every nature name is non-empty and holds no whitespace; `NatureListFirstWords` states which names |
| ReferenceLists.NatureListFirstWords | app.js:174-185 | every non-blank line after the header gives, in order, the nature named by that line's first word |
| ReferenceLists.NatureLineOfFields | app.js:180-182 | a nature line carrying further fields after its name is named by that name |
| ReferenceLists.NatureListRoundTrip | app.js:174-185 | a header followed by one nature per line, its name optionally followed by further fields, parses back to the names |
| Moves.TrimmedNames | app.js:195-196 | every kept name is non-empty and trimmed, with at most one per part |
| Moves.TrimmedNamesMember | app.js:195-196 | a name is kept exactly when some part trims to it |
| Moves.MovePool | app.js:187-203 | the pool repeats no move, and a non-string value has no moves |
| Moves.MovePoolNames | app.js:195-200 | every pooled move is non-empty and trimmed |
| Moves.MovePoolMember | app.js:191-200 | a move is pooled exactly when some `-`-separated part trims to it |
| Moves.MovePoolOrder | app.js:194-201 | moves are pooled in the order of their first mention |
| Moves.MovePoolRoundTrip | app.js:187-203 | distinct names without whitespace or `-`, joined with `-`, parse back to themselves |
| Moves.PoolStep | app.js:195-200 | each part either adds its new trimmed name or leaves the pool unchanged |
| Moves.ParseMoveList | app.js:187-203 | the loop with its `seen` set computes the move pool |
| Moves.PoolUpToIsDedup | app.js:194-201 | building the pool part by part de-duplicates the trimmed names |
| Moves.PoolParts | app.js:194-201 | the `forEach` returns the de-duplicated trimmed names |
| Moves.MoveOptions | app.js:544-552 | one enabled option per move, of the given kind, whose values are the moves in order |
| Moves.PoolOptions | app.js:558-576 | the option values of a slot are the placeholder's `''`, the level moves, a separator's `''` when both pools are non-empty, then the TM moves, in that order |
| Moves.PoolOptionValues | app.js:558-576 | a slot offers exactly `''` and the moves of the two pools |
| Moves.SeparatorIffBothPools | app.js:542 | there is a separator exactly when both pools have moves |
| Moves.SlotOptions | app.js:556-579 | a slot's options: the pooled options with its preset move ensured; `SlotShowsPreset` and `SlotShowsRemembered` state what the slot then shows |
| Moves.CurrentMove | app.js:556 | the slot's preset move, `Pre_Move1`..`Pre_Move4` of the record, or `''` |
| Moves.Fallback | app.js:582 | the value a slot is set to: its preset move, else its remembered one; `SlotShowsRemembered` states the second case |
| Moves.SlotShowsPreset | app.js:578-581 | a slot with a preset move shows it, whether or not a pool has it |
| Moves.SlotShowsRemembered | app.js:580-582 | a slot without a preset shows its remembered move when a pool has it, else `''`, and still remembers that move |
| Moves.LoadKeepsRepeatedPresets | app.js:554-583 | loading does not check for repeats: two slots preset to the same move both show it |
| Moves.DistinctReplace | app.js:602-622 | replacing a slot by `''` or by a move no other slot shows keeps the slots distinct |
| Moves.MoveSlots.SyncMoveSelectPreviousValues | app.js:588-593 | each slot remembers what it shows, and nothing else changes |
| Moves.MoveSlots.UpdateMoveSelectOptions | app.js:539-586 | each slot gets the pooled options with its preset ensured, remembers the preset or else its old value, and shows that value if an option carries it |
| Moves.MoveSlots.HandleMoveSelectChange | app.js:595-623 | a repeat is rejected with a notification and the slot rolls back; an empty pick is forgotten; any other pick is remembered; other slots are untouched; slots that were distinct stay distinct |
| Sprite.ResolveSpriteSources | app.js:432-476 | the ordered candidate paths for a picture reference; `BlankHasNoCandidates`, `UrlIsKept`, `NumberWithExtensionCandidates`, `NumberOnlyCandidates`, `BareNameCandidates` and `DottedNameCandidates` state each branch |
| Sprite.StripZeros | app.js:448 | leading zeros only are removed, and the rest does not start with `0` |
| Sprite.Normalised | app.js:448 | the zero-stripped name is never empty |
| Sprite.PadStart3 | app.js:449 | the padded name has exactly max(3, length) characters and ends with the number, after zeros only |
| Sprite.NormalisedIsCanonical | app.js:448 | the zero-stripped name is the canonical decimal text of the same value |
| Sprite.PaddedSameNumber | app.js:449 | the padded name is digits with the same value |
| Sprite.DigitFirstIsLocal | app.js:438-439 | a reference starting with a digit is neither a URL nor a relative path |
| Sprite.PicturePathExtension | app.js:451-453 | two paths whose names are digit strings are equal only for the same extension |
| Sprite.VariantsDisjoint | app.js:463-467 | the variants for one extension share no path with those of other extensions |
| Sprite.DedupPerExtension | app.js:462-468 | with distinct extensions, the de-duplicated set is each extension's de-duplicated variants in turn |
| Sprite.CandidatesPerExtensionSize | app.js:463-467 | there are one to three candidates per extension |
| Sprite.CandidatesPerExtensionDistinct | app.js:462-468 | no candidate path repeats |
| Sprite.BlankHasNoCandidates | app.js:433-436 | a reference has no candidates exactly when it is blank |
| Sprite.UrlIsKept | app.js:438-442 | a URL or a page-relative path is the single candidate, trimmed |
| Sprite.MatchesNumberWithExtension | app.js:444-447 | `<digits>.<ext>` matches with those digits and the extension lower-cased |
| Sprite.NumberWithExtensionCandidates | app.js:444-455 | `<digits>.<ext>` gives the de-duplicated as-given, zero-stripped and padded paths for that one extension |
| Sprite.NumberOnlyCandidates | app.js:457-469 | a bare number gives its de-duplicated variants extension by extension, in extension order |
| Sprite.BareNameCandidates | app.js:471-473 | any other reference without a dot names a file in the picture directory |
| Sprite.DottedNameCandidates | app.js:475 | any other dotted reference is tried as given |
| Sprite.WideNumberBlock | app.js:458-467 | a number of three or more digits without a leading zero has one path per extension |
| Sprite.NarrowNumberBlock | app.js:458-467 | a one- or two-digit number is tried as given and then padded |
| Sprite.PaddedNumberBlock | app.js:458-467 | a zero-led number of three or more digits is tried as given and then zero-stripped |
| Sprite.NarrowNumberCount | app.js:457-469 | a one- or two-digit number has twelve candidates |
| Sprite.WideNumberCount | app.js:457-469 | a number of three or more digits without a leading zero has six candidates |
| Sprite.FirstLoadable | app.js:508-533 | the index found is the first loadable candidate, or the length when none loads |
| Sprite.SpriteView.ShowPlaceholder | app.js:486-494 | the image is cleared and hidden and the placeholder shown; the token is kept |
| Sprite.SpriteView.UpdateSprite | app.js:478-506 | the token goes up by one, the probe carries the new token and the candidates, and the placeholder shows while probing |
| Sprite.SpriteView.OnLoad | app.js:518-529 | a stale probe changes nothing; the current one shows the loaded candidate |
| Sprite.SpriteView.OnError | app.js:530-532 | a stale probe stops; the last failure shows the placeholder; otherwise the next candidate is probed |
| Sprite.SpriteView.Settle | app.js:508-536 | probing in order shows the first loadable candidate, or the placeholder when none loads |
| Box.CopiedRecordOf | app.js:740-747 | whatever the copy loop leaves is exactly the copied record |
| Box.CopyFormFields | app.js:738-747 | the record keeps the current fields and gains every form field; present controls are trimmed, missing ones keep the current value or become `''` |
| Box.KeptNameTruthy | app.js:753-761 | a name is non-empty exactly when the form's or the current record's is, and a non-empty form name wins |
| Box.NoAsTextTruthy | app.js:752 | the number becomes text and keeps its presence |
| Box.AssembleKeys | app.js:748-766 | the derived fields add exactly their names, and no other field changes |
| Box.Derive | app.js:748-766 | the fields set after the copy loop, computed from the copied record, the current record and the inputs; `CollectedPicture`, `CollectedNumber`, `CollectedNames`, `CollectedBodySize` and `CollectedLevel` state them |
| Box.CollectedRecord | app.js:735-768 | the record `collectFormData` returns; `CollectedKeys`, `CollectedCopies` and the other `Collected…` lemmas state its fields |
| Box.CollectFormData | app.js:735-768 | the method returns the collected record |
| Box.CollectedKeys | app.js:738-763 | the collected record holds the current fields, every form field and the two toggles, and nothing else |
| Box.CollectedCopies | app.js:740-747 | fields that are not derived keep the copied value |
| Box.CollectedNumber | app.js:752 | the number is text, and is non-empty exactly when the form or the current record provides one |
| Box.CollectedPicture | app.js:750-751 | a non-blank picture input wins; the picture is non-empty exactly when one of its four sources is, and always when there is a number |
| Box.CollectedInputs | app.js:748-749 | the spreads and the two toggles are taken from their inputs unchanged |
| Box.CollectedBodySize | app.js:764 | the body size is the text of an integer in 0..255 that reads back as itself |
| Box.CollectedLevel | app.js:765-766 | the level lies between the effective floor and 100, and an in-range level is kept |
| Box.CollectedNames | app.js:753-761 | each name field keeps the form's name, or else the current record's, so saving never loses a name |
| Box.Without | app.js:824 | `box.filter((item) => item !== entry)`: the removed entry is gone and nothing is added; `WithoutMembers` and `WithoutDistinct` state the rest |
| Box.HasNumber | app.js:834 | `formData.No` is truthy; `CollectedNumber` states when a collected record has one |
| Box.WithoutMembers | app.js:824 | filtering keeps exactly the entries other than the one removed |
| Box.WithoutAbsent | app.js:824 | filtering out an entry that is not in the box keeps the box |
| Box.WithoutDistinct | app.js:824 | in a box without repeats, deleting removes exactly one position and keeps the order |
| Box.WithoutKeepsDistinct | app.js:824 | deleting keeps the box without repeats |
| Box.BoxState.Edit | app.js:815-819 | the clicked entry becomes the one being edited, and the record it shows becomes current |
| Box.BoxState.Delete | app.js:820-826 | exactly that entry leaves the box; editing stops if it was the edited entry; the current record is kept |
| Box.BoxState.SaveToBox | app.js:833-850 | no number means no change; with an edited entry its fields are overwritten in place; otherwise a new entry is appended and the user notified; the current record absorbs the saved data; other entries are untouched |
| Box.BoxState.HandleSaveToBox | app.js:832-851 | saving the collected record: the same outcomes as `SaveToBox`, the current record absorbing the collected record, decided by whether the form or the current record provides a number |

## Left out

- Rendering is left out. This covers the search list, the detail modal, the box cards, chips (`updateChips`) and the date. All of it is DOM templating and says nothing about the record's consistency.
- Fetching the data and the reference lists is left out, as are the `Promise` plumbing and `loadReferenceLists`. The parsers those fetches feed are modelled. The default held item `loadReferenceLists` selects (`getDefaultHeldItemName`) is left out.
- Sorting, the search filter (`handleSearch`), locale-aware comparison and the notification timer are left out.
- `setCurrent`, `fillForm` and `handleSelectPokemon` are left out: they enrich a dataset entry and write it into the controls. `BoxState.Edit` takes the record that `setCurrent` makes current as a parameter.
- Numbers.ParseInt: reads, like Numbers.JsNumber, the exact value of any run of digits. JavaScript reads doubles instead: above 2^53 digits are rounded, and from about 1.8e308 (309 digits or more) the result is `Infinity`, which the `Number.isFinite` tests reject. With 400 nines the source gives these results where the model differs:
  - an EV input reads as 0 (app.js:374-375), where the model gives 252;
  - a level falls back to the floor (app.js:265-266, 300-302), where the model gives 100;
  - a spread part takes the fallback (app.js:342-343), where the model takes the huge value;
  - a body size of `-` followed by 400 digits becomes `255` (app.js:246-248), where the model gives `0`.
- Numbers.JsNumber: the same rounding and overflow to `Infinity` are left out, as described for Numbers.ParseInt.
- Number handling is narrower than JavaScript's. Numbers are integers. `Number(...)` does not read fractions, exponents, hexadecimal or `Infinity`. `Math.floor` is the identity. A level stored as a fraction is therefore not modelled.
- Image loading is asynchronous in the source. `SpriteView.Settle` replays the probes of one request in order and takes the set of loadable paths as a parameter. Interleaved requests are covered only by the token check in `OnLoad` and `OnError`.
- The `error` listener on the sprite image (app.js:957-962) is left out.
- `resolveSpriteSources` is modelled for string references only (`''` for a missing one). A non-string picture value would make `.trim()` throw.
- The guards for missing elements (`if (!select) return`, `if (!input) return`, missing toggles) are left out. Every control exists in the model.
- The toggle fallback `Boolean(data.Is_Shiny)` used without a toggle is left out for the same reason.
- `moveSelectPreviousValues` is keyed by the select element in the source; here it is a sequence indexed by slot.
- `FormData` values that are files are left out. Form controls are strings (`FormInputs.controls`).
- `Box.CollectFormData` reads the level control after `updateLevelConstraints` has run. The level value it receives is already enforced, and `LevelInput.UpdateLevelConstraints` models that step.
- StatAllocator.StatPanel.UpdateEvState: keeps the total within 510 only when the other five values fit. Loading a spread charges the overflow to spe whatever its value (`LoadCanStayOverBudget`), so the total can stay above 510. The model follows the code here rather than keeping the EV total at most 510 in every case.

=== FILE: body_size.dfy ===
/**
 * The body size field: an integer 0..255 kept as text, forced to 255 and
 * disabled in boss mode, and allowed to be empty only while it is typed in.
 */
module BodySize {
  import opened Optional
  import opened Text
  import opened Numbers
  import opened Values

  const DEFAULT_BODY_SIZE := 255

  /**
   * What `parseInt(raw ?? '', 10)` reads: string values trimmed, a number as
   * `String` prints it, a boolean as its name, and a missing value as `''`.
   */
  function RawText(value: Field): string {
    match value
    case Absent => ""
    case Text(s) => Trim(s)
    case Num(n) => IntToString(n)
    case Flag(b) => if b then "true" else "false"
  }

  /** `Math.min(Math.max(n, 0), 255)` */
  function ClampBodySize(n: int): (r: nat)
    ensures r <= DEFAULT_BODY_SIZE
    ensures 0 <= n <= DEFAULT_BODY_SIZE ==> r == n
    ensures n < 0 ==> r == 0
    ensures n > DEFAULT_BODY_SIZE ==> r == DEFAULT_BODY_SIZE
  {
    if n < 0 then 0 else if n > DEFAULT_BODY_SIZE then DEFAULT_BODY_SIZE else n
  }

  /**
   * `normaliseBodySize(value, { allowEmpty })`: `''` for blank text when empty
   * is allowed, 255 when there is no integer, else the integer clamped to 0..255.
   */
  function NormaliseBodySize(value: Field, allowEmpty: bool): (r: string)
    ensures r == "" <==> allowEmpty && value.Text? && Trim(value.s) == ""
    ensures !(allowEmpty && value.Text? && Trim(value.s) == "") && ParseInt(RawText(value)).Some?
            && ParseInt(RawText(value)).value < 0
      ==> r == "0"
    ensures !(allowEmpty && value.Text? && Trim(value.s) == "") && ParseInt(RawText(value)).Some?
            && ParseInt(RawText(value)).value > DEFAULT_BODY_SIZE
      ==> r == "255"
  {
    if allowEmpty && value.Text? && Trim(value.s) == "" then ""
    else match ParseInt(RawText(value))
      case None => IntToString(DEFAULT_BODY_SIZE)
      case Some(n) => IntToString(ClampBodySize(n))
  }

  /** A body size that is not empty is the text of an integer in 0..255 that reads back as itself. */
  lemma NormalisedIsCanonical(value: Field, allowEmpty: bool)
    ensures var r := NormaliseBodySize(value, allowEmpty);
      r != "" ==> ParseInt(r).Some? && 0 <= ParseInt(r).value <= DEFAULT_BODY_SIZE && IntToString(ParseInt(r).value) == r
  {
    var r := NormaliseBodySize(value, allowEmpty);
    if r != "" {
      match ParseInt(RawText(value))
      case None => ParseIntOfString(DEFAULT_BODY_SIZE);
      case Some(n) => ParseIntOfString(ClampBodySize(n));
    }
  }

  /** The empty result comes only from blank text with empty allowed. */
  lemma NormalisedEmpty(value: Field, allowEmpty: bool)
    ensures NormaliseBodySize(value, allowEmpty) == "" <==> allowEmpty && value.Text? && AllSpace(value.s)
  {
    if value.Text? {
      TrimBlank(value.s);
    }
  }

  /** Without an integer to read (a missing value, blank text when empty is not allowed, a word), the size is 255. */
  lemma NoIntegerIsDefault(value: Field, allowEmpty: bool)
    requires ParseInt(RawText(value)).None?
    requires !(allowEmpty && value.Text? && Trim(value.s) == "")
    ensures NormaliseBodySize(value, allowEmpty) == IntToString(DEFAULT_BODY_SIZE)
  {
  }

  /** The text of a size in 0..255 is kept as it is. */
  lemma InRangeKept(n: int, allowEmpty: bool)
    requires 0 <= n <= DEFAULT_BODY_SIZE
    ensures NormaliseBodySize(Text(IntToString(n)), allowEmpty) == IntToString(n)
    ensures NormaliseBodySize(Num(n), allowEmpty) == IntToString(n)
  {
    var s := NatToString(n);
    DigitIsNotSpace(s[0]);
    DigitIsNotSpace(s[|s| - 1]);
    TrimOfTrimmed(s);
    ParseIntOfString(n);
  }

  /** Normalising a normalised size changes nothing. */
  lemma NormaliseIdempotent(value: Field, allowEmpty: bool)
    ensures var r := NormaliseBodySize(value, allowEmpty);
      NormaliseBodySize(Text(r), allowEmpty) == r
  {
    var r := NormaliseBodySize(value, allowEmpty);
    if r != "" {
      NormalisedIsCanonical(value, allowEmpty);
      InRangeKept(ParseInt(r).value, allowEmpty);
    }
  }

  /**
   * While the input has focus a blank value is kept empty, which is exactly
   * what normalising with empty allowed does anyway: focus makes no difference.
   */
  lemma FocusMakesNoDifference(text: string)
    ensures (if Trim(text) == "" then "" else NormaliseBodySize(Text(text), true)) == NormaliseBodySize(Text(text), true)
  {
  }

  /** Leaving the field blank sets it to 0, where normalising blank text without empty allowed gives 255. */
  lemma BlurOfBlankDiffersFromNormalise()
    ensures NormaliseBodySize(Text(""), false) == IntToString(DEFAULT_BODY_SIZE)
  {
    TrimBlank("");
    ParseIntBlank("");
  }

  /** The body size input: its text and whether it is disabled. */
  class BodySizeInput {
    var value: string
    var disabled: bool

    constructor (initial: string)
      ensures value == initial && !disabled
    {
      value := initial;
      disabled := false;
    }

    /**
     * `updateBodySizeControl`: in boss mode the size is 255 and the input is
     * disabled; otherwise it is enabled and its text normalised with empty allowed.
     */
    method UpdateBodySizeControl(isBoss: bool, focused: bool)
      modifies this
      ensures disabled == isBoss
      ensures value == if isBoss then IntToString(DEFAULT_BODY_SIZE) else NormaliseBodySize(Text(old(value)), true)
    {
      if isBoss {
        value := IntToString(DEFAULT_BODY_SIZE);
        disabled := true;
      } else {
        disabled := false;
        var shouldKeepEmpty := focused && Trim(value) == "";
        value := if shouldKeepEmpty then "" else NormaliseBodySize(Text(value), true);
      }
    }

    /** The input handler: the text is normalised as it is typed, empty allowed. */
    method HandleInput()
      modifies this
      ensures value == NormaliseBodySize(Text(old(value)), true)
      ensures disabled == old(disabled)
    {
      value := NormaliseBodySize(Text(value), true);
    }

    /**
     * The blur handler: blank text becomes 0, anything else is normalised;
     * the input is never left empty.
     */
    method HandleBlur()
      modifies this
      ensures value == if AllSpace(old(value)) then IntToString(0) else NormaliseBodySize(Text(old(value)), false)
      ensures value != "" && ParseInt(value).Some? && 0 <= ParseInt(value).value <= DEFAULT_BODY_SIZE
      ensures disabled == old(disabled)
    {
      TrimBlank(value);
      if Trim(value) == "" {
        value := IntToString(0);
        ParseIntOfString(0);
      } else {
        NormalisedIsCanonical(Text(value), false);
        value := NormaliseBodySize(Text(value), false);
      }
    }
  }
}

=== FILE: box.dfy ===
/**
 * The box: saved creature records, the entry being edited (tracked by object
 * identity), and the record `collectFormData` derives from the form before
 * a save.
 */
module Box {
  import opened Optional
  import opened Text
  import opened Numbers
  import opened Values
  import opened Unique
  import opened LevelConstraint
  import opened BodySize

  /** The named form controls copied into a record, in form order. */
  const FIELD_NAMES: seq<string> := [
    "No", "Dex_No", "CN_Name", "ENG_Name", "Web_Name", "Gender_Type", "LV_Min", "Boss_LV_Min",
    "Move_Lv", "Move_TM", "Move_Boss", "Pre_Move1", "Pre_Move2", "Pre_Move3", "Pre_Move4",
    "Pre_Evs", "Pre_Nature", "Pre_Gender", "Pre_Ball", "Held_Item", "Body_Size", "Picture", "Ivs"
  ]

  /** The fields `collectFormData` sets after the copy loop. */
  const DERIVED: set<string> := {
    "Pre_Evs", "Ivs", "Picture", "No", "CN_Name", "ENG_Name", "Web_Name", "Is_Shiny", "Is_Boss", "Body_Size", "LV_Min"
  }

  /**
   * One field after the copy loop: the trimmed control value when the form
   * has the control, else the stored value, else `''`.
   */
  function CopiedField(base: Record, form: map<string, string>, name: string): Field {
    if name in form then Text(Trim(form[name]))
    else if name in base then base[name]
    else Text("")
  }

  /** The record after the loop over `fieldNames`: the form's controls laid over a copy of the current record. */
  function CopiedRecord(base: Record, form: map<string, string>): Record {
    map k | k in base.Keys + (set n | n in FIELD_NAMES) :: if k in FIELD_NAMES then CopiedField(base, form, k) else base[k]
  }

  /** What the copy loop leaves behind is the copied record. */
  lemma CopiedRecordOf(base: Record, form: map<string, string>, data: Record)
    requires forall k :: k in data <==> k in base || k in FIELD_NAMES
    requires forall k :: k in FIELD_NAMES ==> data[k] == CopiedField(base, form, k)
    requires forall k :: k in base && k !in FIELD_NAMES ==> data[k] == base[k]
    ensures data == CopiedRecord(base, form)
  {
  }

  /** The fields recomputed after the copy loop, other than the two toggles, are form fields. */
  lemma DerivedAreFieldNames()
    ensures forall k :: k in DERIVED && k != "Is_Shiny" && k != "Is_Boss" ==> k in FIELD_NAMES
  {
    assert FIELD_NAMES[0] == "No" && FIELD_NAMES[2] == "CN_Name" && FIELD_NAMES[3] == "ENG_Name";
    assert FIELD_NAMES[4] == "Web_Name" && FIELD_NAMES[6] == "LV_Min" && FIELD_NAMES[15] == "Pre_Evs";
    assert FIELD_NAMES[20] == "Body_Size" && FIELD_NAMES[21] == "Picture" && FIELD_NAMES[22] == "Ivs";
  }

  /** The copied record holds every field the derived fields are computed from. */
  lemma CopiedHasSources(base: Record, form: map<string, string>)
    ensures Sources(CopiedRecord(base, form))
  {
    DerivedAreFieldNames();
  }

  /** A form field of the copied record is as the copy loop left it. */
  lemma CopiedAt(base: Record, form: map<string, string>, k: string)
    requires k in DERIVED && k != "Is_Shiny" && k != "Is_Boss"
    ensures k in CopiedRecord(base, form) && CopiedRecord(base, form)[k] == CopiedField(base, form, k)
  {
    DerivedAreFieldNames();
  }

  /** The loop over `fieldNames` in `collectFormData`, starting from a copy of the current record. */
  method CopyFormFields(base: Record, form: map<string, string>) returns (data: Record)
    ensures forall k :: k in data <==> k in base || k in FIELD_NAMES
    ensures forall k :: k in FIELD_NAMES ==> data[k] == CopiedField(base, form, k)
    ensures forall k :: k in base && k !in FIELD_NAMES ==> data[k] == base[k]
  {
    data := base;
    var i := 0;
    while i < |FIELD_NAMES|
      invariant 0 <= i <= |FIELD_NAMES|
      invariant forall k :: k in data <==> k in base || k in FIELD_NAMES[..i]
      invariant forall k :: k in FIELD_NAMES[..i] ==> data[k] == CopiedField(base, form, k)
      invariant forall k :: k in base && k !in FIELD_NAMES[..i] ==> data[k] == base[k]
    {
      var name := FIELD_NAMES[i];
      assert FIELD_NAMES[..i + 1] == FIELD_NAMES[..i] + [name];
      if name in form {
        data := data[name := Text(Trim(form[name]))];
      } else if name !in data {
        data := data[name := Text("")];
      }
      i := i + 1;
    }
    assert FIELD_NAMES[..i] == FIELD_NAMES;
  }

  /** `state.current?.No?.toString()`: missing when there is no current record or it has no number. */
  function CurrentNoText(current: Option<Record>): Field {
    var no := Get(current, "No");
    if no == Absent then Absent else Text(Str(no))
  }

  /** A name the form left empty takes the current record's name when that one is non-empty. */
  function KeptName(copied: Field, current: Option<Record>, name: string): Field {
    if !Truthy(copied) && Truthy(Get(current, name)) then Get(current, name) else copied
  }

  /** A kept name is non-empty exactly when the form's or the current record's is, and the form's wins. */
  lemma KeptNameTruthy(copied: Field, current: Option<Record>, name: string)
    ensures Truthy(KeptName(copied, current, name)) <==> Truthy(copied) || Truthy(Get(current, name))
    ensures Truthy(copied) ==> KeptName(copied, current, name) == copied
  {
  }

  /** The number as text: `data.No ? data.No.toString() : ''`. */
  function NoAsText(no: Field): Field {
    if Truthy(no) then Text(Str(no)) else Text("")
  }

  /** A number keeps its presence when it is turned into text. */
  lemma NoAsTextTruthy(no: Field)
    ensures NoAsText(no).Text? && (Truthy(NoAsText(no)) <==> Truthy(no))
  {
    if no.Num? && no.n != 0 {
      assert Str(no) == IntToString(no.n);
    }
  }

  /**
   * What `collectFormData` reads besides the current record: the named form
   * controls, the two hidden spread fields, the picture input, the two
   * toggles and the body size input.
   */
  datatype FormInputs = FormInputs(
    controls: map<string, string>, preEvs: string, ivs: string,
    picture: string, shiny: bool, boss: bool, bodySize: string)

  /** The copied fields the derived fields are computed from. */
  predicate Sources(copied: Record) {
    "Picture" in copied && "No" in copied && "LV_Min" in copied
    && "CN_Name" in copied && "ENG_Name" in copied && "Web_Name" in copied
  }

  /** The values of the fields set after the copy loop. */
  datatype Derived = Derived(
    preEvs: Field, ivs: Field, picture: Field, no: Field, cnName: Field, engName: Field, webName: Field,
    shiny: Field, boss: Field, bodySize: Field, level: Field)

  /** The fields `collectFormData` sets after the copy loop, computed from the copied record and the inputs. */
  function Derive(copied: Record, current: Option<Record>, f: FormInputs): Derived
    requires Sources(copied)
  {
    Derived(
      Text(f.preEvs),
      Text(f.ivs),
      Or(Text(Trim(f.picture)), Or(copied["Picture"], Or(copied["No"], Or(CurrentNoText(current), Text(""))))),
      NoAsText(copied["No"]),
      KeptName(copied["CN_Name"], current, "CN_Name"),
      KeptName(copied["ENG_Name"], current, "ENG_Name"),
      KeptName(copied["Web_Name"], current, "Web_Name"),
      Flag(f.shiny),
      Flag(f.boss),
      Text(NormaliseBodySize(Text(f.bodySize), false)),
      Text(IntToString(ClampLevelValue(copied["LV_Min"], EffectiveMinLevel(current, f.boss)))))
  }

  /** The derived values under their field names. */
  function Assemble(d: Derived): Record {
    map[
      "Pre_Evs" := d.preEvs, "Ivs" := d.ivs, "Picture" := d.picture, "No" := d.no,
      "CN_Name" := d.cnName, "ENG_Name" := d.engName, "Web_Name" := d.webName,
      "Is_Shiny" := d.shiny, "Is_Boss" := d.boss, "Body_Size" := d.bodySize, "LV_Min" := d.level
    ]
  }

  /** Laid over any record, the derived values add exactly their field names, and every other field is untouched. */
  lemma AssembleKeys(copied: Record, d: Derived)
    ensures (copied + Assemble(d)).Keys == copied.Keys + DERIVED
    ensures forall k :: k in copied && k !in DERIVED ==> (copied + Assemble(d))[k] == copied[k]
  {
  }

  /** Laid over any record, the derived values are found under their field names. */
  lemma AssembleAt(copied: Record, d: Derived)
    ensures var r := copied + Assemble(d);
      r.Keys == copied.Keys + DERIVED
      && r["Pre_Evs"] == d.preEvs && r["Ivs"] == d.ivs && r["Picture"] == d.picture && r["No"] == d.no
      && r["CN_Name"] == d.cnName && r["ENG_Name"] == d.engName && r["Web_Name"] == d.webName
      && r["Is_Shiny"] == d.shiny && r["Is_Boss"] == d.boss && r["Body_Size"] == d.bodySize && r["LV_Min"] == d.level
  {
    AssembleKeys(copied, d);
  }

  /** The record `collectFormData()` returns once the level input has been brought within its bounds. */
  function CollectedRecord(current: Option<Record>, f: FormInputs): Record {
    var copied := CopiedRecord(Base(current), f.controls);
    CopiedHasSources(Base(current), f.controls);
    copied + Assemble(Derive(copied, current, f))
  }

  /** `collectFormData()`: the copy loop, then the derived fields. */
  method CollectFormData(current: Option<Record>, f: FormInputs) returns (data: Record)
    ensures data == CollectedRecord(current, f)
  {
    var copied := CopyFormFields(Base(current), f.controls);
    CopiedRecordOf(Base(current), f.controls, copied);
    CopiedHasSources(Base(current), f.controls);
    data := copied + Assemble(Derive(copied, current, f));
  }

  /** The collected record holds the current record's fields, every form field and the two toggles, and nothing else. */
  lemma CollectedKeys(current: Option<Record>, f: FormInputs)
    ensures forall k :: k in CollectedRecord(current, f) <==> k in Base(current) || k in FIELD_NAMES || k == "Is_Shiny" || k == "Is_Boss"
  {
    var copied := CopiedRecord(Base(current), f.controls);
    CopiedHasSources(Base(current), f.controls);
    DerivedAreFieldNames();
    AssembleKeys(copied, Derive(copied, current, f));
  }

  /**
   * A form field that is not recomputed holds the trimmed control value,
   * else the stored value, else `''`; a field the form does not name keeps
   * its stored value.
   */
  lemma CollectedCopies(current: Option<Record>, f: FormInputs, k: string)
    requires k !in DERIVED
    ensures k in FIELD_NAMES ==> CollectedRecord(current, f)[k] == CopiedField(Base(current), f.controls, k)
    ensures k in Base(current) && k !in FIELD_NAMES ==> CollectedRecord(current, f)[k] == Base(current)[k]
  {
    var copied := CopiedRecord(Base(current), f.controls);
    CopiedHasSources(Base(current), f.controls);
    AssembleKeys(copied, Derive(copied, current, f));
  }

  /** A number is recorded, as text, exactly when the form or the current record provides one. */
  lemma CollectedNumber(current: Option<Record>, f: FormInputs)
    ensures "No" in CollectedRecord(current, f) && CollectedRecord(current, f)["No"].Text?
    ensures HasNumber(CollectedRecord(current, f)) <==> Truthy(CopiedField(Base(current), f.controls, "No"))
  {
    var copied := CopiedRecord(Base(current), f.controls);
    CopiedAt(Base(current), f.controls, "No");
    NoAsTextTruthy(copied["No"]);
    CopiedHasSources(Base(current), f.controls);
    var d := Derive(copied, current, f);
    assert d.no == NoAsText(copied["No"]);
    AssembleAt(copied, d);
  }

  /**
   * A picture input that is not blank wins; otherwise the stored picture, the
   * number, or the current record's number stands in, so a record with a
   * number always has a picture.
   */
  lemma CollectedPicture(current: Option<Record>, f: FormInputs)
    ensures var r := CollectedRecord(current, f);
      "Picture" in r && (Trim(f.picture) != "" ==> r["Picture"] == Text(Trim(f.picture)))
    ensures var r := CollectedRecord(current, f);
      "Picture" in r && (Truthy(r["Picture"]) <==>
        Trim(f.picture) != "" || Truthy(CopiedField(Base(current), f.controls, "Picture"))
        || Truthy(CopiedField(Base(current), f.controls, "No")) || Truthy(CurrentNoText(current)))
    ensures HasNumber(CollectedRecord(current, f)) ==> Truthy(CollectedRecord(current, f)["Picture"])
  {
    CollectedNumber(current, f);
    var copied := CopiedRecord(Base(current), f.controls);
    CopiedAt(Base(current), f.controls, "No");
    CopiedAt(Base(current), f.controls, "Picture");
    CopiedHasSources(Base(current), f.controls);
    var d := Derive(copied, current, f);
    assert d.picture == Or(Text(Trim(f.picture)), Or(copied["Picture"], Or(copied["No"], Or(CurrentNoText(current), Text("")))));
    AssembleAt(copied, d);
  }

  /** The spread fields and the toggles are taken from their inputs as they are. */
  lemma CollectedInputs(current: Option<Record>, f: FormInputs)
    ensures var r := CollectedRecord(current, f);
      "Pre_Evs" in r && "Ivs" in r && "Is_Shiny" in r && "Is_Boss" in r
      && r["Pre_Evs"] == Text(f.preEvs) && r["Ivs"] == Text(f.ivs)
      && r["Is_Shiny"] == Flag(f.shiny) && r["Is_Boss"] == Flag(f.boss)
  {
    var copied := CopiedRecord(Base(current), f.controls);
    CopiedHasSources(Base(current), f.controls);
    AssembleAt(copied, Derive(copied, current, f));
  }

  /** The body size is never empty: it is the text of an integer in 0..255 that reads back as itself. */
  lemma CollectedBodySize(current: Option<Record>, f: FormInputs)
    ensures var r := CollectedRecord(current, f);
      "Body_Size" in r && r["Body_Size"].Text? && r["Body_Size"].s != ""
      && ParseInt(r["Body_Size"].s).Some? && 0 <= ParseInt(r["Body_Size"].s).value <= DEFAULT_BODY_SIZE
      && IntToString(ParseInt(r["Body_Size"].s).value) == r["Body_Size"].s
  {
    NormalisedIsCanonical(Text(f.bodySize), false);
    var copied := CopiedRecord(Base(current), f.controls);
    CopiedHasSources(Base(current), f.controls);
    AssembleAt(copied, Derive(copied, current, f));
  }

  /**
   * The level reads back as a whole number between the effective floor and
   * 100, and a level already within those bounds is kept.
   */
  lemma CollectedLevel(current: Option<Record>, f: FormInputs)
    ensures var r := CollectedRecord(current, f);
      "LV_Min" in r && ParseLevelValue(r["LV_Min"]).Some?
      && EffectiveMinLevel(current, f.boss) <= ParseLevelValue(r["LV_Min"]).value <= DEFAULT_MAX_LEVEL
    ensures forall v ::
      (ParseLevelValue(CopiedField(Base(current), f.controls, "LV_Min")) == Some(v) && EffectiveMinLevel(current, f.boss) <= v && InLevelRange(v))
      ==> ParseLevelValue(CollectedRecord(current, f)["LV_Min"]) == Some(v)
  {
    var copied := CopiedRecord(Base(current), f.controls);
    CopiedAt(Base(current), f.controls, "LV_Min");
    CopiedHasSources(Base(current), f.controls);
    var floor := EffectiveMinLevel(current, f.boss);
    var level := ClampLevelValue(copied["LV_Min"], floor);
    ParseLevelOfString(level);
    forall v | ParseLevelValue(CopiedField(Base(current), f.controls, "LV_Min")) == Some(v) && floor <= v && InLevelRange(v)
      ensures level == v
    {
      ClampLevelKeeps(copied["LV_Min"], floor, v);
    }
    var d := Derive(copied, current, f);
    assert d.level == Text(IntToString(level));
    AssembleAt(copied, d);
  }

  /** The name fields of the collected record are the form's names, or else the current record's. */
  lemma CollectedNameFields(current: Option<Record>, f: FormInputs)
    ensures var r := CollectedRecord(current, f); var base := Base(current);
      "CN_Name" in r && r["CN_Name"] == KeptName(CopiedField(base, f.controls, "CN_Name"), current, "CN_Name")
      && "ENG_Name" in r && r["ENG_Name"] == KeptName(CopiedField(base, f.controls, "ENG_Name"), current, "ENG_Name")
      && "Web_Name" in r && r["Web_Name"] == KeptName(CopiedField(base, f.controls, "Web_Name"), current, "Web_Name")
  {
    var copied := CopiedRecord(Base(current), f.controls);
    CopiedAt(Base(current), f.controls, "CN_Name");
    CopiedAt(Base(current), f.controls, "ENG_Name");
    CopiedAt(Base(current), f.controls, "Web_Name");
    CopiedHasSources(Base(current), f.controls);
    AssembleAt(copied, Derive(copied, current, f));
  }

  /** In record `r`, a name is present exactly when the form or the current record provides one, and a name from the form wins. */
  predicate NameKeptIn(r: Record, base: Record, form: map<string, string>, current: Option<Record>, name: string) {
    name in r
    && (Truthy(r[name]) <==> Truthy(CopiedField(base, form, name)) || Truthy(Get(current, name)))
    && (Truthy(CopiedField(base, form, name)) ==> r[name] == CopiedField(base, form, name))
  }

  /** Saving never loses a name: each of the three name fields is kept from the form, or else from the current record. */
  lemma CollectedNames(current: Option<Record>, f: FormInputs)
    ensures var r := CollectedRecord(current, f);
      NameKeptIn(r, Base(current), f.controls, current, "CN_Name")
      && NameKeptIn(r, Base(current), f.controls, current, "ENG_Name")
      && NameKeptIn(r, Base(current), f.controls, current, "Web_Name")
  {
    var base := Base(current);
    var r := CollectedRecord(current, f);
    CollectedNameFields(current, f);
    NameKept(r, CopiedField(base, f.controls, "CN_Name"), current, "CN_Name");
    NameKept(r, CopiedField(base, f.controls, "ENG_Name"), current, "ENG_Name");
    NameKept(r, CopiedField(base, f.controls, "Web_Name"), current, "Web_Name");
  }

  lemma NameKept(r: Record, copied: Field, current: Option<Record>, name: string)
    requires name in r && r[name] == KeptName(copied, current, name)
    ensures Truthy(r[name]) <==> Truthy(copied) || Truthy(Get(current, name))
    ensures Truthy(copied) ==> r[name] == copied
  {
    KeptNameTruthy(copied, current, name);
  }

  /** `{ ...(state.current || {}) }` */
  function Base(current: Option<Record>): Record {
    if current.Some? then current.value else map[]
  }

  /** Whether a record has a number: `formData.No` is truthy. */
  predicate HasNumber(r: Record) {
    "No" in r && Truthy(r["No"])
  }

  /** `box.filter((item) => item !== entry)` */
  function Without<T(==)>(s: seq<T>, x: T): (r: seq<T>)
    ensures x !in r
    ensures |r| <= |s|
  {
    if s == [] then []
    else (if s[0] != x then [s[0]] else []) + Without(s[1..], x)
  }

  /** Filtering keeps exactly the values other than the one removed. */
  lemma {:induction false} WithoutMembers<T>(s: seq<T>, x: T)
    ensures forall y :: y in Without(s, x) <==> y in s && y != x
  {
    if s != [] {
      WithoutMembers(s[1..], x);
      assert forall y :: y in s <==> y == s[0] || y in s[1..];
    }
  }

  /** Without the value present, filtering keeps everything. */
  lemma {:induction false} WithoutAbsent<T>(s: seq<T>, x: T)
    requires x !in s
    ensures Without(s, x) == s
  {
    if s != [] {
      WithoutAbsent(s[1..], x);
      assert [s[0]] + s[1..] == s;
    }
  }

  /** In a box without repeated entries, deleting an entry removes exactly its one position and keeps the order of the rest. */
  lemma {:induction false} WithoutDistinct<T>(s: seq<T>, x: T, k: nat)
    requires NoDup(s) && k < |s| && s[k] == x
    ensures Without(s, x) == s[..k] + s[k + 1..]
    ensures |Without(s, x)| == |s| - 1
  {
    if k == 0 {
      assert x !in s[1..];
      WithoutAbsent(s[1..], x);
    } else {
      var rest := s[1..];
      assert NoDup(rest);
      WithoutDistinct(rest, x, k - 1);
      assert s[..k] == [s[0]] + rest[..k - 1];
      assert s[k + 1..] == rest[k..];
    }
  }

  /** Deleting keeps the other entries distinct. */
  lemma {:induction false} WithoutKeepsDistinct<T>(s: seq<T>, x: T)
    requires NoDup(s)
    ensures NoDup(Without(s, x))
  {
    if s != [] {
      var rest := s[1..];
      assert NoDup(rest);
      WithoutKeepsDistinct(rest, x);
      WithoutMembers(rest, x);
      assert s[0] !in rest;
    }
  }

  /** A saved record, an object whose fields a later save may overwrite in place. */
  class Entry {
    var data: Record

    constructor (d: Record)
      ensures data == d
    {
      data := d;
    }
  }

  /** The box state: the saved entries, the entry being edited, and the current record. */
  class BoxState {
    var box: seq<Entry>
    var editingEntry: Entry?
    var current: Option<Record>

    /** No entry is saved twice, and the entry being edited, if any, is in the box. */
    predicate Valid()
      reads this
    {
      NoDup(box) && (editingEntry != null ==> editingEntry in box)
    }

    constructor ()
      ensures Valid() && box == [] && editingEntry == null && current == None
    {
      box := [];
      editingEntry := null;
      current := None;
    }

    /**
     * The edit button of an entry's card: that entry becomes the one being
     * edited, and `shown`, the record `setCurrent` builds from a copy of it,
     * becomes the current record.
     */
    method Edit(entry: Entry, shown: Record)
      requires Valid() && entry in box
      modifies this
      ensures Valid()
      ensures editingEntry == entry && box == old(box) && current == Some(shown)
    {
      editingEntry := entry;
      current := Some(shown);
    }

    /** The delete button of an entry's card: exactly that entry leaves the box, and editing stops if it was being edited. */
    method Delete(entry: Entry)
      requires Valid()
      modifies this
      ensures Valid()
      ensures box == Without(old(box), entry)
      ensures forall k :: 0 <= k < |old(box)| && old(box)[k] == entry ==> box == old(box)[..k] + old(box)[k + 1..]
      ensures entry !in old(box) ==> box == old(box)
      ensures editingEntry == if old(editingEntry) == entry then null else old(editingEntry)
      ensures current == old(current)
    {
      if editingEntry == entry {
        editingEntry := null;
      }
      WithoutKeepsDistinct(box, entry);
      if entry in box {
        var k :| 0 <= k < |box| && box[k] == entry;
        WithoutDistinct(box, entry, k);
        forall j | 0 <= j < |box| && box[j] == entry
          ensures j == k
        {
        }
      } else {
        WithoutAbsent(box, entry);
      }
      box := Without(box, entry);
    }

    /**
     * `handleSaveToBox()` with the collected record: nothing without a number;
     * the entry being edited is overwritten in place when it is still in the
     * box; otherwise a copy is appended, editing stops, and the notification
     * fires.
     */
    method SaveToBox(formData: Record) returns (notified: bool)
      requires Valid()
      modifies this, editingEntry
      ensures Valid()
      ensures !HasNumber(formData) ==>
        box == old(box) && editingEntry == old(editingEntry) && current == old(current) && !notified
        && (editingEntry != null ==> editingEntry.data == old(editingEntry.data))
      ensures HasNumber(formData) && old(editingEntry) != null ==>
        box == old(box) && editingEntry == old(editingEntry)
        && editingEntry.data == old(editingEntry.data) + formData && !notified
      ensures HasNumber(formData) && old(editingEntry) == null ==>
        |box| == |old(box)| + 1 && box[..|old(box)|] == old(box)
        && fresh(box[|old(box)|]) && box[|old(box)|].data == formData
        && editingEntry == null && notified
      ensures HasNumber(formData) ==> current == Some(Base(old(current)) + formData)
      ensures forall e :: e in old(box) && e != old(editingEntry) ==> e.data == old(e.data)
    {
      notified := false;
      if !HasNumber(formData) {
        return;
      }
      if editingEntry != null && editingEntry in box {
        editingEntry.data := editingEntry.data + formData;
      } else {
        var entry := new Entry(formData);
        box := box + [entry];
        notified := true;
        editingEntry := null;
      }
      current := Some(Base(current) + formData);
    }

    /**
     * `handleSaveToBox()`: collects the form over the current record and
     * saves it; only a form or current record with a number changes anything.
     */
    method HandleSaveToBox(f: FormInputs) returns (notified: bool)
      requires Valid()
      modifies this, editingEntry
      ensures Valid()
      ensures var hasNumber := Truthy(CopiedField(Base(old(current)), f.controls, "No"));
        !hasNumber ==> box == old(box) && editingEntry == old(editingEntry) && current == old(current) && !notified
      ensures var hasNumber := Truthy(CopiedField(Base(old(current)), f.controls, "No"));
        hasNumber && old(editingEntry) != null ==>
          box == old(box) && editingEntry == old(editingEntry) && !notified
          && editingEntry.data == old(editingEntry.data) + CollectedRecord(old(current), f)
      ensures var hasNumber := Truthy(CopiedField(Base(old(current)), f.controls, "No"));
        hasNumber && old(editingEntry) == null ==>
          |box| == |old(box)| + 1 && box[..|old(box)|] == old(box) && fresh(box[|old(box)|])
          && box[|old(box)|].data == CollectedRecord(old(current), f) && editingEntry == null && notified
      ensures Truthy(CopiedField(Base(old(current)), f.controls, "No")) ==>
        current == Some(Base(old(current)) + CollectedRecord(old(current), f))
      ensures forall e :: e in old(box) && e != old(editingEntry) ==> e.data == old(e.data)
    {
      var data := CollectFormData(current, f);
      CollectedNumber(current, f);
      notified := SaveToBox(data);
    }
  }
}

=== FILE: level_constraint.dfy ===
/**
 * The level field: a floor of 1..100 derived from a record's `LV_Min` (and,
 * in boss mode, `Boss_LV_Min`), and the rule that clamps a typed level to
 * the floor and to 100.
 */
module LevelConstraint {
  import opened Optional
  import opened Text
  import opened Numbers
  import opened Values

  const DEFAULT_MIN_LEVEL := 1
  const DEFAULT_MAX_LEVEL := 100

  /** Within the level range 1..100. */
  predicate InLevelRange(n: int) {
    DEFAULT_MIN_LEVEL <= n <= DEFAULT_MAX_LEVEL
  }

  /** `Math.min(Math.max(n, 1), 100)` */
  function ClampToRange(n: int): (r: int)
    ensures InLevelRange(r)
    ensures InLevelRange(n) ==> r == n
    ensures n < DEFAULT_MIN_LEVEL ==> r == DEFAULT_MIN_LEVEL
    ensures n > DEFAULT_MAX_LEVEL ==> r == DEFAULT_MAX_LEVEL
  {
    if n < DEFAULT_MIN_LEVEL then DEFAULT_MIN_LEVEL else if n > DEFAULT_MAX_LEVEL then DEFAULT_MAX_LEVEL else n
  }

  /**
   * `parseLevelValue`: a number is taken as it is, blank or non-string values
   * are NaN (None), and other text is read with `parseInt` once trimmed.
   * Since `parseInt` skips whitespace and blank text has no digits, a text
   * reads exactly as `parseInt` reads it untrimmed.
   */
  function ParseLevelValue(value: Field): (r: Option<int>)
    ensures value.Num? ==> r == Some(value.n)
    ensures value.Absent? || value.Flag? ==> r == None
    ensures value.Text? ==> r == ParseInt(value.s)
  {
    match value
    case Num(n) => Some(n)
    case Text(s) =>
      var trimmed := Trim(s);
      ParseIntTrim(s);
      if trimmed == "" then None else ParseInt(trimmed)
    case _ => None
  }

  /** `getBaseMinLevel`: `LV_Min` read and clamped to 1..100, or 1 when it has no value. */
  function BaseMinLevel(p: Option<Record>): (r: int)
    ensures InLevelRange(r)
    ensures ParseLevelValue(Get(p, "LV_Min")).None? ==> r == DEFAULT_MIN_LEVEL
    ensures ParseLevelValue(Get(p, "LV_Min")).Some? && InLevelRange(ParseLevelValue(Get(p, "LV_Min")).value)
      ==> r == ParseLevelValue(Get(p, "LV_Min")).value
    ensures ParseLevelValue(Get(p, "LV_Min")).Some? && ParseLevelValue(Get(p, "LV_Min")).value < DEFAULT_MIN_LEVEL
      ==> r == DEFAULT_MIN_LEVEL
    ensures ParseLevelValue(Get(p, "LV_Min")).Some? && ParseLevelValue(Get(p, "LV_Min")).value > DEFAULT_MAX_LEVEL
      ==> r == DEFAULT_MAX_LEVEL
  {
    match ParseLevelValue(Get(p, "LV_Min"))
    case None => DEFAULT_MIN_LEVEL
    case Some(v) => ClampToRange(v)
  }

  /** `getBossMinLevel`: `Boss_LV_Min` raised to at least the base floor and capped at 100, or the base floor when it has no value. */
  function BossMinLevel(p: Option<Record>): (r: int)
    ensures BaseMinLevel(p) <= r <= DEFAULT_MAX_LEVEL
    ensures ParseLevelValue(Get(p, "Boss_LV_Min")).None? ==> r == BaseMinLevel(p)
    ensures ParseLevelValue(Get(p, "Boss_LV_Min")).Some?
      && BaseMinLevel(p) <= ParseLevelValue(Get(p, "Boss_LV_Min")).value <= DEFAULT_MAX_LEVEL
      ==> r == ParseLevelValue(Get(p, "Boss_LV_Min")).value
    ensures ParseLevelValue(Get(p, "Boss_LV_Min")).Some? && ParseLevelValue(Get(p, "Boss_LV_Min")).value < BaseMinLevel(p)
      ==> r == BaseMinLevel(p)
    ensures ParseLevelValue(Get(p, "Boss_LV_Min")).Some? && ParseLevelValue(Get(p, "Boss_LV_Min")).value > DEFAULT_MAX_LEVEL
      ==> r == DEFAULT_MAX_LEVEL
  {
    var base := BaseMinLevel(p);
    match ParseLevelValue(Get(p, "Boss_LV_Min"))
    case None => base
    case Some(v) =>
      var adjusted := if v > base then v else base;
      if adjusted > DEFAULT_MAX_LEVEL then DEFAULT_MAX_LEVEL else adjusted
  }

  /** `getEffectiveMinLevel`, with the boss toggle passed in. */
  function EffectiveMinLevel(p: Option<Record>, boss: bool): (r: int)
    ensures InLevelRange(r)
    ensures r == if boss then BossMinLevel(p) else BaseMinLevel(p)
  {
    var base := BaseMinLevel(p);
    if boss then
      var bossMin := BossMinLevel(p);
      if base > bossMin then base else bossMin
    else base
  }

  /**
   * `clampLevelValue(value, minLevel)`: the parsed level, or the minimum when
   * it has none, raised to the minimum, then kept within 1..100.
   */
  function ClampLevelValue(value: Field, minLevel: int): (r: int)
    ensures InLevelRange(r)
    ensures minLevel <= DEFAULT_MAX_LEVEL ==> minLevel <= r
    ensures ParseLevelValue(value).Some? && InLevelRange(minLevel) && ParseLevelValue(value).value < minLevel
      ==> r == minLevel
    ensures ParseLevelValue(value).Some? && ParseLevelValue(value).value > DEFAULT_MAX_LEVEL ==> r == DEFAULT_MAX_LEVEL
  {
    var numeric := match ParseLevelValue(value) case None => minLevel case Some(v) => v;
    var raised := if numeric < minLevel then minLevel else numeric;
    ClampToRange(raised)
  }

  /** A level that already satisfies the floor and the ceiling is left as it is. */
  lemma ClampLevelKeeps(value: Field, minLevel: int, v: int)
    requires ParseLevelValue(value) == Some(v)
    requires minLevel <= v && InLevelRange(v)
    ensures ClampLevelValue(value, minLevel) == v
  {
  }

  /** A level with no value is the floor (kept within 1..100). */
  lemma ClampLevelMissing(value: Field, minLevel: int)
    requires ParseLevelValue(value).None?
    ensures ClampLevelValue(value, minLevel) == ClampToRange(minLevel)
  {
  }

  /** The level the input holds after `updateLevelConstraints` enforces a floor: blank text becomes the floor. */
  function EnforcedLevel(text: string, floor: int): int {
    var trimmed := Trim(text);
    if trimmed == "" then floor else ClampLevelValue(Text(trimmed), floor)
  }

  /** An enforced level lies between the floor and 100, and a blank level is exactly the floor. */
  lemma EnforcedLevelRange(text: string, floor: int)
    requires InLevelRange(floor)
    ensures floor <= EnforcedLevel(text, floor) <= DEFAULT_MAX_LEVEL
    ensures AllSpace(text) ==> EnforcedLevel(text, floor) == floor
  {
    TrimBlank(text);
  }

  /** The text of a level reads back as that level. */
  lemma ParseLevelOfString(n: int)
    requires InLevelRange(n)
    ensures ParseLevelValue(Text(IntToString(n))) == Some(n)
  {
    var s := NatToString(n);
    DigitIsNotSpace(s[0]);
    DigitIsNotSpace(s[|s| - 1]);
    TrimOfTrimmed(s);
    NotBlank(s);
    ParseIntOfString(n);
  }

  /** Enforcing a floor no higher than the stored level leaves the stored level unchanged. */
  lemma EnforcedLevelKeeps(n: int, floor: int)
    requires InLevelRange(n) && floor <= n
    ensures EnforcedLevel(IntToString(n), floor) == n
  {
    var s := NatToString(n);
    DigitIsNotSpace(s[0]);
    DigitIsNotSpace(s[|s| - 1]);
    TrimOfTrimmed(s);
    NotBlank(s);
    ParseLevelOfString(n);
    ClampLevelKeeps(Text(s), floor, n);
  }

  /** Enforcing the same floor twice changes nothing the second time. */
  lemma EnforcedLevelIdempotent(text: string, floor: int)
    requires InLevelRange(floor)
    ensures EnforcedLevel(IntToString(EnforcedLevel(text, floor)), floor) == EnforcedLevel(text, floor)
  {
    EnforcedLevelRange(text, floor);
    EnforcedLevelKeeps(EnforcedLevel(text, floor), floor);
  }

  /**
   * Clearing boss mode never lowers a stored level: a level enforced under the
   * boss floor is kept as it is when the (lower) base floor is enforced.
   */
  lemma ClearingBossKeepsLevel(p: Option<Record>, text: string)
    ensures var bossLevel := EnforcedLevel(text, EffectiveMinLevel(p, true));
      EnforcedLevel(IntToString(bossLevel), EffectiveMinLevel(p, false)) == bossLevel
  {
    var bossLevel := EnforcedLevel(text, EffectiveMinLevel(p, true));
    EnforcedLevelRange(text, EffectiveMinLevel(p, true));
    EnforcedLevelKeeps(bossLevel, EffectiveMinLevel(p, false));
  }

  /** Turning boss mode on raises a stored level to at least the boss floor. */
  lemma SettingBossRaisesLevel(p: Option<Record>, text: string)
    ensures EnforcedLevel(text, EffectiveMinLevel(p, true)) >= BossMinLevel(p)
  {
    EnforcedLevelRange(text, EffectiveMinLevel(p, true));
  }

  /** `value.replace(/[^0-9]/g, '')`: the digits of the text, in order. */
  function DigitsOnly(s: string): (r: string)
    ensures AllDigits(r) && |r| <= |s|
    ensures AllDigits(s) ==> r == s
  {
    if s == [] then []
    else if IsDigit(s[0]) then [s[0]] + DigitsOnly(s[1..])
    else DigitsOnly(s[1..])
  }

  /** Keeping the digits of two pieces of text keeps those of the first, then those of the second: the digits keep their order. */
  lemma {:induction false} DigitsOnlyAppend(a: string, b: string)
    ensures DigitsOnly(a + b) == DigitsOnly(a) + DigitsOnly(b)
  {
    if a != [] {
      assert (a + b)[1..] == a[1..] + b;
      DigitsOnlyAppend(a[1..], b);
      if IsDigit(a[0]) {
        assert [a[0]] + DigitsOnly(a[1..]) + DigitsOnly(b) == [a[0]] + (DigitsOnly(a[1..]) + DigitsOnly(b));
      }
    } else {
      assert a + b == b;
    }
  }

  /** Keeping the digits keeps exactly the digit characters, with their multiplicities. */
  lemma {:induction false} DigitsOnlyKeepsDigits(s: string, c: char)
    ensures multiset(DigitsOnly(s))[c] == if IsDigit(c) then multiset(s)[c] else 0
  {
    if s != [] {
      DigitsOnlyKeepsDigits(s[1..], c);
      assert s == [s[0]] + s[1..];
    }
  }

  /** The level input: its text and its `min` and `max` attributes. */
  class LevelInput {
    var value: string
    var min: string
    var max: string

    /** `initLevelControl`: the attributes start at 1 and 100. */
    constructor (initial: string)
      ensures value == initial && min == IntToString(DEFAULT_MIN_LEVEL) && max == IntToString(DEFAULT_MAX_LEVEL)
    {
      value := initial;
      min := IntToString(DEFAULT_MIN_LEVEL);
      max := IntToString(DEFAULT_MAX_LEVEL);
    }

    /**
     * `updateLevelConstraints({ enforceValue })` for the shown record and the
     * boss toggle: the attributes follow the effective floor, and when
     * enforcing, the text becomes the enforced level.
     */
    method UpdateLevelConstraints(current: Option<Record>, boss: bool, enforceValue: bool)
      modifies this
      ensures min == IntToString(EffectiveMinLevel(current, boss))
      ensures max == IntToString(DEFAULT_MAX_LEVEL)
      ensures value == if enforceValue then IntToString(EnforcedLevel(old(value), EffectiveMinLevel(current, boss)))
                       else old(value)
    {
      var minimum := EffectiveMinLevel(current, boss);
      var clampedMin := ClampToRange(minimum);
      min := IntToString(clampedMin);
      max := IntToString(DEFAULT_MAX_LEVEL);
      if !enforceValue {
        return;
      }
      var trimmed := Trim(value);
      if trimmed == "" {
        value := IntToString(clampedMin);
        return;
      }
      var normalised := ClampLevelValue(Text(trimmed), clampedMin);
      value := IntToString(normalised);
    }

    /** The input handler of `initLevelControl`: everything but digits is dropped as it is typed. */
    method HandleInput()
      modifies this
      ensures value == DigitsOnly(old(value))
      ensures min == old(min) && max == old(max)
    {
      var digitsOnly := DigitsOnly(value);
      if digitsOnly != value {
        value := digitsOnly;
      }
    }
  }
}

=== FILE: moves.dfy ===
/**
 * Move pools and the four move slots.  A record lists its level-up and TM
 * moves as `-`-separated text; each slot is a select offering both pools,
 * and remembers the last value it accepted so that picking a move already
 * shown in another slot can be rolled back.
 */
module Moves {
  import opened Optional
  import opened Text
  import opened Values
  import opened Unique
  import opened Selects

  const SLOT_COUNT := 4

  /** The record fields that preset each slot. */
  const MOVE_KEYS: seq<string> := ["Pre_Move1", "Pre_Move2", "Pre_Move3", "Pre_Move4"]

  const MOVE_PLACEHOLDER := "选择技能"
  const SEPARATOR_TEXT := "──────────"

  /** The trimmed parts that are not empty, in order. */
  function TrimmedNames(parts: seq<string>): (names: seq<string>)
    ensures |names| <= |parts|
    ensures forall i :: 0 <= i < |names| ==> names[i] != "" && Trimmed(names[i])
  {
    if parts == [] then []
    else
      var name := Trim(parts[|parts| - 1]);
      TrimmedNames(parts[..|parts| - 1]) + (if name != "" then [name] else [])
  }

  /** Some part of `parts` trims to the non-empty name `x`. */
  predicate Mentions(parts: seq<string>, x: string) {
    x != "" && exists i :: 0 <= i < |parts| && Trim(parts[i]) == x
  }

  /** A name is mentioned by some part exactly when the earlier parts or the last part mention it. */
  lemma MentionsSnoc(parts: seq<string>, x: string)
    requires parts != []
    ensures var n := |parts| - 1;
      Mentions(parts, x) <==> Mentions(parts[..n], x) || (x != "" && Trim(parts[n]) == x)
  {
    var n := |parts| - 1;
    var init := parts[..n];
    if Mentions(parts, x) {
      var i :| 0 <= i < |parts| && Trim(parts[i]) == x;
      if i < n {
        assert init[i] == parts[i];
      }
    }
    if Mentions(init, x) {
      var i :| 0 <= i < n && Trim(init[i]) == x;
      assert parts[i] == init[i];
    }
  }

  /** A name is listed exactly when it is the trim of some part and not empty. */
  lemma {:induction false} TrimmedNamesMember(parts: seq<string>, x: string)
    ensures x in TrimmedNames(parts) <==> Mentions(parts, x)
  {
    if parts != [] {
      var n := |parts| - 1;
      var init := parts[..n];
      var last := Trim(parts[n]);
      MentionsSnoc(parts, x);
      TrimmedNamesMember(init, x);
      assert TrimmedNames(parts) == TrimmedNames(init) + (if last != "" then [last] else []);
    }
  }

  /** Parts that are already trimmed and not empty are kept as they are. */
  lemma {:induction false} TrimmedNamesOfNames(parts: seq<string>)
    requires forall i :: 0 <= i < |parts| ==> parts[i] != "" && Trimmed(parts[i])
    ensures TrimmedNames(parts) == parts
  {
    if parts != [] {
      var n := |parts| - 1;
      TrimmedNamesOfNames(parts[..n]);
      TrimOfTrimmed(parts[n]);
      assert parts[..n] + [parts[n]] == parts;
    }
  }

  /**
   * The pool `parseMoveList(raw)` returns: nothing for a value that is not a
   * string, otherwise the trimmed `-`-separated names, each kept at its first
   * occurrence.
   */
  function MovePool(raw: Field): (moves: seq<string>)
    ensures NoDup(moves)
    ensures !raw.Text? ==> moves == []
  {
    if raw.Text? then
      var names := TrimmedNames(SplitOn(raw.s, {'-'}));
      DedupDistinct(names);
      Dedup(names)
    else []
  }

  /** Every pooled move is a non-empty name without surrounding whitespace. */
  lemma MovePoolNames(raw: Field)
    ensures forall i :: 0 <= i < |MovePool(raw)| ==> MovePool(raw)[i] != "" && Trimmed(MovePool(raw)[i])
  {
    if raw.Text? {
      var moves := MovePool(raw);
      forall i | 0 <= i < |moves|
        ensures moves[i] != "" && Trimmed(moves[i])
      {
        MovePoolMember(raw.s, moves[i]);
        var parts := SplitOn(raw.s, {'-'});
        var j :| 0 <= j < |parts| && Trim(parts[j]) == moves[i];
      }
    }
  }

  /** A move is in the pool exactly when some part of the text trims to it. */
  lemma MovePoolMember(s: string, x: string)
    ensures x in MovePool(Text(s)) <==> Mentions(SplitOn(s, {'-'}), x)
  {
    var parts := SplitOn(s, {'-'});
    var names := TrimmedNames(parts);
    assert MovePool(Text(s)) == Dedup(names);
    DedupDistinct(names);
    TrimmedNamesMember(parts, x);
  }

  /** Moves are pooled in the order of their first mention. */
  lemma MovePoolOrder(s: string, i: nat, j: nat)
    requires i < j < |MovePool(Text(s))|
    ensures var names := TrimmedNames(SplitOn(s, {'-'}));
      var pool := MovePool(Text(s));
      pool[i] in names && pool[j] in names && FirstIndex(names, pool[i]) < FirstIndex(names, pool[j])
  {
    DedupKeepsFirstSeenOrder(TrimmedNames(SplitOn(s, {'-'})), i, j);
  }

  /** Distinct names without whitespace or `-`, joined with `-`, parse back to themselves. */
  lemma MovePoolRoundTrip(names: seq<string>)
    requires NoDup(names)
    requires forall i :: 0 <= i < |names| ==> names[i] != "" && NoSpace(names[i]) && Avoids(names[i], {'-'})
    ensures MovePool(Text(JoinWith(names, "-"))) == names
  {
    if names == [] {
      assert TrimmedNames(SplitOn("", {'-'})) == [];
    } else {
      SplitJoin(names, '-', {'-'});
      forall i | 0 <= i < |names|
        ensures Trimmed(names[i])
      {
        assert !IsSpace(names[i][0]) && !IsSpace(names[i][|names[i]| - 1]);
      }
      TrimmedNamesOfNames(names);
      DedupOfDistinct(names);
    }
  }

  /** One more part either adds its trimmed name to the pool or leaves the pool as it is. */
  lemma PoolStep(parts: seq<string>, i: nat)
    requires i < |parts|
    ensures var pool := Dedup(TrimmedNames(parts[..i]));
      var name := Trim(parts[i]);
      Dedup(TrimmedNames(parts[..i + 1])) == if name == "" || name in pool then pool else pool + [name]
  {
    var name := Trim(parts[i]);
    var names := TrimmedNames(parts[..i]);
    assert parts[..i + 1][..i] == parts[..i] && parts[..i + 1][i] == parts[i];
    if name == "" {
      assert TrimmedNames(parts[..i + 1]) == names + [];
      assert names + [] == names;
    } else {
      assert TrimmedNames(parts[..i + 1]) == names + [name];
      DedupSnoc(names, name);
    }
  }

  /** `parseMoveList(raw)`: a value that is not a string has no moves; text is split on `-` and its parts pooled. */
  method ParseMoveList(raw: Field) returns (moves: seq<string>)
    ensures moves == MovePool(raw)
  {
    if !raw.Text? {
      return [];
    }
    moves := PoolParts(SplitOn(raw.s, {'-'}));
  }

  /** The pool after the first `i` parts, one part at a time as the `forEach` of `parseMoveList` builds it. */
  function PoolUpTo(parts: seq<string>, i: nat): seq<string>
    requires i <= |parts|
  {
    if i == 0 then []
    else
      var pool := PoolUpTo(parts, i - 1);
      var name := Trim(parts[i - 1]);
      if name == "" || name in pool then pool else pool + [name]
  }

  /** Building the pool part by part de-duplicates the trimmed names. */
  lemma {:induction false} PoolUpToIsDedup(parts: seq<string>, i: nat)
    requires i <= |parts|
    ensures PoolUpTo(parts, i) == Dedup(TrimmedNames(parts[..i]))
  {
    if i > 0 {
      PoolUpToIsDedup(parts, i - 1);
      PoolStep(parts, i - 1);
    }
  }

  lemma PoolOfAllParts(parts: seq<string>)
    ensures PoolUpTo(parts, |parts|) == Dedup(TrimmedNames(parts))
  {
    PoolUpToIsDedup(parts, |parts|);
    assert parts[..|parts|] == parts;
  }

  /** The `forEach` of `parseMoveList`: a part is skipped when its trimmed name is empty or already `seen`. */
  method PoolParts(parts: seq<string>) returns (moves: seq<string>)
    ensures moves == Dedup(TrimmedNames(parts))
  {
    var seen: set<string> := {};
    moves := [];
    var i := 0;
    while i < |parts|
      invariant 0 <= i <= |parts|
      invariant moves == PoolUpTo(parts, i)
      invariant forall x :: x in seen <==> x in moves
    {
      var name := Trim(parts[i]);
      if name != "" && name !in seen {
        seen := seen + {name};
        moves := moves + [name];
      }
      i := i + 1;
    }
    PoolOfAllParts(parts);
  }

  function MoveOptions(moves: seq<string>, kind: OptionKind): (r: seq<SelectOption>)
    ensures |r| == |moves|
    ensures OptionValues(r) == moves
    ensures forall i :: 0 <= i < |r| ==> r[i].kind == kind && !r[i].disabled
  {
    seq(|moves|, i requires 0 <= i < |moves| => SelectOption(moves[i], moves[i], false, kind))
  }

  predicate NeedsSeparator(level: seq<string>, tm: seq<string>) {
    |level| > 0 && |tm| > 0
  }

  /** The rebuilt list of a slot: the placeholder, the level moves, a disabled separator when both pools are non-empty, the TM moves. */
  function PoolOptions(level: seq<string>, tm: seq<string>): (r: seq<SelectOption>)
    ensures |r| == 1 + |level| + (if NeedsSeparator(level, tm) then 1 else 0) + |tm|
    ensures OptionValues(r) == [""] + level + (if NeedsSeparator(level, tm) then [""] else []) + tm
  {
    var head := [SelectOption("", MOVE_PLACEHOLDER, false, Placeholder)];
    var separator := if NeedsSeparator(level, tm) then [SelectOption("", SEPARATOR_TEXT, true, Separator)] else [];
    var r := head + MoveOptions(level, LevelMove) + separator + MoveOptions(tm, TmMove);
    OptionValuesAppend(head, MoveOptions(level, LevelMove));
    OptionValuesAppend(head + MoveOptions(level, LevelMove), separator);
    OptionValuesAppend(head + MoveOptions(level, LevelMove) + separator, MoveOptions(tm, TmMove));
    r
  }

  /** The values a slot offers are `''` and the moves of the two pools. */
  lemma PoolOptionValues(level: seq<string>, tm: seq<string>, v: string)
    ensures v in OptionValues(PoolOptions(level, tm)) <==> v == "" || v in level || v in tm
  {
    var opts := PoolOptions(level, tm);
    var sep := if NeedsSeparator(level, tm) then 1 else 0;
    if v in level {
      var i :| 0 <= i < |level| && level[i] == v;
      assert OptionValues(opts)[1 + i] == v;
    }
    if v in tm {
      var i :| 0 <= i < |tm| && tm[i] == v;
      assert OptionValues(opts)[1 + |level| + sep + i] == v;
    }
    if v in OptionValues(opts) {
      var k :| 0 <= k < |opts| && opts[k].value == v;
      if 1 <= k < 1 + |level| {
        assert v == level[k - 1];
      } else if 1 + |level| + sep <= k {
        assert v == tm[k - 1 - |level| - sep];
      }
    }
    assert OptionValues(opts)[0] == "";
  }

  /** There is a separator exactly when both pools have moves. */
  lemma SeparatorIffBothPools(level: seq<string>, tm: seq<string>)
    ensures (exists k :: 0 <= k < |PoolOptions(level, tm)| && PoolOptions(level, tm)[k].kind == Separator)
        <==> NeedsSeparator(level, tm)
  {
    var opts := PoolOptions(level, tm);
    if NeedsSeparator(level, tm) {
      assert opts[1 + |level|].kind == Separator;
    }
  }

  /** A slot's options once its preset move is ensured. */
  function SlotOptions(level: seq<string>, tm: seq<string>, current: string): seq<SelectOption> {
    EnsuredOptions(PoolOptions(level, tm), current)
  }

  /** `currentValue || previousValue || ''` */
  function Fallback(current: string, previous: string): string {
    if current != "" then current else previous
  }

  /** `pokemon?.[`Pre_Move${k + 1}`] || ''` */
  function CurrentMove(p: Option<Record>, k: nat): string
    requires k < SLOT_COUNT
  {
    TextOr(p, MOVE_KEYS[k])
  }

  /** A slot with a preset move shows it, whether or not either pool has it. */
  lemma SlotShowsPreset(level: seq<string>, tm: seq<string>, current: string, previous: string)
    requires current != ""
    ensures Shows(SlotOptions(level, tm, current), Fallback(current, previous)) == current
  {
    EnsuredShows(PoolOptions(level, tm), current);
  }

  /**
   * A slot without a preset move shows its remembered move when a pool has
   * it, and `''` otherwise, while it goes on remembering that move.
   */
  lemma SlotShowsRemembered(level: seq<string>, tm: seq<string>, previous: string)
    ensures Fallback("", previous) == previous
    ensures Shows(SlotOptions(level, tm, ""), Fallback("", previous))
         == if previous in level || previous in tm then previous else ""
  {
    PoolOptionValues(level, tm, previous);
  }

  /** Loading does not check presets for repeats: two slots preset to the same move both show it. */
  lemma LoadKeepsRepeatedPresets(p: Option<Record>, level: seq<string>, tm: seq<string>, previous: seq<string>, j: nat, k: nat)
    requires j < SLOT_COUNT && k < SLOT_COUNT && |previous| == SLOT_COUNT
    requires CurrentMove(p, j) == CurrentMove(p, k) != ""
    ensures Shows(SlotOptions(level, tm, CurrentMove(p, j)), Fallback(CurrentMove(p, j), previous[j]))
         == Shows(SlotOptions(level, tm, CurrentMove(p, k)), Fallback(CurrentMove(p, k), previous[k]))
  {
    SlotShowsPreset(level, tm, CurrentMove(p, j), previous[j]);
    SlotShowsPreset(level, tm, CurrentMove(p, k), previous[k]);
  }

  /** No two slots show the same non-empty move. */
  predicate DistinctMoves(values: seq<string>) {
    forall i, j :: 0 <= i < |values| && 0 <= j < |values| && i != j && values[i] != "" ==> values[i] != values[j]
  }

  /** `moveSelects.some(...)`: another slot shows `v`. */
  predicate ShownElsewhere(values: seq<string>, k: nat, v: string) {
    exists j :: 0 <= j < |values| && j != k && values[j] == v
  }

  /** Replacing one slot by `''` or by a move no other slot shows keeps the slots distinct. */
  lemma DistinctReplace(values: seq<string>, k: nat, a: string, b: string)
    requires k < |values| && DistinctMoves(values[k := a])
    requires b == "" || !ShownElsewhere(values, k, b)
    ensures DistinctMoves(values[k := b])
  {
    var after := values[k := b];
    forall i, j | 0 <= i < |after| && 0 <= j < |after| && i != j && after[i] != ""
      ensures after[i] != after[j]
    {
      if i == k {
        assert after[j] == values[j];
      } else if j == k {
        assert values[k := a][i] == after[i] && after[i] != "";
        if b != "" {
          assert values[i] != b;
        }
      } else {
        assert values[k := a][i] == after[i] && values[k := a][j] == after[j];
      }
    }
  }

  /**
   * The four move selects and `moveSelectPreviousValues`, the value each one
   * last accepted (the map from select to value becomes a sequence indexed by slot).
   */
  class MoveSlots {
    var options: seq<seq<SelectOption>>
    var values: seq<string>
    var previous: seq<string>

    predicate Valid()
      reads this
    {
      |options| == SLOT_COUNT && |values| == SLOT_COUNT && |previous| == SLOT_COUNT
    }

    /** `initMoveSelectors`: each slot remembers the value it shows. */
    constructor (initialOptions: seq<seq<SelectOption>>, initialValues: seq<string>)
      requires |initialOptions| == SLOT_COUNT && |initialValues| == SLOT_COUNT
      ensures Valid()
      ensures options == initialOptions && values == initialValues && previous == initialValues
    {
      options := initialOptions;
      values := initialValues;
      previous := initialValues;
    }

    /** `syncMoveSelectPreviousValues`: each slot remembers the value it shows. */
    method SyncMoveSelectPreviousValues()
      requires Valid()
      modifies this
      ensures Valid()
      ensures previous == values && values == old(values) && options == old(options)
    {
      previous := values;
    }

    /**
     * `updateMoveSelectOptions(pokemon)`: every slot is rebuilt from the two
     * pools, its preset move ensured; it is set to the preset move or else its
     * remembered one, and remembers that value even when no option carries it.
     */
    method UpdateMoveSelectOptions(pokemon: Option<Record>)
      requires Valid()
      modifies this
      ensures Valid()
      ensures forall k :: 0 <= k < SLOT_COUNT ==>
        && options[k] == SlotOptions(MovePool(Get(pokemon, "Move_Lv")), MovePool(Get(pokemon, "Move_TM")), CurrentMove(pokemon, k))
        && previous[k] == Fallback(CurrentMove(pokemon, k), old(previous)[k])
        && values[k] == Shows(options[k], previous[k])
    {
      var levelMoves := ParseMoveList(Get(pokemon, "Move_Lv"));
      var tmMoves := ParseMoveList(Get(pokemon, "Move_TM"));
      var k := 0;
      while k < SLOT_COUNT
        invariant 0 <= k <= SLOT_COUNT
        invariant Valid()
        invariant forall j :: k <= j < SLOT_COUNT ==> previous[j] == old(previous)[j]
        invariant forall j :: 0 <= j < k ==>
          && options[j] == SlotOptions(levelMoves, tmMoves, CurrentMove(pokemon, j))
          && previous[j] == Fallback(CurrentMove(pokemon, j), old(previous)[j])
          && values[j] == Shows(options[j], previous[j])
      {
        var currentValue := CurrentMove(pokemon, k);
        var previousValue := previous[k];
        var slot := PoolOptions(levelMoves, tmMoves);
        if currentValue != "" {
          slot := EnsuredOptions(slot, currentValue);
        }
        var fallbackValue := Fallback(currentValue, previousValue);
        options := options[k := slot];
        values := values[k := Shows(slot, fallbackValue)];
        previous := previous[k := fallbackValue];
        k := k + 1;
      }
    }

    /**
     * `handleMoveSelectChange` for slot `k`, whose select already shows the
     * move just picked: an empty pick is accepted and forgotten; a move shown
     * in another slot is rejected with a notification and the slot returns to
     * its remembered move; any other move is accepted and remembered.
     */
    method HandleMoveSelectChange(k: nat) returns (notified: bool)
      requires Valid() && k < SLOT_COUNT
      modifies this
      ensures Valid()
      ensures notified <==> old(values)[k] != "" && ShownElsewhere(old(values), k, old(values)[k])
      ensures forall j :: 0 <= j < SLOT_COUNT && j != k ==>
        values[j] == old(values)[j] && options[j] == old(options)[j] && previous[j] == old(previous)[j]
      ensures old(values)[k] == "" ==> previous[k] == "" && values == old(values) && options == old(options)
      ensures notified ==> previous == old(previous) && values[k] == old(previous)[k]
                           && options[k] == EnsuredOptions(old(options)[k], old(previous)[k])
      ensures !notified && old(values)[k] != "" ==>
        previous[k] == old(values)[k] && values == old(values) && options == old(options)
      ensures values[k] == previous[k]
      ensures DistinctMoves(old(values)[k := old(previous)[k]]) ==> DistinctMoves(values)
    {
      var newValue := values[k];
      var previousValue := previous[k];
      if newValue == "" {
        if DistinctMoves(values[k := previousValue]) {
          DistinctReplace(values, k, previousValue, "");
        }
        assert values[k := ""] == values;
        previous := previous[k := ""];
        return false;
      }
      var hasDuplicate := ShownElsewhere(values, k, newValue);
      if hasDuplicate {
        notified := true;
        var rollbackValue := previousValue;
        var present := rollbackValue in OptionValues(options[k]);
        if !present && rollbackValue != "" {
          options := options[k := EnsuredOptions(options[k], rollbackValue)];
        }
        EnsuredShows(old(options)[k], rollbackValue);
        values := values[k := Shows(options[k], rollbackValue)];
        assert values == old(values)[k := previousValue];
        return;
      }
      if DistinctMoves(values[k := previousValue]) {
        DistinctReplace(values, k, previousValue, newValue);
      }
      assert values[k := newValue] == values;
      previous := previous[k := newValue];
      notified := false;
    }
  }
}

=== FILE: numbers.dfy ===
/**
 * Integer text as JavaScript reads and prints it: `Number.parseInt(s, 10)`,
 * `Number(s)` on integer text, and `String(n)` for integers.  Numbers are
 * mathematical integers; fractions, exponents and hexadecimal are not modelled.
 */
module Numbers {
  import opened Optional
  import opened Text

  function DigitValue(c: char): nat
    requires IsDigit(c)
  {
    (c as int) - ('0' as int)
  }

  function DigitChar(d: nat): char
    requires d < 10
  {
    ('0' as int + d) as char
  }

  /** The value of a run of decimal digits, most significant first. */
  function DigitsValue(s: string): nat
    requires AllDigits(s)
  {
    if s == [] then 0 else DigitsValue(s[..|s| - 1]) * 10 + DigitValue(s[|s| - 1])
  }

  /** `String(n)` for a non-negative integer: shortest decimal digits. */
  function NatToString(n: nat): (s: string)
    ensures s != [] && AllDigits(s)
    ensures |s| == 1 || s[0] != '0'
  {
    if n < 10 then [DigitChar(n)]
    else NatToString(n / 10) + [DigitChar(n % 10)]
  }

  /** The digits `String` prints for `n` have the value `n`. */
  lemma {:induction false} NatToStringValue(n: nat)
    ensures DigitsValue(NatToString(n)) == n
  {
    if n >= 10 {
      NatToStringValue(n / 10);
      var s := NatToString(n);
      assert s[..|s| - 1] == NatToString(n / 10);
    }
  }

  /** Digits that do not start with `0` have a positive value. */
  lemma {:induction false} PositiveDigits(s: string)
    requires s != [] && AllDigits(s) && s[0] != '0'
    ensures DigitsValue(s) >= 1
  {
    if |s| > 1 {
      var init := s[..|s| - 1];
      assert init[0] == s[0];
      PositiveDigits(init);
    }
  }

  lemma DigitCharOfValue(c: char)
    requires IsDigit(c)
    ensures DigitChar(DigitValue(c)) == c
  {
    var x := '0' as int + DigitValue(c);
    assert x == c as int;
  }

  /** Digits without a superfluous leading zero are exactly what `String` prints for their value. */
  lemma {:induction false} NatToStringOfDigits(s: string)
    requires s != [] && AllDigits(s)
    requires |s| == 1 || s[0] != '0'
    ensures NatToString(DigitsValue(s)) == s
  {
    var n := |s| - 1;
    var init := s[..n];
    var v := DigitsValue(s);
    if n == 0 {
      assert s[..0] == [];
      DigitCharOfValue(s[0]);
    } else {
      assert init[0] == s[0];
      PositiveDigits(init);
      NatToStringOfDigits(init);
      assert v / 10 == DigitsValue(init) && v % 10 == DigitValue(s[n]);
      assert init + [s[n]] == s;
    }
  }

  /** A run of zeros has the value 0. */
  lemma {:induction false} ZerosValue(z: string)
    requires forall i :: 0 <= i < |z| ==> z[i] == '0'
    ensures AllDigits(z) && DigitsValue(z) == 0
  {
    if z != [] {
      ZerosValue(z[..|z| - 1]);
    }
  }

  /** Leading zeros do not change the value of a run of digits. */
  lemma {:induction false} ZeroPrefixValue(z: string, s: string)
    requires forall i :: 0 <= i < |z| ==> z[i] == '0'
    requires AllDigits(s)
    ensures AllDigits(z + s) && DigitsValue(z + s) == DigitsValue(s)
  {
    ZerosValue(z);
    if s == [] {
      assert z + s == z;
    } else {
      var n := |s| - 1;
      ZeroPrefixValue(z, s[..n]);
      assert (z + s)[..|z + s| - 1] == z + s[..n];
    }
  }

  /** `String(n)` for any integer. */
  function IntToString(n: int): string {
    if n < 0 then "-" + NatToString(-n) else NatToString(n)
  }

  /** The longest prefix of ASCII digits. */
  function LeadingDigits(s: string): (d: string)
    ensures AllDigits(d) && |d| <= |s|
  {
    if s != [] && IsDigit(s[0]) then [s[0]] + LeadingDigits(s[1..]) else []
  }

  /** A run of digits followed by a non-digit (or nothing) is exactly the leading digits. */
  lemma {:induction false} LeadingDigitsOf(d: string, rest: string)
    requires AllDigits(d)
    requires rest == [] || !IsDigit(rest[0])
    ensures LeadingDigits(d + rest) == d
  {
    if d != [] {
      assert (d + rest)[1..] == d[1..] + rest;
      LeadingDigitsOf(d[1..], rest);
      assert [d[0]] + d[1..] == d;
    }
  }

  /** A leading run of digits, if there is one, as its value. */
  function LeadingValue(body: string): Option<nat> {
    var digits := LeadingDigits(body);
    if digits == [] then None else Some(DigitsValue(digits))
  }

  /** A digit string as its value; anything else (the empty string included) is NaN. */
  function WholeValue(body: string): Option<nat> {
    if body != [] && AllDigits(body) then Some(DigitsValue(body)) else None
  }

  /** Applies a sign read before the digits. */
  function Signed(negative: bool, x: Option<nat>): (r: Option<int>)
    ensures r.Some? <==> x.Some?
    ensures x.Some? ==> r.value == if negative then -(x.value as int) else x.value
  {
    match x
    case None => None
    case Some(v) => Some(if negative then -(v as int) else v)
  }

  /** Whether the text starts with a sign character. */
  predicate HasSign(t: string) {
    t != [] && (t[0] == '-' || t[0] == '+')
  }

  /**
   * `Number.parseInt(s, 10)`: leading whitespace, an optional sign, then the
   * longest run of decimal digits; `NaN` (here None) when there is no digit.
   */
  function ParseInt(s: string): Option<int> {
    var t := TrimStart(s);
    if HasSign(t) then Signed(t[0] == '-', LeadingValue(t[1..])) else Signed(false, LeadingValue(t))
  }

  /** `Number(s)` on a string: blank is 0, an optionally signed digit string its value, anything else NaN. */
  function JsNumber(s: string): Option<int> {
    var t := Trim(s);
    if t == [] then Some(0)
    else if HasSign(t) then Signed(t[0] == '-', WholeValue(t[1..]))
    else Signed(false, WholeValue(t))
  }

  /** `String(x)` for a number that may be NaN. */
  function NumberText(x: Option<int>): string {
    match x
    case None => "NaN"
    case Some(n) => IntToString(n)
  }

  lemma DigitIsNotSpace(c: char)
    requires IsDigit(c) || c == '-'
    ensures !IsSpace(c)
  {
  }

  /** Text that starts with a non-space character has nothing to trim at its start. */
  lemma TrimStartNonSpace(s: string)
    requires s != [] && !IsSpace(s[0])
    ensures TrimStart(s) == s
  {
  }

  lemma LeadingValueOf(d: string, rest: string)
    requires d != [] && AllDigits(d)
    requires rest == [] || !IsDigit(rest[0])
    ensures LeadingValue(d + rest) == Some(DigitsValue(d))
  {
    LeadingDigitsOf(d, rest);
  }

  lemma ParseIntDigits(d: string, rest: string)
    requires d != [] && AllDigits(d)
    requires rest == [] || !IsDigit(rest[0])
    ensures ParseInt(d + rest) == Some(DigitsValue(d))
  {
    var s := d + rest;
    assert s[0] == d[0];
    DigitIsNotSpace(s[0]);
    TrimStartNonSpace(s);
    LeadingValueOf(d, rest);
  }

  /** Text that starts with `-` is read as the negated leading value of what follows. */
  lemma ParseIntMinus(t: string)
    ensures ParseInt("-" + t) == Signed(true, LeadingValue(t))
  {
    var s := "-" + t;
    DigitIsNotSpace('-');
    TrimStartNonSpace(s);
    assert s[1..] == t;
  }

  lemma ParseIntNegativeDigits(d: string, rest: string)
    requires d != [] && AllDigits(d)
    requires rest == [] || !IsDigit(rest[0])
    ensures ParseInt("-" + (d + rest)) == Some(-(DigitsValue(d) as int))
  {
    LeadingValueOf(d, rest);
    ParseIntMinus(d + rest);
  }

  /** `parseInt` reads back what `String` prints, and stops at the first non-digit after it. */
  lemma ParseIntPrinted(n: int, rest: string)
    requires rest == [] || !IsDigit(rest[0])
    ensures ParseInt(IntToString(n) + rest) == Some(n)
  {
    if n < 0 {
      var d := NatToString(-n);
      assert IntToString(n) + rest == "-" + (d + rest);
      ParseIntNegativeDigits(d, rest);
      NatToStringValue(-n);
    } else {
      ParseIntDigits(NatToString(n), rest);
      NatToStringValue(n);
    }
  }

  /** `parseInt(String(n))` is `n`. */
  lemma ParseIntOfString(n: int)
    ensures ParseInt(IntToString(n)) == Some(n)
  {
    ParseIntPrinted(n, []);
    assert IntToString(n) + [] == IntToString(n);
  }

  /** `Number(String(n))` is `n`. */
  lemma NumberOfString(n: int)
    ensures JsNumber(IntToString(n)) == Some(n)
  {
    var s := IntToString(n);
    var d := NatToString(if n < 0 then -n else n);
    NatToStringValue(if n < 0 then -n else n);
    DigitIsNotSpace(s[0]);
    assert s[|s| - 1] == d[|d| - 1];
    DigitIsNotSpace(s[|s| - 1]);
    TrimOfTrimmed(s);
    if n < 0 {
      assert s[1..] == d;
    } else {
      assert s == d;
    }
  }

  /** `Number` of the decimal text of a non-negative integer is that integer. */
  lemma NumberOfNat(n: nat)
    ensures JsNumber(NatToString(n)) == Some(n)
  {
    NumberOfDigits(NatToString(n));
    NatToStringValue(n);
  }

  /** `Number` of a digit string is its decimal value. */
  lemma NumberOfDigits(d: string)
    requires d != [] && AllDigits(d)
    ensures JsNumber(d) == Some(DigitsValue(d))
  {
    DigitIsNotSpace(d[0]);
    DigitIsNotSpace(d[|d| - 1]);
    TrimOfTrimmed(d);
  }

  /** The leading digits stop where a non-digit begins. */
  lemma {:induction false} LeadingDigitsBefore(x: string, w: string)
    requires w == [] || !IsDigit(w[0])
    ensures LeadingDigits(x + w) == LeadingDigits(x)
  {
    if x != [] {
      assert (x + w)[1..] == x[1..] + w;
      if IsDigit(x[0]) {
        LeadingDigitsBefore(x[1..], w);
      }
    }
  }

  /** `parseInt` ignores surrounding whitespace: reading the trimmed text gives the same result. */
  lemma ParseIntTrim(s: string)
    ensures ParseInt(Trim(s)) == ParseInt(s)
  {
    var i, j := TrimInfix(s);
    var u, w := s[i..j], s[j..];
    assert s[i..] == u + w;
    if u != [] {
      TrimStartNonSpace(u);
      assert (u + w)[0] == u[0];
      assert (u + w)[1..] == u[1..] + w;
      LeadingDigitsBefore(u[1..], w);
      LeadingDigitsBefore(u, w);
    }
  }

  /** Blank text has no integer value. */
  lemma ParseIntBlank(s: string)
    requires AllSpace(s)
    ensures ParseInt(s) == None
  {
    TrimStartBlank(s);
  }
}

=== FILE: reference_lists.dfy ===
/**
 * The reference lists behind the ball, held item and nature selects: one
 * entry per non-blank line after a header line, split on whitespace.
 */
module ReferenceLists {
  import opened Text

  /** A ball or item: its id and its display name. */
  datatype TableItem = TableItem(id: string, name: string)

  datatype NatureItem = NatureItem(name: string)

  /** `.filter((line) => line.length > 0)` */
  function NonEmptyLines(lines: seq<string>): (r: seq<string>)
    ensures forall i :: 0 <= i < |r| ==> r[i] != "" && r[i] in lines
    ensures forall x :: x in r <==> x in lines && x != ""
  {
    if lines == [] then []
    else (if lines[0] != "" then [lines[0]] else []) + NonEmptyLines(lines[1..])
  }

  /** The filter works line by line: the kept lines of two blocks are those of the first, then those of the second. */
  lemma {:induction false} NonEmptyLinesAppend(a: seq<string>, b: seq<string>)
    ensures NonEmptyLines(a + b) == NonEmptyLines(a) + NonEmptyLines(b)
  {
    if a == [] {
      assert a + b == b;
    } else {
      assert (a + b)[1..] == a[1..] + b;
      NonEmptyLinesAppend(a[1..], b);
    }
  }

  lemma {:induction false} NonEmptyLinesOfNonEmpty(lines: seq<string>)
    requires forall i :: 0 <= i < |lines| ==> lines[i] != ""
    ensures NonEmptyLines(lines) == lines
  {
    if lines != [] {
      NonEmptyLinesOfNonEmpty(lines[1..]);
      assert [lines[0]] + lines[1..] == lines;
    }
  }

  function TrimAll(lines: seq<string>): (r: seq<string>)
    ensures |r| == |lines|
    ensures forall i :: 0 <= i < |r| ==> Trimmed(r[i])
  {
    seq(|lines|, i requires 0 <= i < |lines| => Trim(lines[i]))
  }

  lemma TrimAllAppend(a: seq<string>, b: seq<string>)
    ensures TrimAll(a + b) == TrimAll(a) + TrimAll(b)
  {
    assert forall i :: 0 <= i < |a + b| ==> TrimAll(a + b)[i] == (TrimAll(a) + TrimAll(b))[i];
  }

  /**
   * `text.split(/\r?\n/).map((line) => line.trim()).filter(...)`.  Splitting
   * on `\n` alone is the same here: a `\r` left at the end of a line is
   * whitespace that `trim()` removes.
   */
  function ContentLines(text: string): (r: seq<string>)
    ensures forall i :: 0 <= i < |r| ==> r[i] != "" && Trimmed(r[i])
  {
    NonEmptyLines(TrimAll(SplitOn(text, {'\n'})))
  }

  /** A line is kept, trimmed, exactly when it is not blank: the content lines are the trimmed non-blank lines of the text. */
  lemma ContentLinesMember(text: string, x: string)
    ensures x in ContentLines(text) <==> x != "" && exists line :: line in SplitOn(text, {'\n'}) && Trim(line) == x
  {
    var lines := SplitOn(text, {'\n'});
    if x != "" && exists line :: line in lines && Trim(line) == x {
      var line :| line in lines && Trim(line) == x;
      var i :| 0 <= i < |lines| && lines[i] == line;
      assert TrimAll(lines)[i] == x;
    }
  }

  /** Content lines keep the order of the text: text joined at a line break has the lines of the first part, then those of the second. */
  lemma ContentLinesAppend(a: string, b: string)
    ensures ContentLines(a + "\n" + b) == ContentLines(a) + ContentLines(b)
  {
    SplitOnAppend(a, '\n', b, {'\n'});
    TrimAllAppend(SplitOn(a, {'\n'}), SplitOn(b, {'\n'}));
    NonEmptyLinesAppend(TrimAll(SplitOn(a, {'\n'})), TrimAll(SplitOn(b, {'\n'})));
  }

  /** `.slice(n)` */
  function Skip(lines: seq<string>, n: nat): (r: seq<string>)
    ensures |r| == if n <= |lines| then |lines| - n else 0
  {
    if n <= |lines| then lines[n..] else []
  }

  /** A trimmed non-empty line starts with a non-empty word. */
  lemma FirstWordNonEmpty(line: string)
    ensures line != "" && Trimmed(line) ==> Words(line)[0] != ""
  {
    var i := FirstSpace(line);
    if line == "" || !Trimmed(line) {
    } else if i < |line| {
      assert i != 0;
      assert Words(line)[0] == line[..i];
    } else {
      assert Words(line) == [line];
    }
  }

  /** `const [id, ...rest] = line.split(/\s+/)`, the name being `rest.join(' ') || id || ''`. */
  function ParseTableLine(line: string): (item: TableItem)
    ensures NoSpace(item.id)
    ensures line != "" && Trimmed(line) ==> item.id != "" && item.name != ""
  {
    var words := Words(line);
    var id := words[0];
    var rest := JoinWith(words[1..], " ");
    FirstWordNonEmpty(line);
    TableItem(id, if rest != "" then rest else id)
  }

  function ItemName(item: TableItem): string { item.name }

  function NatureName(item: NatureItem): string { item.name }

  /** `.filter((item) => item.name)`, for any kind of item with a name. */
  function FilterNamed<T(==, !new)>(items: seq<T>, name: T -> string): (r: seq<T>)
    ensures forall i :: 0 <= i < |r| ==> name(r[i]) != "" && r[i] in items
    ensures forall x :: x in r <==> x in items && name(x) != ""
  {
    if items == [] then []
    else (if name(items[0]) != "" then [items[0]] else []) + FilterNamed(items[1..], name)
  }

  /** The filter works item by item: the kept items of two lists are those of the first, then those of the second. */
  lemma {:induction false} FilterNamedAppend<T(!new)>(a: seq<T>, b: seq<T>, name: T -> string)
    ensures FilterNamed(a + b, name) == FilterNamed(a, name) + FilterNamed(b, name)
  {
    if a == [] {
      assert a + b == b;
    } else {
      assert (a + b)[1..] == a[1..] + b;
      FilterNamedAppend(a[1..], b, name);
    }
  }

  /** Filtering by name drops nothing when every item has a name. */
  lemma {:induction false} FilterNamedOfNamed<T(!new)>(items: seq<T>, name: T -> string)
    requires forall i :: 0 <= i < |items| ==> name(items[i]) != ""
    ensures FilterNamed(items, name) == items
  {
    if items != [] {
      FilterNamedOfNamed(items[1..], name);
      assert [items[0]] + items[1..] == items;
    }
  }

  /** `parseTableList(text, { skipHeader })` */
  function ParseTableList(text: string, skipHeader: bool): (r: seq<TableItem>)
    ensures forall i :: 0 <= i < |r| ==> r[i].id != "" && r[i].name != "" && NoSpace(r[i].id)
  {
    var body := Skip(ContentLines(text), if skipHeader then 1 else 0);
    var items := seq(|body|, i requires 0 <= i < |body| => ParseTableLine(body[i]));
    FilterNamed(items, ItemName)
  }

  /** Every non-blank line after the header gives one item, in order: the final name filter drops nothing. */
  lemma TableListOnePerLine(text: string, skipHeader: bool)
    ensures var body := Skip(ContentLines(text), if skipHeader then 1 else 0);
      ParseTableList(text, skipHeader) == seq(|body|, i requires 0 <= i < |body| => ParseTableLine(body[i]))
  {
    var lines := ContentLines(text);
    var body := Skip(lines, if skipHeader then 1 else 0);
    var items := seq(|body|, i requires 0 <= i < |body| => ParseTableLine(body[i]));
    forall i | 0 <= i < |items|
      ensures items[i].name != ""
    {
      assert body[i] in lines;
    }
    FilterNamedOfNamed(items, ItemName);
  }

  /** A line holding a single word names the item by its id. */
  lemma TableLineOfWord(w: string)
    requires w != "" && NoSpace(w)
    ensures ParseTableLine(w) == TableItem(w, w)
  {
    WordsOfWord(w);
    assert Words(w)[1..] == [];
  }

  /** A line `id name` gives that id and that name. */
  lemma TableLineOfPair(id: string, name: string)
    requires id != "" && NoSpace(id) && name != "" && NoSpace(name)
    ensures ParseTableLine(id + " " + name) == TableItem(id, name)
  {
    WordsOfPair(id, name);
    assert Words(id + " " + name)[1..] == [name];
  }

  /** A line `id w1 w2 …` gives that id, and the remaining words joined by single spaces as the name. */
  lemma TableLineOfWords(id: string, names: seq<string>)
    requires id != "" && NoSpace(id)
    requires |names| >= 1 && forall i :: 0 <= i < |names| ==> names[i] != "" && NoSpace(names[i])
    ensures ParseTableLine(id + " " + JoinWith(names, " ")) == TableItem(id, JoinWith(names, " "))
  {
    var ws := [id] + names;
    assert ws[1..] == names;
    assert JoinWith(ws, " ") == id + " " + JoinWith(names, " ");
    WordsOfJoin(ws);
    JoinWords(names);
  }

  /** `parseNatureList(text)`: the first word of every non-blank line after the header. */
  function ParseNatureList(text: string): (r: seq<NatureItem>)
    ensures forall i :: 0 <= i < |r| ==> r[i].name != "" && NoSpace(r[i].name)
  {
    var body := Skip(ContentLines(text), 1);
    var items := seq(|body|, i requires 0 <= i < |body| => NatureItem(Words(body[i])[0]));
    FilterNamed(items, NatureName)
  }

  /** A word without whitespace stays as it is through trimming. */
  lemma WordTrimmed(w: string)
    requires w != "" && NoSpace(w)
    ensures Trim(w) == w
  {
    TrimOfTrimmed(w);
  }

  lemma TrimAllOfTrimmed(lines: seq<string>)
    requires forall i :: 0 <= i < |lines| ==> Trimmed(lines[i])
    ensures TrimAll(lines) == lines
  {
    forall i | 0 <= i < |lines|
      ensures TrimAll(lines)[i] == lines[i]
    {
      TrimOfTrimmed(lines[i]);
    }
  }

  /** A line in front of a list of lines shares their shape. */
  lemma ConsLines(header: string, lines: seq<string>)
    requires header != "" && Trimmed(header) && Avoids(header, {'\n'})
    requires forall i :: 0 <= i < |lines| ==> lines[i] != "" && Trimmed(lines[i]) && Avoids(lines[i], {'\n'})
    ensures var all := [header] + lines;
      forall i :: 0 <= i < |all| ==> all[i] != "" && Trimmed(all[i]) && Avoids(all[i], {'\n'})
  {
    var all := [header] + lines;
    forall i | 0 <= i < |all|
      ensures all[i] != "" && Trimmed(all[i]) && Avoids(all[i], {'\n'})
    {
      if i > 0 {
        assert all[i] == lines[i - 1];
      }
    }
  }

  /** The lines of a text written as a header line and then one line per entry, all without line breaks. */
  lemma LinesOfJoin(header: string, lines: seq<string>)
    requires header != "" && Trimmed(header) && Avoids(header, {'\n'})
    requires forall i :: 0 <= i < |lines| ==> lines[i] != "" && Trimmed(lines[i]) && Avoids(lines[i], {'\n'})
    ensures Skip(ContentLines(JoinWith([header] + lines, "\n")), 1) == lines
  {
    var all := [header] + lines;
    ConsLines(header, lines);
    SplitJoin(all, '\n', {'\n'});
    TrimAllOfTrimmed(all);
    NonEmptyLinesOfNonEmpty(all);
    assert all[1..] == lines;
  }

  /** The words of a name written with single spaces: non-empty, without whitespace, at least one. */
  lemma SpacedWordsShape(name: string)
    requires name != "" && SpacedWords(name)
    ensures var ws := Words(name);
      |ws| >= 1 && (forall i :: 0 <= i < |ws| ==> ws[i] != "" && NoSpace(ws[i])) && JoinWith(ws, " ") == name
  {
  }

  /** A line `id name` with a name of single-spaced words is a trimmed line without line breaks, parsed back to that pair. */
  lemma TableLineOfItem(item: TableItem)
    requires item.id != "" && NoSpace(item.id) && item.name != "" && SpacedWords(item.name)
    ensures var l := item.id + " " + item.name;
      l != "" && Trimmed(l) && Avoids(l, {'\n'}) && ParseTableLine(l) == item
  {
    var id, name := item.id, item.name;
    var ws := Words(name);
    SpacedWordsShape(name);
    JoinWords(ws);
    TableLineOfWords(id, ws);
    var l := id + " " + name;
    assert l[0] == id[0];
    assert l[|l| - 1] == name[|name| - 1];
    forall k | 0 <= k < |l|
      ensures l[k] != '\n'
    {
      if k < |id| {
        assert l[k] == id[k] && !IsSpace(id[k]);
      } else if k > |id| {
        assert l[k] == name[k - |id| - 1];
      }
    }
  }

  /**
   * Writing a header and one `id name` line per item, then parsing, gives back
   * the items; a name may have several words, each separated by one space.
   */
  lemma TableListRoundTrip(header: string, items: seq<TableItem>)
    requires header != "" && NoSpace(header)
    requires forall i :: 0 <= i < |items| ==>
      items[i].id != "" && NoSpace(items[i].id) && items[i].name != "" && SpacedWords(items[i].name)
    ensures var lines := seq(|items|, i requires 0 <= i < |items| => items[i].id + " " + items[i].name);
      ParseTableList(JoinWith([header] + lines, "\n"), true) == items
  {
    var lines := seq(|items|, i requires 0 <= i < |items| => items[i].id + " " + items[i].name);
    var text := JoinWith([header] + lines, "\n");
    WordIsLine(header);
    forall i | 0 <= i < |lines|
      ensures lines[i] != "" && Trimmed(lines[i]) && Avoids(lines[i], {'\n'}) && ParseTableLine(lines[i]) == items[i]
    {
      TableLineOfItem(items[i]);
    }
    LinesOfJoin(header, lines);
    TableListOnePerLine(text, true);
  }

  /** A non-empty word without whitespace is a trimmed line without line breaks. */
  lemma WordIsLine(w: string)
    requires w != "" && NoSpace(w)
    ensures Trimmed(w) && Avoids(w, {'\n'})
  {
    assert !IsSpace(w[0]) && !IsSpace(w[|w| - 1]);
  }

  /** Every non-blank line after the header gives the nature named by its first word, in order. */
  lemma NatureListFirstWords(header: string, lines: seq<string>)
    requires header != "" && Trimmed(header) && Avoids(header, {'\n'})
    requires forall i :: 0 <= i < |lines| ==> lines[i] != "" && Trimmed(lines[i]) && Avoids(lines[i], {'\n'})
    ensures ParseNatureList(JoinWith([header] + lines, "\n"))
         == seq(|lines|, i requires 0 <= i < |lines| => NatureItem(Words(lines[i])[0]))
  {
    LinesOfJoin(header, lines);
    var items := seq(|lines|, i requires 0 <= i < |lines| => NatureItem(Words(lines[i])[0]));
    forall i | 0 <= i < |lines|
      ensures items[i].name != ""
    {
      FirstWordNonEmpty(lines[i]);
    }
    FilterNamedOfNamed(items, NatureName);
  }

  /** A nature line that carries further fields after its name is named by that first word. */
  lemma NatureLineOfFields(name: string, fields: string)
    requires name != "" && NoSpace(name)
    ensures NatureItem(Words(name + " " + fields)[0]) == NatureItem(name)
  {
    FirstWordOf(name, fields);
  }

  /**
   * Writing a header and one nature per line, its name optionally followed by a
   * space and further fields, then parsing, gives back the names.
   */
  lemma NatureListRoundTrip(header: string, names: seq<string>, fields: seq<string>)
    requires header != "" && NoSpace(header)
    requires |fields| == |names|
    requires forall i :: 0 <= i < |names| ==> names[i] != "" && NoSpace(names[i])
    requires forall i :: 0 <= i < |fields| ==> Trimmed(fields[i]) && Avoids(fields[i], {'\n'})
    ensures var lines := seq(|names|, i requires 0 <= i < |names| =>
      if fields[i] == "" then names[i] else names[i] + " " + fields[i]);
      ParseNatureList(JoinWith([header] + lines, "\n"))
        == seq(|names|, i requires 0 <= i < |names| => NatureItem(names[i]))
  {
    var lines := seq(|names|, i requires 0 <= i < |names| =>
      if fields[i] == "" then names[i] else names[i] + " " + fields[i]);
    WordIsLine(header);
    forall i | 0 <= i < |lines|
      ensures lines[i] != "" && Trimmed(lines[i]) && Avoids(lines[i], {'\n'}) && Words(lines[i])[0] == names[i]
    {
      var n, f, l := names[i], fields[i], lines[i];
      WordIsLine(n);
      if f == "" {
        WordsOfWord(n);
      } else {
        FirstWordOf(n, f);
        assert l[0] == n[0];
        assert l[|l| - 1] == f[|f| - 1];
        forall k | 0 <= k < |l|
          ensures l[k] != '\n'
        {
          if k < |n| {
            assert l[k] == n[k];
          } else if k > |n| {
            assert l[k] == f[k - |n| - 1];
          }
        }
      }
    }
    NatureListFirstWords(header, lines);
  }
}

=== FILE: selects.dfy ===
/**
 * A `<select>` element reduced to its option list and the value it reports,
 * with the DOM rule that matters here: assigning a value no option carries
 * leaves nothing selected, so the select reports `''`.
 */
module Selects {

  /** Where an option came from: a placeholder, a list entry, a level or TM move, a separator, or `ensureOption`. */
  datatype OptionKind = Placeholder | Listed | LevelMove | TmMove | Separator | Dynamic

  datatype SelectOption = SelectOption(value: string, text: string, disabled: bool, kind: OptionKind)

  function OptionValues(options: seq<SelectOption>): (vs: seq<string>)
    ensures |vs| == |options|
    ensures forall i :: 0 <= i < |options| ==> vs[i] == options[i].value
  {
    seq(|options|, i requires 0 <= i < |options| => options[i].value)
  }

  lemma OptionValuesAppend(a: seq<SelectOption>, b: seq<SelectOption>)
    ensures OptionValues(a + b) == OptionValues(a) + OptionValues(b)
  {
  }

  /** What `select.value` reports after `select.value = v`: `v` when an option carries it, `''` otherwise. */
  function Shows(options: seq<SelectOption>, v: string): (shown: string)
    ensures shown == v || shown == ""
    ensures shown == v <==> v == "" || v in OptionValues(options)
  {
    if v in OptionValues(options) then v else ""
  }

  /** The option selected by default after the list is rebuilt: the first one that is not disabled. */
  function DefaultShown(options: seq<SelectOption>): (shown: string)
    ensures shown == "" || shown in OptionValues(options)
  {
    if options == [] then ""
    else if !options[0].disabled then options[0].value
    else DefaultShown(options[1..])
  }

  /** The option list after `ensureOption(select, v)`: an option for `v` is appended unless one exists. */
  function EnsuredOptions(options: seq<SelectOption>, v: string): (r: seq<SelectOption>)
    ensures v != "" ==> v in OptionValues(r)
    ensures |options| <= |r| <= |options| + 1 && r[..|options|] == options
    ensures v == "" || v in OptionValues(options) ==> r == options
  {
    if v == "" || v in OptionValues(options) then options
    else
      var r := options + [SelectOption(v, v, false, Dynamic)];
      assert OptionValues(r)[|options|] == v;
      r
  }

  /** Ensuring a value a second time adds nothing. */
  lemma EnsuredIdempotent(options: seq<SelectOption>, v: string)
    ensures EnsuredOptions(EnsuredOptions(options, v), v) == EnsuredOptions(options, v)
  {
  }

  /** Once ensured, a value can be shown. */
  lemma EnsuredShows(options: seq<SelectOption>, v: string)
    ensures Shows(EnsuredOptions(options, v), v) == v
  {
  }

  /** The options `populateSelect` builds: an optional placeholder, then one option per name. */
  function BuiltOptions(names: seq<string>, placeholder: string): (r: seq<SelectOption>)
    ensures |r| == |names| + (if placeholder != "" then 1 else 0)
    ensures OptionValues(r) == (if placeholder != "" then [""] else []) + names
  {
    (if placeholder != "" then [SelectOption("", placeholder, false, Placeholder)] else [])
    + seq(|names|, i requires 0 <= i < |names| => SelectOption(names[i], names[i], false, Listed))
  }

  /** Without a placeholder and without an earlier value, the first name is selected. */
  lemma BuiltDefaultIsFirstName(names: seq<string>)
    requires names != []
    ensures DefaultShown(BuiltOptions(names, "")) == names[0]
  {
  }

  /** With a placeholder and without an earlier value, the placeholder (value `''`) is selected. */
  lemma BuiltDefaultIsPlaceholder(names: seq<string>, placeholder: string)
    requires placeholder != ""
    ensures DefaultShown(BuiltOptions(names, placeholder)) == ""
  {
  }

  /** A select element: its options and the value it reports. */
  class Select {
    var options: seq<SelectOption>
    var value: string

    constructor ()
      ensures options == [] && value == ""
    {
      options := [];
      value := "";
    }

    /** `ensureOption(select, v)`: a non-empty value gets an option if it has none, and is selected. */
    method EnsureOption(v: string)
      modifies this
      ensures options == EnsuredOptions(old(options), v)
      ensures value == if v == "" then old(value) else v
    {
      if v == "" {
        return;
      }
      var present := v in OptionValues(options);
      if !present {
        options := options + [SelectOption(v, v, false, Dynamic)];
      }
      value := Shows(options, v);
    }

    /**
     * `populateSelect(select, names, placeholder)`: the list is rebuilt, and a
     * value that was selected before is selected again, re-added if the new
     * list lacks it.
     */
    method Populate(names: seq<string>, placeholder: string)
      modifies this
      ensures options == EnsuredOptions(BuiltOptions(names, placeholder), old(value))
      ensures value == if old(value) != "" then old(value) else DefaultShown(BuiltOptions(names, placeholder))
    {
      var previousValue := value;
      options := BuiltOptions(names, placeholder);
      value := DefaultShown(options);
      if previousValue != "" {
        EnsureOption(previousValue);
      }
    }
  }
}

=== FILE: spread_codec.dfy ===
/**
 * The compact spread text of six stats in the order hp, atk, def, spa, spd,
 * spe (`252-0-4-252-0-0`): `parseSpread` reads it, `composeSpread` writes it
 * from the six stat inputs.
 */
module SpreadCodec {
  import opened Optional
  import opened Text
  import opened Numbers
  import opened Values

  /** hp, atk, def, spa, spd, spe */
  const STAT_COUNT := 6

  /** `split(/[-,/]/)` */
  const SEPARATORS: set<char> := {'-', ',', '/'}

  const DEFAULT_EV_SPREAD: seq<int> := [0, 0, 0, 0, 0, 0]
  const DEFAULT_IV_SPREAD: seq<int> := [31, 31, 31, 31, 31, 31]

  /** One position: `Number(parts[index])` if finite, else the fallback's value. */
  function SpreadEntry(parts: seq<string>, index: nat, fallback: int): int {
    if index < |parts| && JsNumber(parts[index]).Some? then JsNumber(parts[index]).value else fallback
  }

  /** `parseSpread(spread, fallback)` */
  function ParseSpread(spread: Field, fallback: seq<int>): (r: seq<int>)
    requires |fallback| == STAT_COUNT
    ensures |r| == STAT_COUNT
    ensures !spread.Text? || Trim(spread.s) == "" ==> r == fallback
  {
    if !spread.Text? || Trim(spread.s) == "" then fallback
    else
      var parts := SplitOn(spread.s, SEPARATORS);
      seq(STAT_COUNT, i requires 0 <= i < STAT_COUNT => SpreadEntry(parts, i, fallback[i]))
  }

  /** `Number(input?.value || 0)` printed: an empty input counts as 0. */
  function InputNumberText(value: string): string {
    NumberText(if value == "" then Some(0) else JsNumber(value))
  }

  /** `composeSpread(inputs)`: each input's number, joined with `-`. */
  function ComposeSpread(inputs: seq<string>): string {
    JoinWith(seq(|inputs|, i requires 0 <= i < |inputs| => InputNumberText(inputs[i])), "-")
  }

  /** The text the stat inputs hold after their values are written back: `String(v)` each. */
  function Decimals(values: seq<nat>): (texts: seq<string>)
    ensures |texts| == |values|
  {
    seq(|values|, i requires 0 <= i < |values| => NatToString(values[i]))
  }

  /** Composing inputs that hold decimal text joins that text unchanged. */
  lemma ComposeDecimals(values: seq<nat>)
    ensures ComposeSpread(Decimals(values)) == JoinWith(Decimals(values), "-")
  {
    var texts := Decimals(values);
    var printed := seq(|texts|, i requires 0 <= i < |texts| => InputNumberText(texts[i]));
    forall i | 0 <= i < |texts|
      ensures printed[i] == texts[i]
    {
      NumberOfString(values[i]);
    }
    assert printed == texts;
  }

  lemma DigitFirstNotBlank(text: string)
    requires text != [] && IsDigit(text[0])
    ensures Trim(text) != ""
  {
    DigitIsNotSpace(text[0]);
    NotBlank(text);
  }

  lemma {:induction false} JoinFirstChar(parts: seq<string>, sep: string)
    requires |parts| >= 1 && parts[0] != []
    ensures JoinWith(parts, sep) != [] && JoinWith(parts, sep)[0] == parts[0][0]
  {
    if |parts| > 1 {
      assert JoinWith(parts, sep) == parts[0] + sep + JoinWith(parts[1..], sep);
    }
  }

  lemma DecimalsAvoidSeparators(values: seq<nat>)
    ensures forall i :: 0 <= i < |values| ==> Avoids(Decimals(values)[i], SEPARATORS)
  {
    forall i | 0 <= i < |values|
      ensures Avoids(Decimals(values)[i], SEPARATORS)
    {
      assert AllDigits(NatToString(values[i]));
    }
  }

  /**
   * Each position of a non-blank spread is the number its part holds; a
   * position with no part, or whose part is not a number, keeps the fallback.
   */
  lemma ParseSpreadEntries(text: string, fallback: seq<int>)
    requires |fallback| == STAT_COUNT && Trim(text) != ""
    ensures var parts, r := SplitOn(text, SEPARATORS), ParseSpread(Text(text), fallback);
      forall i :: 0 <= i < STAT_COUNT ==>
        && (i < |parts| && JsNumber(parts[i]).Some? ==> r[i] == JsNumber(parts[i]).value)
        && (i >= |parts| || JsNumber(parts[i]).None? ==> r[i] == fallback[i])
  {
  }

  /** A spread written from six non-negative values reads back as those values, whatever the fallback. */
  lemma SpreadRoundTrip(values: seq<nat>, fallback: seq<int>)
    requires |values| == STAT_COUNT && |fallback| == STAT_COUNT
    ensures ParseSpread(Text(ComposeSpread(Decimals(values))), fallback) == values
  {
    var texts := Decimals(values);
    ComposeDecimals(values);
    var text := JoinWith(texts, "-");
    DecimalsAvoidSeparators(values);
    SplitJoin(texts, '-', SEPARATORS);
    JoinFirstChar(texts, "-");
    DigitFirstNotBlank(text);
    ParseSpreadEntries(text, fallback);
    var r := ParseSpread(Text(text), fallback);
    forall i | 0 <= i < STAT_COUNT
      ensures r[i] == values[i]
    {
      NumberOfNat(values[i]);
    }
  }

  lemma JoinThree(a: string, b: string)
    ensures JoinWith([a, "", b], "-") == a + "--" + b
  {
    var parts := [a, "", b];
    assert parts[1..] == ["", b];
    assert parts[1..][1..] == [b];
    assert JoinWith(parts[1..], "-") == "" + "-" + b;
    assert a + "-" + ("" + "-" + b) == a + "--" + b;
  }

  /** A spread that splits into a number, an empty position and a number. */
  lemma ParseSpreadThree(text: string, a: string, b: string, fallback: seq<int>, x: int, y: int)
    requires |fallback| == STAT_COUNT && Trim(text) != ""
    requires SplitOn(text, SEPARATORS) == [a, "", b]
    requires JsNumber(a) == Some(x) && JsNumber(b) == Some(y)
    ensures ParseSpread(Text(text), fallback) == [x, 0, y, fallback[3], fallback[4], fallback[5]]
  {
    var parts := [a, "", b];
    ParseSpreadEntries(text, fallback);
    assert JsNumber("") == Some(0);
  }

  /** `Number('')` is 0, so an empty position between two separators reads as 0, not as the fallback. */
  lemma EmptyPositionIsZero(a: string, b: string, fallback: seq<int>)
    requires a != [] && AllDigits(a) && b != [] && AllDigits(b)
    requires |fallback| == STAT_COUNT
    ensures ParseSpread(Text(a + "--" + b), fallback)
         == [DigitsValue(a), 0, DigitsValue(b), fallback[3], fallback[4], fallback[5]]
  {
    var text := a + "--" + b;
    var parts := [a, "", b];
    JoinThree(a, b);
    assert Avoids(a, SEPARATORS) && Avoids("", SEPARATORS) && Avoids(b, SEPARATORS);
    SplitJoin(parts, '-', SEPARATORS);
    assert text[0] == a[0];
    DigitFirstNotBlank(text);
    NumberOfDigits(a);
    NumberOfDigits(b);
    ParseSpreadThree(text, a, b, fallback, DigitsValue(a), DigitsValue(b));
  }
}

=== FILE: sprite.dfy ===
/**
 * Sprite candidates: the ordered list of image paths the editor tries for a
 * picture reference, and the load-token guard that lets only the latest
 * request change what is shown.
 */
module Sprite {
  import opened Optional
  import opened Text
  import opened Numbers
  import opened Unique

  const PICTURE_DIR := "picture"

  /** The extensions tried for a bare number, in order; also the ones the `<digits>.<ext>` pattern admits. */
  const PICTURE_EXTENSIONS: seq<string> := ["png", "jpg", "jpeg", "webp", "gif", "svg"]

  /** `/^(https?:|data:|blob:)/i` */
  predicate IsAbsoluteUrl(value: string) {
    || StartsWithIgnoringCase(value, "http:")
    || StartsWithIgnoringCase(value, "https:")
    || StartsWithIgnoringCase(value, "data:")
    || StartsWithIgnoringCase(value, "blob:")
  }

  /** `value.startsWith('./') || value.startsWith('../') || value.startsWith('/')` */
  predicate IsRelativePath(value: string) {
    StartsWith(value, "./") || StartsWith(value, "../") || StartsWith(value, "/")
  }

  predicate ZerosOnly(z: string) {
    forall i :: 0 <= i < |z| ==> z[i] == '0'
  }

  /** `numberPart.replace(/^0+/, '')`: the digits without their leading zeros. */
  function StripZeros(d: string): (r: string)
    ensures |r| <= |d| && r == d[|d| - |r|..] && ZerosOnly(d[..|d| - |r|])
    ensures r == [] || r[0] != '0'
  {
    if d != [] && d[0] == '0' then
      var r := StripZeros(d[1..]);
      assert d[..|d| - |r|] == [d[0]] + d[1..][..|d| - 1 - |r|];
      r
    else d
  }

  /** `numberPart.replace(/^0+/, '') || '0'` */
  function Normalised(d: string): (r: string)
    ensures r != []
  {
    var stripped := StripZeros(d);
    if stripped == [] then "0" else stripped
  }

  /** `numberPart.padStart(3, '0')` */
  function PadStart3(d: string): (r: string)
    ensures |r| == if |d| >= 3 then |d| else 3
    ensures r[|r| - |d|..] == d && ZerosOnly(r[..|r| - |d|])
  {
    if |d| >= 3 then d else seq(3 - |d|, _ => '0') + d
  }

  /** `${PICTURE_DIR}/${name}.${ext}` */
  function PicturePath(name: string, ext: string): string {
    PICTURE_DIR + "/" + name + "." + ext
  }

  /** The three names tried for one extension: as given, zeros stripped, padded to three digits. */
  function Variants(d: string, ext: string): seq<string> {
    [PicturePath(d, ext), PicturePath(Normalised(d), ext), PicturePath(PadStart3(d), ext)]
  }

  /** What the `forEach` over the extensions adds to the set, in order. */
  function VariantsPerExtension(d: string, exts: seq<string>): seq<string> {
    if exts == [] then [] else Variants(d, exts[0]) + VariantsPerExtension(d, exts[1..])
  }

  /**
   * `/^(\d+)\.(png|jpe?g|webp|gif|svg)$/i`: the leading digits and the
   * extension lower-cased, when the whole reference is a number, a dot and an
   * image extension in any letter case.
   */
  function NumberWithExtension(value: string): Option<(string, string)> {
    var d := LeadingDigits(value);
    if d != [] && |d| < |value| && value[|d|] == '.' && LowerAsciiString(value[|d| + 1..]) in PICTURE_EXTENSIONS then
      Some((d, LowerAsciiString(value[|d| + 1..])))
    else None
  }

  /** `resolveSpriteSources(rawValue)` for a reference given as text (`''` for a missing one). */
  function ResolveSpriteSources(raw: string): seq<string> {
    var value := Trim(raw);
    if value == "" then []
    else if IsAbsoluteUrl(value) || IsRelativePath(value) then [value]
    else match NumberWithExtension(value)
      case Some((d, ext)) => Dedup(Variants(d, ext))
      case None =>
        if AllDigits(value) then Dedup(VariantsPerExtension(value, PICTURE_EXTENSIONS))
        else if !Contains(value, '.') then [PICTURE_DIR + "/" + value]
        else [value]
  }

  /** A reference that starts with a digit is neither a URL nor a relative path. */
  lemma DigitFirstIsLocal(value: string)
    requires value != [] && IsDigit(value[0])
    ensures !IsAbsoluteUrl(value) && !IsRelativePath(value)
  {
    forall prefix | prefix in ["http:", "https:", "data:", "blob:"]
      ensures !StartsWithIgnoringCase(value, prefix)
    {
      if |prefix| <= |value| {
        assert LowerAsciiString(value[..|prefix|])[0] == value[0];
      }
    }
  }

  /** The zero-stripped name is `String(Number(d))`: the canonical decimal text of the same value. */
  lemma NormalisedIsCanonical(d: string)
    requires d != [] && AllDigits(d)
    ensures Normalised(d) == NatToString(DigitsValue(d))
  {
    var s := StripZeros(d);
    var z := d[..|d| - |s|];
    assert d == z + s;
    ZeroPrefixValue(z, s);
    if s == [] {
      assert "0"[..0] == [];
    } else {
      NatToStringOfDigits(s);
    }
  }

  /** The padded name is made of digits and has the same value as `d`. */
  lemma PaddedSameNumber(d: string)
    requires AllDigits(d)
    ensures AllDigits(PadStart3(d)) && DigitsValue(PadStart3(d)) == DigitsValue(d)
  {
    var p := PadStart3(d);
    assert p == p[..|p| - |d|] + d;
    ZeroPrefixValue(p[..|p| - |d|], d);
  }

  /** Every name variant of a digit string is made of digits. */
  lemma VariantsAreDigits(d: string)
    requires d != [] && AllDigits(d)
    ensures AllDigits(Normalised(d)) && AllDigits(PadStart3(d))
  {
    NormalisedIsCanonical(d);
    PaddedSameNumber(d);
  }

  /** In a path whose name is a digit string, the first dot after the directory ends the name. */
  lemma PathDot(n: string, e: string)
    requires AllDigits(n)
    ensures var p := PicturePath(n, e); var k := |PICTURE_DIR| + 1;
      && |p| == k + |n| + 1 + |e| && p[k + |n|] == '.' && p[k + |n| + 1..] == e
      && forall i :: k <= i < k + |n| ==> p[i] != '.'
  {
    var p := PicturePath(n, e);
    var k := |PICTURE_DIR| + 1;
    assert p == (PICTURE_DIR + "/") + n + ("." + e);
    forall i | k <= i < k + |n|
      ensures p[i] != '.'
    {
      assert p[i] == n[i - k];
    }
  }

  /** Paths whose names are digit strings are the same only for the same extension. */
  lemma PicturePathExtension(n1: string, e1: string, n2: string, e2: string)
    requires AllDigits(n1) && AllDigits(n2)
    requires PicturePath(n1, e1) == PicturePath(n2, e2)
    ensures e1 == e2
  {
    PathDot(n1, e1);
    PathDot(n2, e2);
  }

  /** A path for the extension list is one of the variants for some extension of the list. */
  lemma {:induction false} PerExtensionMember(d: string, exts: seq<string>, x: string)
    requires x in VariantsPerExtension(d, exts)
    ensures exists e :: e in exts && x in Variants(d, e)
  {
    var rest := exts[1..];
    assert VariantsPerExtension(d, exts) == Variants(d, exts[0]) + VariantsPerExtension(d, rest);
    if x !in Variants(d, exts[0]) {
      PerExtensionMember(d, rest, x);
      var e :| e in rest && x in Variants(d, e);
      assert e in exts;
    }
  }

  /** The name a variant uses: as given, zeros stripped, padded. */
  function VariantName(d: string, a: nat): string
    requires a < 3
  {
    if a == 0 then d else if a == 1 then Normalised(d) else PadStart3(d)
  }

  lemma VariantAt(d: string, e: string, a: nat)
    requires d != [] && AllDigits(d) && a < 3
    ensures Variants(d, e)[a] == PicturePath(VariantName(d, a), e)
    ensures AllDigits(VariantName(d, a))
  {
    var v := Variants(d, e);
    if a == 0 {
      assert v[0] == PicturePath(d, e);
    } else if a == 1 {
      assert v[1] == PicturePath(Normalised(d), e);
      NormalisedIsCanonical(d);
    } else {
      assert v[2] == PicturePath(PadStart3(d), e);
      PaddedSameNumber(d);
    }
  }

  /** A path that is a variant under two extensions determines the extension. */
  lemma VariantsExtension(d: string, e1: string, e2: string, x: string)
    requires d != [] && AllDigits(d)
    requires x in Variants(d, e1) && x in Variants(d, e2)
    ensures e1 == e2
  {
    var a :| 0 <= a < 3 && Variants(d, e1)[a] == x;
    var b :| 0 <= b < 3 && Variants(d, e2)[b] == x;
    VariantAt(d, e1, a);
    VariantAt(d, e2, b);
    PicturePathExtension(VariantName(d, a), e1, VariantName(d, b), e2);
  }

  /** Variants for one extension share no path with the variants for other extensions. */
  lemma VariantsDisjoint(d: string, e: string, exts: seq<string>)
    requires d != [] && AllDigits(d) && e !in exts
    ensures forall x :: x in Variants(d, e) ==> x !in VariantsPerExtension(d, exts)
  {
    forall x | x in Variants(d, e)
      ensures x !in VariantsPerExtension(d, exts)
    {
      if x in VariantsPerExtension(d, exts) {
        PerExtensionMember(d, exts, x);
        var other :| other in exts && x in Variants(d, other);
        VariantsExtension(d, e, other, x);
      }
    }
  }

  /** The candidates of a bare number, extension by extension: the de-duplicated variants of each. */
  function CandidatesPerExtension(d: string, exts: seq<string>): seq<string> {
    if exts == [] then [] else Dedup(Variants(d, exts[0])) + CandidatesPerExtension(d, exts[1..])
  }

  /** With distinct extensions, de-duplicating the whole set is de-duplicating each extension's variants. */
  lemma {:induction false} DedupPerExtension(d: string, exts: seq<string>)
    requires d != [] && AllDigits(d) && NoDup(exts)
    ensures Dedup(VariantsPerExtension(d, exts)) == CandidatesPerExtension(d, exts)
  {
    if exts != [] {
      var rest := exts[1..];
      assert exts[0] !in rest;
      assert NoDup(rest);
      VariantsDisjoint(d, exts[0], rest);
      DedupAppendDisjoint(Variants(d, exts[0]), VariantsPerExtension(d, rest));
      DedupPerExtension(d, rest);
    }
  }

  /** One to three candidates per extension. */
  lemma {:induction false} CandidatesPerExtensionSize(d: string, exts: seq<string>)
    ensures |exts| <= |CandidatesPerExtension(d, exts)| <= 3 * |exts|
  {
    if exts != [] {
      DedupFirst(Variants(d, exts[0]));
      CandidatesPerExtensionSize(d, exts[1..]);
    }
  }

  /** Candidates of different extensions never repeat a path. */
  lemma {:induction false} CandidatesPerExtensionDistinct(d: string, exts: seq<string>)
    requires d != [] && AllDigits(d) && NoDup(exts)
    ensures NoDup(CandidatesPerExtension(d, exts))
  {
    DedupPerExtension(d, exts);
    DedupDistinct(VariantsPerExtension(d, exts));
  }

  /** Lower-casing a lower-case extension changes nothing. */
  lemma LowerExtension(ext: string)
    requires ext in PICTURE_EXTENSIONS
    ensures LowerAsciiString(ext) == ext
  {
  }

  /** A blank reference, and only a blank one, has no candidates. */
  lemma BlankHasNoCandidates(raw: string)
    ensures ResolveSpriteSources(raw) == [] <==> AllSpace(raw)
  {
    TrimBlank(raw);
    var value := Trim(raw);
    if value != "" && !(IsAbsoluteUrl(value) || IsRelativePath(value)) {
      match NumberWithExtension(value)
      case Some((d, ext)) => DedupFirst(Variants(d, ext));
      case None =>
        if AllDigits(value) {
          DedupFirst(VariantsPerExtension(value, PICTURE_EXTENSIONS));
        }
    }
  }

  /** A URL or a path relative to the page is tried as it is. */
  lemma UrlIsKept(raw: string)
    requires Trim(raw) != ""
    requires IsAbsoluteUrl(Trim(raw)) || IsRelativePath(Trim(raw))
    ensures ResolveSpriteSources(raw) == [Trim(raw)]
  {
  }

  /** `<digits>.<ext>` matches the pattern with those digits and the extension lower-cased. */
  lemma MatchesNumberWithExtension(d: string, ext: string)
    requires d != [] && AllDigits(d)
    requires LowerAsciiString(ext) in PICTURE_EXTENSIONS
    ensures NumberWithExtension(d + "." + ext) == Some((d, LowerAsciiString(ext)))
  {
    var value := d + "." + ext;
    assert value == d + ("." + ext);
    LeadingDigitsOf(d, "." + ext);
    assert value[|d|] == '.';
    assert value[|d| + 1..] == ext;
  }

  /**
   * `<digits>.<ext>` gives, under `picture/` and with the extension
   * lower-cased, the distinct members of the as-given, zero-stripped and
   * padded names, as-given first: one to three paths.
   */
  lemma NumberWithExtensionCandidates(raw: string, d: string, ext: string)
    requires d != [] && AllDigits(d)
    requires LowerAsciiString(ext) in PICTURE_EXTENSIONS
    requires Trim(raw) == d + "." + ext
    ensures var r := ResolveSpriteSources(raw);
      && r == Dedup(Variants(d, LowerAsciiString(ext)))
      && 1 <= |r| <= 3 && NoDup(r)
      && r[0] == PicturePath(d, LowerAsciiString(ext))
  {
    var value := d + "." + ext;
    assert value[0] == d[0];
    DigitFirstIsLocal(value);
    MatchesNumberWithExtension(d, ext);
    var e := LowerAsciiString(ext);
    DedupFirst(Variants(d, e));
    DedupDistinct(Variants(d, e));
  }

  /**
   * A bare number gives, extension by extension over png, jpg, jpeg, webp,
   * gif and svg, exactly what `<number>.<ext>` gives: six to eighteen
   * distinct paths.
   */
  lemma NumberOnlyCandidates(raw: string, d: string)
    requires d != [] && AllDigits(d) && Trim(raw) == d
    ensures var r := ResolveSpriteSources(raw);
      && r == CandidatesPerExtension(d, PICTURE_EXTENSIONS)
      && 6 <= |r| <= 18 && NoDup(r)
  {
    DigitFirstIsLocal(d);
    LeadingDigitsOf(d, []);
    assert d + [] == d;
    assert NoDup(PICTURE_EXTENSIONS);
    DedupPerExtension(d, PICTURE_EXTENSIONS);
    CandidatesPerExtensionSize(d, PICTURE_EXTENSIONS);
    CandidatesPerExtensionDistinct(d, PICTURE_EXTENSIONS);
  }

  /** The per-extension block of a bare number is the candidate list of that number with that extension. */
  lemma NumberOnlyBlock(d: string, ext: string)
    requires d != [] && AllDigits(d) && ext in PICTURE_EXTENSIONS
    ensures ResolveSpriteSources(d + "." + ext) == Dedup(Variants(d, ext))
  {
    var value := d + "." + ext;
    assert value[0] == d[0] && !IsSpace(value[0]);
    assert value[|value| - 1] == ext[|ext| - 1] && !IsSpace(value[|value| - 1]);
    TrimOfTrimmed(value);
    LowerExtension(ext);
    NumberWithExtensionCandidates(value, d, ext);
  }

  /** Any other reference without a dot names a file in the picture directory. */
  lemma BareNameCandidates(raw: string)
    requires Trim(raw) != "" && !IsAbsoluteUrl(Trim(raw)) && !IsRelativePath(Trim(raw))
    requires !AllDigits(Trim(raw)) && !Contains(Trim(raw), '.')
    ensures ResolveSpriteSources(raw) == [PICTURE_DIR + "/" + Trim(raw)]
  {
  }

  /** Any other reference with a dot that is not `<digits>.<image extension>` is tried as it is. */
  lemma DottedNameCandidates(raw: string)
    requires Trim(raw) != "" && !IsAbsoluteUrl(Trim(raw)) && !IsRelativePath(Trim(raw))
    requires NumberWithExtension(Trim(raw)).None? && Contains(Trim(raw), '.')
    ensures ResolveSpriteSources(raw) == [Trim(raw)]
  {
    var value := Trim(raw);
    var i :| 0 <= i < |value| && value[i] == '.';
    assert !IsDigit(value[i]);
  }

  /** A number written without leading zeros is its own zero-stripped name. */
  lemma CanonicalNormalised(d: string)
    requires d != [] && AllDigits(d) && d[0] != '0'
    ensures Normalised(d) == d
  {
  }

  /** De-duplicating three paths of which the first two are equal. */
  lemma DedupRepeatFirst(a: string, b: string)
    ensures Dedup([a, a, b]) == if a == b then [a] else [a, b]
  {
    DedupSnoc([], a);
    assert [] + [a] == [a];
    DedupSnoc([a], a);
    assert [a] + [a] == [a, a];
    DedupSnoc([a, a], b);
    assert [a, a] + [b] == [a, a, b];
  }

  /** A number of three or more digits without leading zeros has a single candidate per extension. */
  lemma WideNumberBlock(d: string, e: string)
    requires |d| >= 3 && AllDigits(d) && d[0] != '0'
    ensures Dedup(Variants(d, e)) == [PicturePath(d, e)]
  {
    CanonicalNormalised(d);
    DedupRepeatFirst(PicturePath(d, e), PicturePath(d, e));
  }

  /** A one- or two-digit number without leading zeros has two candidates per extension: itself, then padded. */
  lemma NarrowNumberBlock(d: string, e: string)
    requires 1 <= |d| <= 2 && AllDigits(d) && d[0] != '0'
    ensures Dedup(Variants(d, e)) == [PicturePath(d, e), PicturePath(PadStart3(d), e)]
  {
    CanonicalNormalised(d);
    var a := PicturePath(d, e);
    var b := PicturePath(PadStart3(d), e);
    assert |a| < |b|;
    DedupRepeatFirst(a, b);
  }

  lemma MulSucc(m: nat, n: nat)
    ensures m * (n + 1) == m * n + m
  {
  }

  /** When every extension contributes `m` candidates, a bare number has `m` per extension in all. */
  lemma {:induction false} CandidatesPerExtensionLength(d: string, exts: seq<string>, m: nat)
    requires forall e :: e in exts ==> |Dedup(Variants(d, e))| == m
    ensures |CandidatesPerExtension(d, exts)| == m * |exts|
  {
    if exts != [] {
      var rest := exts[1..];
      assert forall e :: e in rest ==> e in exts;
      CandidatesPerExtensionLength(d, rest, m);
      assert |exts| == |rest| + 1;
      MulSucc(m, |rest|);
    }
  }

  /** A number without leading zeros, as the whole reference, is its own trim. */
  lemma NumberIsTrimmed(d: string)
    requires d != [] && AllDigits(d)
    ensures Trim(d) == d
  {
    DigitIsNotSpace(d[0]);
    DigitIsNotSpace(d[|d| - 1]);
    TrimOfTrimmed(d);
  }

  /** A one- or two-digit number is tried as itself and padded under each of the six extensions: twelve paths. */
  lemma NarrowNumberCount(d: string)
    requires 1 <= |d| <= 2 && AllDigits(d) && d[0] != '0'
    ensures |ResolveSpriteSources(d)| == 12
  {
    NumberIsTrimmed(d);
    NumberOnlyCandidates(d, d);
    forall e | e in PICTURE_EXTENSIONS
      ensures |Dedup(Variants(d, e))| == 2
    {
      NarrowNumberBlock(d, e);
    }
    CandidatesPerExtensionLength(d, PICTURE_EXTENSIONS, 2);
  }

  /** A number of three or more digits without leading zeros is tried once under each extension: six paths. */
  lemma WideNumberCount(d: string)
    requires |d| >= 3 && AllDigits(d) && d[0] != '0'
    ensures |ResolveSpriteSources(d)| == 6
  {
    NumberIsTrimmed(d);
    NumberOnlyCandidates(d, d);
    forall e | e in PICTURE_EXTENSIONS
      ensures |Dedup(Variants(d, e))| == 1
    {
      WideNumberBlock(d, e);
    }
    CandidatesPerExtensionLength(d, PICTURE_EXTENSIONS, 1);
  }

  /** De-duplicating three paths of which the first and last are equal. */
  lemma DedupRepeatLast(a: string, b: string)
    ensures Dedup([a, b, a]) == if a == b then [a] else [a, b]
  {
    DedupSnoc([], a);
    assert [] + [a] == [a];
    DedupSnoc([a], b);
    assert [a] + [b] == [a, b];
    DedupSnoc([a, b], a);
    assert [a, b] + [a] == [a, b, a];
  }

  /** Stripping leading zeros from digits that start with `0` shortens them. */
  lemma StripZerosShortens(d: string)
    requires d != [] && d[0] == '0'
    ensures |StripZeros(d)| < |d|
  {
  }

  /**
   * A number of three or more digits with leading zeros, such as `007`, has
   * two candidates per extension: as written (already padded), then stripped.
   */
  lemma PaddedNumberBlock(d: string, e: string)
    requires |d| >= 3 && AllDigits(d) && d[0] == '0'
    ensures Dedup(Variants(d, e)) == [PicturePath(d, e), PicturePath(Normalised(d), e)]
  {
    StripZerosShortens(d);
    var a := PicturePath(d, e);
    var b := PicturePath(Normalised(d), e);
    assert |b| < |a|;
    DedupRepeatLast(a, b);
  }

  /** A pending probe: the token of the request it belongs to and the candidates still to try, first being tried. */
  datatype Probe = Probe(token: nat, queue: seq<string>)

  /** The index of the first candidate that loads, `|queue|` when none does. */
  function FirstLoadable(queue: seq<string>, loadable: set<string>): (k: nat)
    ensures k <= |queue|
    ensures forall j :: 0 <= j < k ==> queue[j] !in loadable
    ensures k < |queue| ==> queue[k] in loadable
  {
    if queue == [] || queue[0] in loadable then 0 else FirstLoadable(queue[1..], loadable) + 1
  }

  /** The sprite image, its placeholder, and the global load token. */
  class SpriteView {
    var loadToken: nat
    var imageSrc: string
    var imageHidden: bool
    var placeholderHidden: bool

    constructor ()
      ensures loadToken == 0 && imageSrc == "" && imageHidden && !placeholderHidden
    {
      loadToken := 0;
      imageSrc := "";
      imageHidden := true;
      placeholderHidden := false;
    }

    predicate ShowsPlaceholder()
      reads this
    {
      imageSrc == "" && imageHidden && !placeholderHidden
    }

    predicate ShowsImage(src: string)
      reads this
    {
      imageSrc == src && !imageHidden && placeholderHidden
    }

    /** `showPlaceholder()` */
    method ShowPlaceholder()
      modifies this
      ensures ShowsPlaceholder() && loadToken == old(loadToken)
    {
      imageSrc := "";
      imageHidden := true;
      placeholderHidden := false;
    }

    /**
     * `updateSprite(url)`: a new token, and the placeholder shown while the
     * first candidate is probed; with no candidate the image is cleared and
     * nothing is probed.
     */
    method UpdateSprite(url: string) returns (probe: Probe)
      modifies this
      ensures loadToken == old(loadToken) + 1
      ensures probe == Probe(loadToken, ResolveSpriteSources(url))
      ensures imageHidden && !placeholderHidden
      ensures imageSrc == if probe.queue == [] then "" else old(imageSrc)
    {
      loadToken := loadToken + 1;
      var currentToken := loadToken;
      var candidates := ResolveSpriteSources(url);
      probe := Probe(currentToken, candidates);
      if candidates == [] {
        ShowPlaceholder();
        return;
      }
      imageHidden := true;
      placeholderHidden := false;
    }

    /** The probe's first candidate loaded: it is shown, unless a newer request has started since. */
    method OnLoad(probe: Probe)
      requires probe.queue != []
      modifies this
      ensures probe.token != old(loadToken) ==> unchanged(this)
      ensures probe.token == old(loadToken) ==> ShowsImage(probe.queue[0]) && loadToken == old(loadToken)
    {
      if probe.token != loadToken {
        return;
      }
      imageSrc := probe.queue[0];
      imageHidden := false;
      placeholderHidden := true;
    }

    /**
     * The probe's first candidate failed: `tryLoad(rest)`, which does nothing
     * for a stale request, shows the placeholder when nothing is left, and
     * otherwise probes the next candidate.
     */
    method OnError(probe: Probe) returns (next: Option<Probe>)
      requires probe.queue != []
      modifies this
      ensures probe.token != old(loadToken) ==> unchanged(this) && next.None?
      ensures probe.token == old(loadToken) && |probe.queue| == 1 ==> ShowsPlaceholder() && next.None?
      ensures probe.token == old(loadToken) && |probe.queue| > 1 ==>
        unchanged(this) && next == Some(Probe(probe.token, probe.queue[1..]))
      ensures loadToken == old(loadToken)
    {
      var rest := probe.queue[1..];
      if probe.token != loadToken {
        return None;
      }
      if rest == [] {
        ShowPlaceholder();
        return None;
      }
      return Some(Probe(probe.token, rest));
    }

    /**
     * The probes of the latest request answered one after another, with
     * `loadable` the candidates that load: the first loadable candidate is
     * shown, and the placeholder when none loads.
     */
    method Settle(probe: Probe, loadable: set<string>)
      requires probe.token == loadToken && probe.queue != []
      modifies this
      ensures loadToken == old(loadToken)
      ensures var k := FirstLoadable(probe.queue, loadable);
        if k < |probe.queue| then ShowsImage(probe.queue[k]) else ShowsPlaceholder()
    {
      var p := probe;
      var i := 0;
      var done := false;
      while !done
        invariant loadToken == old(loadToken) == p.token
        invariant 0 <= i < |probe.queue| && p.queue == probe.queue[i..]
        invariant forall j :: 0 <= j < i ==> probe.queue[j] !in loadable
        invariant done ==> var k := FirstLoadable(probe.queue, loadable);
          if k < |probe.queue| then ShowsImage(probe.queue[k]) else ShowsPlaceholder()
        decreases |p.queue|, !done
      {
        if p.queue[0] in loadable {
          OnLoad(p);
          FirstLoadableAt(probe.queue, loadable, i);
          done := true;
        } else {
          var next := OnError(p);
          if next.None? {
            FirstLoadableNone(probe.queue, loadable);
            done := true;
          } else {
            p := next.value;
            i := i + 1;
          }
        }
      }
    }
  }

  /** The first loadable candidate is the one after a run of failures. */
  lemma {:induction false} FirstLoadableAt(queue: seq<string>, loadable: set<string>, i: nat)
    requires i < |queue| && queue[i] in loadable
    requires forall j :: 0 <= j < i ==> queue[j] !in loadable
    ensures FirstLoadable(queue, loadable) == i
  {
    if i > 0 {
      FirstLoadableAt(queue[1..], loadable, i - 1);
    }
  }

  /** When every candidate fails, none is loadable. */
  lemma FirstLoadableNone(queue: seq<string>, loadable: set<string>)
    requires forall j :: 0 <= j < |queue| ==> queue[j] !in loadable
    ensures FirstLoadable(queue, loadable) == |queue|
  {
  }
}

=== FILE: stat_allocator.dfy ===
/**
 * The six effort-value (EV) and six individual-value (IV) inputs.  Each input
 * holds text; on every change the editor re-reads every input with `parseInt`,
 * clamps it (EVs to 0..252, IVs to 0..31), writes the clamped number back and
 * re-composes the hidden spread field.  EVs also share a total budget of 510:
 * when the total overflows, only the input that was just edited gives way.
 */
module StatAllocator {
  import opened Optional
  import opened Numbers
  import opened Values
  import opened SpreadCodec

  const EV_MAX := 252
  const IV_MAX := 31
  const EV_TOTAL_MAX := 510

  /** The input position of spe, the last stat: loading a spread charges any overflow to it. */
  const SPE := STAT_COUNT - 1

  /** One input re-read: `parseInt`, NaN and negatives as 0, values above `cap` as `cap`. */
  function ClampStat(text: string, cap: nat): (v: nat)
    ensures v <= cap
    ensures ParseInt(text).Some? && 0 <= ParseInt(text).value <= cap ==> v == ParseInt(text).value
    ensures ParseInt(text).None? ==> v == 0
    ensures ParseInt(text).Some? && ParseInt(text).value < 0 ==> v == 0
    ensures ParseInt(text).Some? && ParseInt(text).value > cap ==> v == cap
  {
    match ParseInt(text)
    case None => 0
    case Some(n) => if n < 0 then 0 else if n > cap then cap else n
  }

  /** Every input re-read and clamped. */
  function ClampAll(texts: seq<string>, cap: nat): (vals: seq<nat>)
    ensures |vals| == |texts|
    ensures forall i :: 0 <= i < |vals| ==> vals[i] <= cap
  {
    seq(|texts|, i requires 0 <= i < |texts| => ClampStat(texts[i], cap))
  }

  /** The text an input holds after a number is assigned to it: `String(v)`. */
  function Printed(values: seq<int>): (texts: seq<string>)
    ensures |texts| == |values|
  {
    seq(|values|, i requires 0 <= i < |values| => IntToString(values[i]))
  }

  function Sum(s: seq<int>): int {
    if s == [] then 0 else Sum(s[..|s| - 1]) + s[|s| - 1]
  }

  /**
   * The 510 cap: when an edited input is named and the total overflows, that
   * input becomes `max(0, 510 - others)`; every other input is left alone.
   */
  function CapTotal(vals: seq<nat>, changed: Option<nat>): (r: seq<nat>)
    requires changed.Some? ==> changed.value < |vals|
    ensures |r| == |vals|
    ensures forall j :: 0 <= j < |vals| && (changed.None? || j != changed.value) ==> r[j] == vals[j]
    ensures changed.Some? ==> r[changed.value] <= vals[changed.value]
  {
    if changed.Some? && Sum(vals) > EV_TOTAL_MAX then
      var k := changed.value;
      var others := Sum(vals) - vals[k];
      vals[k := if EV_TOTAL_MAX - others > 0 then EV_TOTAL_MAX - others else 0]
    else vals
  }

  /** Values that agree with every input's clamp are the clamped inputs. */
  lemma ClampAllIs(texts: seq<string>, cap: nat, vals: seq<nat>)
    requires |vals| == |texts|
    requires forall j :: 0 <= j < |texts| ==> vals[j] == ClampStat(texts[j], cap)
    ensures vals == ClampAll(texts, cap)
  {
  }

  /** Replacing one entry changes the sum by the difference. */
  lemma {:induction false} SumUpdate(s: seq<int>, k: nat, x: int)
    requires k < |s|
    ensures Sum(s[k := x]) == Sum(s) - s[k] + x
  {
    var n := |s| - 1;
    var t := s[k := x];
    assert t[..n] == if k == n then s[..n] else s[..n][k := x];
    if k < n {
      SumUpdate(s[..n], k, x);
    }
  }

  lemma {:induction false} SumNonNegative(s: seq<nat>)
    ensures Sum(s) >= 0
  {
    if s != [] {
      SumNonNegative(s[..|s| - 1]);
    }
  }

  /** The total of six stats, written out. */
  lemma SumOfSix(s: seq<int>)
    requires |s| == STAT_COUNT
    ensures Sum(s) == s[0] + s[1] + s[2] + s[3] + s[4] + s[5]
  {
    assert Sum(s[..1]) == s[0] by { assert s[..1][..0] == []; }
    assert Sum(s[..2]) == Sum(s[..1]) + s[1] by { assert s[..2][..1] == s[..1]; }
    assert Sum(s[..3]) == Sum(s[..2]) + s[2] by { assert s[..3][..2] == s[..2]; }
    assert Sum(s[..4]) == Sum(s[..3]) + s[3] by { assert s[..4][..3] == s[..3]; }
    assert Sum(s[..5]) == Sum(s[..4]) + s[4] by { assert s[..5][..4] == s[..4]; }
  }

  /**
   * After an overflowing edit the total is `max(510, others)`: exactly 510
   * when the other five fit within the budget, and never more than the others.
   */
  lemma CapTotalSum(vals: seq<nat>, k: nat)
    requires k < |vals| && Sum(vals) > EV_TOTAL_MAX
    ensures var others := Sum(vals) - vals[k];
      Sum(CapTotal(vals, Some(k))) == if others <= EV_TOTAL_MAX then EV_TOTAL_MAX else others
  {
    var others := Sum(vals) - vals[k];
    SumUpdate(vals, k, if EV_TOTAL_MAX - others > 0 then EV_TOTAL_MAX - others else 0);
  }

  /** Within the budget, or with no edited input named (the blur path), nothing is capped. */
  lemma CapTotalUnchanged(vals: seq<nat>, changed: Option<nat>)
    requires changed.Some? ==> changed.value < |vals|
    requires changed.None? || Sum(vals) <= EV_TOTAL_MAX
    ensures CapTotal(vals, changed) == vals
  {
  }

  /** The total never grows by capping, and never ends above 510 unless the others alone exceed it. */
  lemma CapTotalBound(vals: seq<nat>, k: nat)
    requires k < |vals|
    ensures Sum(CapTotal(vals, Some(k))) <= Sum(vals)
    ensures Sum(CapTotal(vals, Some(k))) <= EV_TOTAL_MAX || Sum(vals) - vals[k] > EV_TOTAL_MAX
  {
    if Sum(vals) > EV_TOTAL_MAX {
      CapTotalSum(vals, k);
    }
  }

  /** `[252, 252, 50, 0, 0, 0]` with the third input just edited becomes `[252, 252, 6, 0, 0, 0]`. */
  lemma CapTotalExample()
    ensures CapTotal([252, 252, 50, 0, 0, 0], Some(2)) == [252, 252, 6, 0, 0, 0]
  {
    var vals: seq<nat> := [252, 252, 50, 0, 0, 0];
    SumOfSix(vals);
  }

  /**
   * Loading charges overflow to spe alone, so a spread whose first five values
   * already exceed 510 stays above 510.
   */
  lemma LoadCanStayOverBudget()
    ensures var vals: seq<nat> := [252, 252, 252, 0, 0, 0];
      CapTotal(vals, Some(SPE)) == vals && Sum(vals) == 756
  {
    var vals: seq<nat> := [252, 252, 252, 0, 0, 0];
    SumOfSix(vals);
  }

  /** Text holding a value already within the clamp reads back as that value. */
  lemma ClampStatOfDecimal(v: nat, cap: nat)
    requires v <= cap
    ensures ClampStat(NatToString(v), cap) == v
  {
    ParseIntOfString(v);
  }

  /** Re-reading the inputs after they were rewritten changes nothing: the rewrite is a fixed point. */
  lemma ClampAllOfDecimals(vals: seq<nat>, cap: nat)
    requires forall i :: 0 <= i < |vals| ==> vals[i] <= cap
    ensures ClampAll(Decimals(vals), cap) == vals
  {
    forall i | 0 <= i < |vals|
      ensures ClampAll(Decimals(vals), cap)[i] == vals[i]
    {
      ClampStatOfDecimal(vals[i], cap);
    }
  }

  /** A number assigned to an input and read back is clamped like the number itself. */
  lemma ClampStatOfPrinted(v: int, cap: nat)
    ensures ClampStat(IntToString(v), cap) == if v < 0 then 0 else if v > cap then cap else v
  {
    ParseIntOfString(v);
  }

  /** `Number` reads each rewritten input back as its value. */
  lemma NumberOfDecimal(vals: seq<nat>, k: nat)
    requires k < |vals|
    ensures JsNumber(Decimals(vals)[k]) == Some(vals[k])
  {
    NumberOfNat(vals[k]);
  }

  /** Texts that are each value's decimals are the decimals of the values. */
  lemma DecimalsIs(texts: seq<string>, vals: seq<nat>)
    requires |texts| == |vals|
    requires forall j :: 0 <= j < |vals| ==> texts[j] == NatToString(vals[j])
    ensures texts == Decimals(vals)
  {
  }

  /** Printing non-negative values is writing their decimals. */
  lemma PrintedNatural(vals: seq<nat>)
    ensures Printed(vals) == Decimals(vals)
  {
  }

  /**
   * Loading the spread that a valid allocation composes restores that
   * allocation: six values of at most 252 with a total of at most 510.
   */
  lemma LoadRoundTrip(vals: seq<nat>)
    requires |vals| == STAT_COUNT && Sum(vals) <= EV_TOTAL_MAX
    requires forall i :: 0 <= i < |vals| ==> vals[i] <= EV_MAX
    ensures CapTotal(ClampAll(Printed(ParseSpread(Text(ComposeSpread(Decimals(vals))), DEFAULT_EV_SPREAD)), EV_MAX), Some(SPE))
         == vals
  {
    SpreadRoundTrip(vals, DEFAULT_EV_SPREAD);
    PrintedNatural(vals);
    ClampAllOfDecimals(vals, EV_MAX);
  }

  /** An allocation the editor leaves behind is stable: re-running the update without an edited input keeps it. */
  lemma SettledAllocation(texts: seq<string>, changed: Option<nat>)
    requires changed.Some? ==> changed.value < |texts|
    ensures var vals := CapTotal(ClampAll(texts, EV_MAX), changed);
      (forall i :: 0 <= i < |vals| ==> vals[i] <= EV_MAX)
      && CapTotal(ClampAll(Decimals(vals), EV_MAX), None) == vals
  {
    var vals := CapTotal(ClampAll(texts, EV_MAX), changed);
    ClampAllOfDecimals(vals, EV_MAX);
  }

  /** One input re-read as the loops of the editor do it: `parseInt`, NaN or a negative as 0, then the cap. */
  method ReadStat(text: string, cap: nat) returns (value: nat)
    ensures value == ClampStat(text, cap)
  {
    var parsed := ParseInt(text);
    value := if parsed.None? || parsed.value < 0 then 0 else parsed.value;
    if value > cap {
      value := cap;
    }
  }

  /** The EV and IV inputs, the EV total read-out, the over-budget warning and the two hidden spread fields. */
  class StatPanel {
    var evInputs: seq<string>
    var ivInputs: seq<string>
    var evTotal: int
    var evWarningHidden: bool
    var preEvs: string
    var ivs: string

    predicate Valid()
      reads this
    {
      |evInputs| == STAT_COUNT && |ivInputs| == STAT_COUNT
    }

    constructor (ev: seq<string>, iv: seq<string>)
      requires |ev| == STAT_COUNT && |iv| == STAT_COUNT
      ensures Valid() && evInputs == ev && ivInputs == iv
    {
      evInputs := ev;
      ivInputs := iv;
      evTotal := 0;
      evWarningHidden := true;
      preEvs := "";
      ivs := "";
    }

    /**
     * `updateEvState(changedInput)`: every EV re-read and clamped, the 510 cap
     * charged to the changed input if one is named, then the read-outs and the
     * spread field refreshed.
     */
    method UpdateEvState(changed: Option<nat>)
      requires Valid() && (changed.Some? ==> changed.value < STAT_COUNT)
      modifies this
      ensures Valid()
      ensures evInputs == Decimals(CapTotal(ClampAll(old(evInputs), EV_MAX), changed))
      ensures evTotal == Sum(CapTotal(ClampAll(old(evInputs), EV_MAX), changed))
      ensures evWarningHidden <==> evTotal < EV_TOTAL_MAX
      ensures preEvs == ComposeSpread(evInputs)
      ensures ivInputs == old(ivInputs) && ivs == old(ivs)
    {
      var total := ClampEvInputs();
      total := ChargeOverflow(changed, ClampAll(old(evInputs), EV_MAX), total);
      evTotal := total;
      evWarningHidden := total < EV_TOTAL_MAX;
      preEvs := ComposeSpread(evInputs);
    }

    /** The loop of `updateEvState`: each EV rewritten as its clamp, and the clamps summed. */
    method ClampEvInputs() returns (total: int)
      requires Valid()
      modifies this
      ensures Valid()
      ensures evInputs == Decimals(ClampAll(old(evInputs), EV_MAX))
      ensures total == Sum(ClampAll(old(evInputs), EV_MAX))
      ensures ivInputs == old(ivInputs) && ivs == old(ivs)
    {
      ghost var clamped: seq<nat> := [];
      total := 0;
      var i := 0;
      while i < STAT_COUNT
        invariant 0 <= i <= STAT_COUNT && |clamped| == i && |evInputs| == STAT_COUNT
        invariant forall j :: 0 <= j < i ==> clamped[j] == ClampStat(old(evInputs)[j], EV_MAX)
        invariant forall j :: 0 <= j < i ==> evInputs[j] == NatToString(clamped[j])
        invariant forall j :: i <= j < STAT_COUNT ==> evInputs[j] == old(evInputs)[j]
        invariant total == Sum(clamped)
        invariant ivInputs == old(ivInputs) && ivs == old(ivs)
      {
        var value := ReadStat(evInputs[i], EV_MAX);
        evInputs := evInputs[i := NatToString(value)];
        assert (clamped + [value])[..i] == clamped;
        clamped := clamped + [value];
        total := total + value;
        i := i + 1;
      }
      DecimalsIs(evInputs, clamped);
      ClampAllIs(old(evInputs), EV_MAX, clamped);
    }

    /**
     * The cap step of `updateEvState`: with an edited input named and the
     * total over 510, that input is read back and rewritten to what the
     * budget leaves, and the new total is returned.
     */
    method ChargeOverflow(changed: Option<nat>, ghost vals: seq<nat>, total: int) returns (newTotal: int)
      requires |vals| == STAT_COUNT && evInputs == Decimals(vals) && total == Sum(vals)
      requires changed.Some? ==> changed.value < STAT_COUNT
      modifies this
      ensures evInputs == Decimals(CapTotal(vals, changed))
      ensures newTotal == Sum(CapTotal(vals, changed))
      ensures ivInputs == old(ivInputs) && ivs == old(ivs)
    {
      newTotal := total;
      if total > EV_TOTAL_MAX && changed.Some? {
        var k := changed.value;
        NumberOfDecimal(vals, k);
        var others := total - JsNumber(evInputs[k]).value;
        var allowed := if EV_TOTAL_MAX - others > 0 then EV_TOTAL_MAX - others else 0;
        evInputs := evInputs[k := NatToString(allowed)];
        newTotal := others + allowed;
        SumUpdate(vals, k, allowed);
      }
    }

    /** `updateIvField()`: every IV re-read and clamped to 0..31 (no total cap), then the spread field refreshed. */
    method UpdateIvField()
      requires Valid()
      modifies this
      ensures Valid()
      ensures ivInputs == Decimals(ClampAll(old(ivInputs), IV_MAX))
      ensures ivs == ComposeSpread(ivInputs)
      ensures evInputs == old(evInputs) && evTotal == old(evTotal)
      ensures evWarningHidden == old(evWarningHidden) && preEvs == old(preEvs)
    {
      ClampIvInputs();
      ivs := ComposeSpread(ivInputs);
    }

    /** The loop of `updateIvField`: each IV rewritten as its clamp. */
    method ClampIvInputs()
      requires Valid()
      modifies this
      ensures Valid()
      ensures ivInputs == Decimals(ClampAll(old(ivInputs), IV_MAX))
      ensures evInputs == old(evInputs) && evTotal == old(evTotal)
      ensures evWarningHidden == old(evWarningHidden) && preEvs == old(preEvs)
    {
      ghost var clamped: seq<nat> := [];
      var i := 0;
      while i < STAT_COUNT
        invariant 0 <= i <= STAT_COUNT && |clamped| == i && |ivInputs| == STAT_COUNT
        invariant forall j :: 0 <= j < i ==> clamped[j] == ClampStat(old(ivInputs)[j], IV_MAX)
        invariant forall j :: 0 <= j < i ==> ivInputs[j] == NatToString(clamped[j])
        invariant forall j :: i <= j < STAT_COUNT ==> ivInputs[j] == old(ivInputs)[j]
        invariant evInputs == old(evInputs) && evTotal == old(evTotal)
        invariant evWarningHidden == old(evWarningHidden) && preEvs == old(preEvs)
      {
        var value := ReadStat(ivInputs[i], IV_MAX);
        ivInputs := ivInputs[i := NatToString(value)];
        clamped := clamped + [value];
        i := i + 1;
      }
      DecimalsIs(ivInputs, clamped);
      ClampAllIs(old(ivInputs), IV_MAX, clamped);
    }

    /** `applyEvSpread(spread)`: the parsed values written into the inputs, then an update charged to spe. */
    method ApplyEvSpread(spread: Field)
      requires Valid()
      modifies this
      ensures Valid()
      ensures evInputs == Decimals(CapTotal(ClampAll(Printed(ParseSpread(spread, DEFAULT_EV_SPREAD)), EV_MAX), Some(SPE)))
      ensures evTotal == Sum(CapTotal(ClampAll(Printed(ParseSpread(spread, DEFAULT_EV_SPREAD)), EV_MAX), Some(SPE)))
      ensures evWarningHidden <==> evTotal < EV_TOTAL_MAX
      ensures preEvs == ComposeSpread(evInputs)
      ensures ivInputs == old(ivInputs) && ivs == old(ivs)
    {
      var values := ParseSpread(spread, DEFAULT_EV_SPREAD);
      WriteEvInputs(values);
      UpdateEvState(Some(SPE));
    }

    /** `evInputs.forEach((input, index) => input.value = values[index])` */
    method WriteEvInputs(values: seq<int>)
      requires Valid() && |values| == STAT_COUNT
      modifies this
      ensures Valid() && evInputs == Printed(values)
      ensures ivInputs == old(ivInputs) && ivs == old(ivs)
    {
      var i := 0;
      while i < STAT_COUNT
        invariant 0 <= i <= STAT_COUNT && |evInputs| == STAT_COUNT
        invariant evInputs[..i] == Printed(values)[..i]
        invariant ivInputs == old(ivInputs) && ivs == old(ivs)
      {
        evInputs := evInputs[i := IntToString(values[i])];
        i := i + 1;
      }
      assert evInputs == evInputs[..STAT_COUNT] && Printed(values) == Printed(values)[..STAT_COUNT];
    }

    /** `applyIvSpread(spread)`: the parsed values written into the inputs, then re-clamped. */
    method ApplyIvSpread(spread: Field)
      requires Valid()
      modifies this
      ensures Valid()
      ensures ivInputs == Decimals(ClampAll(Printed(ParseSpread(spread, DEFAULT_IV_SPREAD)), IV_MAX))
      ensures ivs == ComposeSpread(ivInputs)
      ensures evInputs == old(evInputs) && evTotal == old(evTotal)
      ensures evWarningHidden == old(evWarningHidden) && preEvs == old(preEvs)
    {
      var values := ParseSpread(spread, DEFAULT_IV_SPREAD);
      WriteIvInputs(values);
      UpdateIvField();
    }

    /** `ivInputs.forEach((input, index) => input.value = values[index])` */
    method WriteIvInputs(values: seq<int>)
      requires Valid() && |values| == STAT_COUNT
      modifies this
      ensures Valid() && ivInputs == Printed(values)
      ensures evInputs == old(evInputs) && evTotal == old(evTotal)
      ensures evWarningHidden == old(evWarningHidden) && preEvs == old(preEvs)
    {
      var i := 0;
      while i < STAT_COUNT
        invariant 0 <= i <= STAT_COUNT && |ivInputs| == STAT_COUNT
        invariant ivInputs[..i] == Printed(values)[..i]
        invariant evInputs == old(evInputs) && evTotal == old(evTotal)
        invariant evWarningHidden == old(evWarningHidden) && preEvs == old(preEvs)
      {
        ivInputs := ivInputs[i := IntToString(values[i])];
        i := i + 1;
      }
      assert ivInputs == ivInputs[..STAT_COUNT] && Printed(values) == Printed(values)[..STAT_COUNT];
    }
  }
}

=== FILE: text.dfy ===
/** Optional values, standing for JavaScript's `NaN`, `undefined` and "not found". */
module Optional {
  datatype Option<+T> = None | Some(value: T)
}

/**
 * Character classes and the string operations of JavaScript that the editor
 * relies on: `trim()`, `split` on a character class, `split(/\s+/)`, `join`
 * and ASCII lower-casing.
 */
module Text {

  /** JavaScript's WhiteSpace and LineTerminator code points: what `trim()` strips and `\s` matches. */
  predicate IsSpace(c: char) {
    if c < '\U{00A0}' then
      c == ' ' || '\t' <= c <= '\r'   // tab, line feed, vertical tab, form feed, carriage return
    else
      || c == '\U{00A0}' || c == '\U{1680}' || ('\U{2000}' <= c <= '\U{200A}')
      || c == '\U{2028}' || c == '\U{2029}' || c == '\U{202F}' || c == '\U{205F}'
      || c == '\U{3000}' || c == '\U{FEFF}'
  }

  /** `\d`: an ASCII decimal digit. */
  predicate IsDigit(c: char) {
    '0' <= c <= '9'
  }

  predicate AllDigits(s: string) {
    forall i :: 0 <= i < |s| ==> IsDigit(s[i])
  }

  predicate NoSpace(s: string) {
    forall i :: 0 <= i < |s| ==> !IsSpace(s[i])
  }

  predicate AllSpace(s: string) {
    forall i :: 0 <= i < |s| ==> IsSpace(s[i])
  }

  /** No leading and no trailing whitespace. */
  predicate Trimmed(s: string) {
    s == [] || (!IsSpace(s[0]) && !IsSpace(s[|s| - 1]))
  }

  function TrimStart(s: string): (r: string)
    ensures |r| <= |s|
    ensures r == [] || !IsSpace(r[0])
  {
    if s != [] && IsSpace(s[0]) then TrimStart(s[1..]) else s
  }

  function TrimEnd(s: string): (r: string)
    ensures |r| <= |s| && (r != [] ==> r[0] == s[0])
    ensures r == [] || !IsSpace(r[|r| - 1])
  {
    if s != [] && IsSpace(s[|s| - 1]) then TrimEnd(s[..|s| - 1]) else s
  }

  /** `s.trim()` */
  function Trim(s: string): (r: string)
    ensures Trimmed(r)
    ensures |r| <= |s|
  {
    TrimEnd(TrimStart(s))
  }

  /** `TrimStart` drops a whitespace prefix and keeps the rest. */
  lemma {:induction false} TrimStartInfix(s: string) returns (i: nat)
    ensures i <= |s| && TrimStart(s) == s[i..] && AllSpace(s[..i])
  {
    if s != [] && IsSpace(s[0]) {
      var k := TrimStartInfix(s[1..]);
      i := k + 1;
      assert s[1..][k..] == s[i..];
      assert s[..i] == [s[0]] + s[1..][..k];
    } else {
      i := 0;
    }
  }

  /** `TrimEnd` drops a whitespace suffix and keeps the rest. */
  lemma {:induction false} TrimEndInfix(s: string) returns (j: nat)
    ensures j <= |s| && TrimEnd(s) == s[..j] && AllSpace(s[j..])
  {
    if s != [] && IsSpace(s[|s| - 1]) {
      var t := s[..|s| - 1];
      j := TrimEndInfix(t);
      assert t[..j] == s[..j];
      assert s[j..] == t[j..] + [s[|s| - 1]];
    } else {
      j := |s|;
    }
  }

  /** `s.trim()` is `s` without a whitespace prefix and a whitespace suffix; being `Trimmed`, those are the longest ones. */
  lemma TrimInfix(s: string) returns (i: nat, j: nat)
    ensures i <= j <= |s|
    ensures TrimStart(s) == s[i..] && Trim(s) == s[i..j]
    ensures AllSpace(s[..i]) && AllSpace(s[j..])
  {
    i := TrimStartInfix(s);
    var t := s[i..];
    var k := TrimEndInfix(t);
    j := i + k;
    assert t[..k] == s[i..j];
    assert t[k..] == s[j..];
  }

  /** Text without leading or trailing whitespace is its own trim. */
  lemma TrimOfTrimmed(s: string)
    requires Trimmed(s)
    ensures Trim(s) == s
  {
  }

  lemma {:induction false} TrimStartBlank(s: string)
    ensures TrimStart(s) == [] <==> AllSpace(s)
  {
    if s != [] && IsSpace(s[0]) {
      TrimStartBlank(s[1..]);
    }
  }

  lemma {:induction false} TrimEndEmpty(s: string)
    ensures TrimEnd(s) == [] <==> AllSpace(s)
  {
    if s != [] && IsSpace(s[|s| - 1]) {
      TrimEndEmpty(s[..|s| - 1]);
      assert s == s[..|s| - 1] + [s[|s| - 1]];
    }
  }

  /** `s.trim()` is empty exactly when every character is whitespace. */
  lemma TrimBlank(s: string)
    ensures Trim(s) == [] <==> AllSpace(s)
  {
    TrimStartBlank(s);
    var t := TrimStart(s);
    TrimEndEmpty(t);
    if AllSpace(s) {
      assert t == [];
    }
  }

  /** A string that starts with a non-space character is not blank. */
  lemma NotBlank(s: string)
    requires s != [] && !IsSpace(s[0])
    ensures Trim(s) != []
  {
    TrimBlank(s);
  }

  /** `s.split(re)` for a regular expression matching exactly one character of `seps`. */
  function SplitOn(s: string, seps: set<char>): (parts: seq<string>)
    ensures |parts| >= 1
    ensures forall i :: 0 <= i < |parts| ==> forall k :: 0 <= k < |parts[i]| ==> parts[i][k] !in seps
  {
    if s == [] then [""]
    else
      var rest := SplitOn(s[1..], seps);
      if s[0] in seps then [""] + rest
      else [[s[0]] + rest[0]] + rest[1..]
  }

  /** `parts.join(sep)` */
  function JoinWith(parts: seq<string>, sep: string): string {
    if |parts| == 0 then ""
    else if |parts| == 1 then parts[0]
    else parts[0] + sep + JoinWith(parts[1..], sep)
  }

  predicate Avoids(s: string, seps: set<char>) {
    forall k :: 0 <= k < |s| ==> s[k] !in seps
  }

  lemma {:induction false} SplitOnPlain(s: string, seps: set<char>)
    requires Avoids(s, seps)
    ensures SplitOn(s, seps) == [s]
  {
    if s != [] {
      SplitOnPlain(s[1..], seps);
      assert [s[0]] + s[1..] == s;
    }
  }

  lemma {:induction false} SplitOnPrefix(p: string, c: char, t: string, seps: set<char>)
    requires Avoids(p, seps) && c in seps
    ensures SplitOn(p + [c] + t, seps) == [p] + SplitOn(t, seps)
  {
    if p == [] {
      assert (p + [c] + t)[1..] == t;
    } else {
      assert (p + [c] + t)[1..] == p[1..] + [c] + t;
      SplitOnPrefix(p[1..], c, t, seps);
      assert [p[0]] + p[1..] == p;
    }
  }

  /** One unfolding of `SplitOn` on a text given as its first character and the rest. */
  lemma SplitOnCons(x: char, t: string, seps: set<char>)
    ensures SplitOn([x] + t, seps)
         == if x in seps then [""] + SplitOn(t, seps) else [[x] + SplitOn(t, seps)[0]] + SplitOn(t, seps)[1..]
  {
    assert ([x] + t)[0] == x && ([x] + t)[1..] == t;
  }

  /** The shape of one `SplitOn` step, over plain sequences: prepending a character commutes with appending parts. */
  lemma ConsAppend(x: char, isSep: bool, joined: seq<string>, left: seq<string>, right: seq<string>,
                   consJoined: seq<string>, consLeft: seq<string>)
    requires |left| >= 1 && joined == left + right
    requires consJoined == if isSep then [""] + joined else [[x] + joined[0]] + joined[1..]
    requires consLeft == if isSep then [""] + left else [[x] + left[0]] + left[1..]
    ensures consJoined == consLeft + right
  {
    if !isSep {
      assert joined[0] == left[0];
      assert joined[1..] == left[1..] + right;
    }
  }

  lemma SplitOnAppendStep(x: char, rest: string, c: char, b: string, seps: set<char>)
    requires SplitOn(rest + [c] + b, seps) == SplitOn(rest, seps) + SplitOn(b, seps)
    ensures SplitOn([x] + (rest + [c] + b), seps) == SplitOn([x] + rest, seps) + SplitOn(b, seps)
  {
    SplitOnCons(x, rest + [c] + b, seps);
    SplitOnCons(x, rest, seps);
    ConsAppend(x, x in seps, SplitOn(rest + [c] + b, seps), SplitOn(rest, seps), SplitOn(b, seps),
               SplitOn([x] + (rest + [c] + b), seps), SplitOn([x] + rest, seps));
  }

  lemma SplitOnAppendNil(c: char, b: string, seps: set<char>)
    requires c in seps
    ensures SplitOn([c] + b, seps) == SplitOn([], seps) + SplitOn(b, seps)
  {
    SplitOnCons(c, b, seps);
  }

  /** Text joined at a separator splits into the parts of each side. */
  lemma {:induction false} SplitOnAppend(a: string, c: char, b: string, seps: set<char>)
    requires c in seps
    ensures SplitOn(a + [c] + b, seps) == SplitOn(a, seps) + SplitOn(b, seps)
  {
    if a == [] {
      SplitOnAppendNil(c, b, seps);
      assert a + [c] + b == [c] + b;
    } else {
      SplitOnAppend(a[1..], c, b, seps);
      SplitOnAppendStep(a[0], a[1..], c, b, seps);
      assert a == [a[0]] + a[1..];
      assert a + [c] + b == [a[0]] + (a[1..] + [c] + b);
    }
  }

  /** Splitting undoes joining when the separator is a split character that no part contains. */
  lemma {:induction false} SplitJoin(parts: seq<string>, c: char, seps: set<char>)
    requires |parts| >= 1 && c in seps
    requires forall i :: 0 <= i < |parts| ==> Avoids(parts[i], seps)
    ensures SplitOn(JoinWith(parts, [c]), seps) == parts
  {
    if |parts| == 1 {
      SplitOnPlain(parts[0], seps);
    } else {
      SplitJoin(parts[1..], c, seps);
      assert parts[0] + [c] + JoinWith(parts[1..], [c]) == JoinWith(parts, [c]);
      SplitOnPrefix(parts[0], c, JoinWith(parts[1..], [c]), seps);
      assert [parts[0]] + parts[1..] == parts;
    }
  }

  /** Joining the pieces with the one separator they were split on gives back the string. */
  lemma {:induction false} JoinSplit(s: string, c: char)
    ensures JoinWith(SplitOn(s, {c}), [c]) == s
  {
    if s != [] {
      var rest := SplitOn(s[1..], {c});
      JoinSplit(s[1..], c);
      if s[0] == c {
        assert [""] + rest == SplitOn(s, {c});
        assert ([""] + rest)[1..] == rest;
      } else {
        var parts := [[s[0]] + rest[0]] + rest[1..];
        assert parts[1..] == rest[1..];
        if |rest| == 1 {
          assert JoinWith(parts, [c]) == [s[0]] + rest[0];
          assert [s[0]] + s[1..] == s;
        } else {
          assert JoinWith(rest, [c]) == rest[0] + [c] + JoinWith(rest[1..], [c]);
          assert JoinWith(parts, [c]) == [s[0]] + rest[0] + [c] + JoinWith(rest[1..], [c]);
          assert [s[0]] + s[1..] == s;
        }
      }
    }
  }

  /** The index of the first whitespace character, or |s| when there is none. */
  function FirstSpace(s: string): (i: nat)
    ensures i <= |s|
    ensures i < |s| ==> IsSpace(s[i])
    ensures NoSpace(s[..i])
  {
    if s == [] || IsSpace(s[0]) then 0
    else
      var k := FirstSpace(s[1..]);
      assert s[..k + 1] == [s[0]] + s[1..][..k];
      k + 1
  }

  lemma {:induction false} FirstSpaceAt(s: string, k: nat)
    requires k < |s| && IsSpace(s[k]) && NoSpace(s[..k])
    ensures FirstSpace(s) == k
  {
    if k > 0 {
      assert s[1..][..k - 1] == s[..k][1..];
      FirstSpaceAt(s[1..], k - 1);
    }
  }

  /** The end of the run of whitespace that starts at `i`. */
  function SpaceRunEnd(s: string, i: nat): (j: nat)
    requires i < |s| && IsSpace(s[i])
    ensures i < j <= |s|
    ensures j < |s| ==> !IsSpace(s[j])
    ensures AllSpace(s[i..j])
    decreases |s| - i
  {
    if i + 1 < |s| && IsSpace(s[i + 1]) then SpaceRunEnd(s, i + 1) else i + 1
  }

  /** `s.split(/\s+/)`: the pieces between maximal runs of whitespace. */
  function Words(s: string): (ws: seq<string>)
    ensures |ws| >= 1
    ensures forall i :: 0 <= i < |ws| ==> NoSpace(ws[i])
    decreases |s|
  {
    var i := FirstSpace(s);
    if i == |s| then
      assert s[..i] == s;
      [s]
    else
      [s[..i]] + Words(s[SpaceRunEnd(s, i)..])
  }

  /** A word followed by one space and a whitespace-free rest splits into those two pieces. */
  lemma WordsOfPair(a: string, b: string)
    requires NoSpace(a) && NoSpace(b)
    ensures Words(a + " " + b) == [a, b]
  {
    var s := a + " " + b;
    assert s[..|a|] == a;
    FirstSpaceAt(s, |a|);
    assert s[|a| + 1..] == b;
    assert b[..|b|] == b;
  }

  /** A single whitespace-free word is its own split. */
  lemma WordsOfWord(a: string)
    requires NoSpace(a)
    ensures Words(a) == [a]
  {
    assert a[..|a|] == a;
  }

  /** Non-empty words without whitespace, joined by single spaces, make a non-blank line without line breaks. */
  lemma {:induction false} JoinWords(ws: seq<string>)
    requires |ws| >= 1 && forall i :: 0 <= i < |ws| ==> ws[i] != "" && NoSpace(ws[i])
    ensures var s := JoinWith(ws, " ");
      s != [] && s[0] == ws[0][0] && !IsSpace(s[|s| - 1]) && Avoids(s, {'\n'})
  {
    if |ws| == 1 {
      assert forall k :: 0 <= k < |ws[0]| ==> !IsSpace(ws[0][k]);
    } else {
      JoinWords(ws[1..]);
      var rest := JoinWith(ws[1..], " ");
      var s := ws[0] + " " + rest;
      assert s == JoinWith(ws, " ");
      assert s[0] == ws[0][0];
      assert s[|s| - 1] == rest[|rest| - 1];
      forall k | 0 <= k < |s|
        ensures s[k] != '\n'
      {
        if k < |ws[0]| {
          assert s[k] == ws[0][k] && !IsSpace(ws[0][k]);
        } else if k > |ws[0]| {
          assert s[k] == rest[k - |ws[0]| - 1];
        }
      }
    }
  }

  /** A word, one space and text that starts with a non-space character: the word, then the words of the rest. */
  lemma WordsCons(a: string, rest: string)
    requires NoSpace(a) && rest != [] && !IsSpace(rest[0])
    ensures Words(a + " " + rest) == [a] + Words(rest)
  {
    var s := a + " " + rest;
    assert s[..|a|] == a;
    FirstSpaceAt(s, |a|);
    assert s[|a| + 1] == rest[0];
    assert SpaceRunEnd(s, |a|) == |a| + 1;
    assert s[|a| + 1..] == rest;
  }

  /** `split(/\s+/)` undoes `join(' ')` of non-empty words without whitespace. */
  lemma {:induction false} WordsOfJoin(ws: seq<string>)
    requires |ws| >= 1 && forall i :: 0 <= i < |ws| ==> ws[i] != "" && NoSpace(ws[i])
    ensures Words(JoinWith(ws, " ")) == ws
  {
    if |ws| == 1 {
      WordsOfWord(ws[0]);
    } else {
      WordsOfJoin(ws[1..]);
      JoinWords(ws[1..]);
      WordsCons(ws[0], JoinWith(ws[1..], " "));
      assert [ws[0]] + ws[1..] == ws;
    }
  }

  /** The first piece of `split(/\s+/)` is the leading word, whatever follows the space after it. */
  lemma FirstWordOf(a: string, rest: string)
    requires a != "" && NoSpace(a)
    ensures Words(a + " " + rest)[0] == a
  {
    var s := a + " " + rest;
    assert s[..|a|] == a;
    FirstSpaceAt(s, |a|);
  }

  /** Text made of non-empty words separated by single spaces. */
  predicate SpacedWords(s: string) {
    && (forall k :: 0 <= k < |Words(s)| ==> Words(s)[k] != "")
    && JoinWith(Words(s), " ") == s
  }

  function LowerAscii(c: char): char {
    if 'A' <= c <= 'Z' then (c as int + 32) as char else c
  }

  /** `s.toLowerCase()` on the ASCII letters (the only ones the resolver's patterns admit). */
  function LowerAsciiString(s: string): (r: string)
    ensures |r| == |s|
    ensures forall i :: 0 <= i < |s| ==> r[i] == LowerAscii(s[i])
  {
    if s == [] then [] else [LowerAscii(s[0])] + LowerAsciiString(s[1..])
  }

  predicate StartsWith(s: string, prefix: string) {
    |prefix| <= |s| && s[..|prefix|] == prefix
  }

  /** Case-insensitive prefix test of a regular expression with the `i` flag, for a lower-case ASCII prefix. */
  predicate StartsWithIgnoringCase(s: string, prefix: string) {
    |prefix| <= |s| && LowerAsciiString(s[..|prefix|]) == prefix
  }

  predicate Contains(s: string, c: char) {
    exists i :: 0 <= i < |s| && s[i] == c
  }
}

=== FILE: unique.dfy ===
/**
 * Ordered de-duplication: what a JavaScript `Set` filled in order, or a loop
 * that skips names already `seen`, keeps — the first occurrence of each value,
 * in first-seen order.
 */
module Unique {

  predicate NoDup<T(==)>(s: seq<T>) {
    forall i, j :: 0 <= i < j < |s| ==> s[i] != s[j]
  }

  /** Each value at its first occurrence; `DedupDistinct` states what that means. */
  function Dedup<T(==,!new)>(s: seq<T>): (r: seq<T>)
    ensures |r| <= |s|
  {
    if s == [] then []
    else
      var p := Dedup(s[..|s| - 1]);
      if s[|s| - 1] in p then p else p + [s[|s| - 1]]
  }

  /** De-duplication keeps every value and repeats none. */
  lemma {:induction false} DedupDistinct<T(!new)>(s: seq<T>)
    ensures NoDup(Dedup(s))
    ensures forall x :: x in Dedup(s) <==> x in s
  {
    if s != [] {
      var init := s[..|s| - 1];
      DedupDistinct(init);
      assert s == init + [s[|s| - 1]];
    }
  }

  /** Appending one value adds it to the de-duplicated sequence unless it was already there. */
  lemma DedupSnoc<T(!new)>(s: seq<T>, x: T)
    ensures Dedup(s + [x]) == if x in Dedup(s) then Dedup(s) else Dedup(s) + [x]
  {
    assert (s + [x])[..|s|] == s;
  }

  /** The position of the first occurrence of `x`. */
  function FirstIndex<T(==,!new)>(s: seq<T>, x: T): (k: nat)
    requires x in s
    ensures k < |s| && s[k] == x && x !in s[..k]
  {
    if s[0] == x then 0
    else
      var k := FirstIndex(s[1..], x) + 1;
      assert s[..k] == [s[0]] + s[1..][..k - 1];
      k
  }

  lemma {:induction false} DedupFirst<T(!new)>(s: seq<T>)
    requires s != []
    ensures Dedup(s) != [] && Dedup(s)[0] == s[0]
  {
    if |s| > 1 {
      DedupFirst(s[..|s| - 1]);
    }
  }

  lemma {:induction false} DedupOfDistinct<T(!new)>(s: seq<T>)
    requires NoDup(s)
    ensures Dedup(s) == s
  {
    if s != [] {
      DedupOfDistinct(s[..|s| - 1]);
      assert s[|s| - 1] !in s[..|s| - 1];
    }
  }

  lemma FirstIndexOfPrefix<T(!new)>(s: seq<T>, n: nat, x: T)
    requires n <= |s| && x in s[..n]
    ensures FirstIndex(s, x) == FirstIndex(s[..n], x)
  {
    var k := FirstIndex(s[..n], x);
    assert s[..k] == s[..n][..k];
  }

  /** Values keep the order of their first occurrences. */
  lemma {:induction false} DedupKeepsFirstSeenOrder<T(!new)>(s: seq<T>, i: nat, j: nat)
    requires i < j < |Dedup(s)|
    ensures var r := Dedup(s);
      r[i] in s && r[j] in s && FirstIndex(s, r[i]) < FirstIndex(s, r[j])
  {
    var n := |s| - 1;
    var p := Dedup(s[..n]);
    var r := Dedup(s);
    DedupDistinct(s[..n]);
    assert s == s[..n] + [s[n]];
    if j < |p| {
      assert r[i] == p[i] && r[j] == p[j];
      DedupKeepsFirstSeenOrder(s[..n], i, j);
      FirstIndexOfPrefix(s, n, p[i]);
      FirstIndexOfPrefix(s, n, p[j]);
    } else {
      assert r[j] == s[n] && s[n] !in s[..n];
      assert r[i] == p[i];
      FirstIndexOfPrefix(s, n, p[i]);
      assert FirstIndex(s, s[n]) == n;
    }
  }

  /** De-duplicating two sequences that share no value is de-duplicating each. */
  lemma {:induction false} DedupAppendDisjoint<T(!new)>(a: seq<T>, b: seq<T>)
    requires forall x :: x in a ==> x !in b
    ensures Dedup(a + b) == Dedup(a) + Dedup(b)
  {
    if b == [] {
      assert a + b == a;
    } else {
      var n := |b| - 1;
      assert (a + b)[..|a + b| - 1] == a + b[..n];
      DedupAppendDisjoint(a, b[..n]);
      var x := b[n];
      assert x !in a;
      DedupDistinct(a + b[..n]);
      DedupDistinct(b[..n]);
      assert x in Dedup(a + b[..n]) <==> x in Dedup(b[..n]);
    }
  }

  function Map<T, U>(f: T -> U, s: seq<T>): (r: seq<U>)
    ensures |r| == |s|
    ensures forall i :: 0 <= i < |s| ==> r[i] == f(s[i])
  {
    if s == [] then [] else [f(s[0])] + Map(f, s[1..])
  }

  predicate InjectiveOn<T(==,!new), U(==)>(f: T -> U, s: seq<T>) {
    forall i, j :: 0 <= i < |s| && 0 <= j < |s| && f(s[i]) == f(s[j]) ==> s[i] == s[j]
  }

  lemma MapSnoc<T, U>(f: T -> U, s: seq<T>)
    requires s != []
    ensures Map(f, s) == Map(f, s[..|s| - 1]) + [f(s[|s| - 1])]
  {
    var init := s[..|s| - 1];
    var m := Map(f, init) + [f(s[|s| - 1])];
    forall i | 0 <= i < |s|
      ensures Map(f, s)[i] == m[i]
    {
      if i < |init| {
        assert init[i] == s[i];
      }
    }
  }

  /** Under a map that is injective on `s`, images of values of `s` meet exactly when the values do. */
  lemma MapMember<T(!new), U>(f: T -> U, s: seq<T>, p: seq<T>, x: T)
    requires InjectiveOn(f, s)
    requires forall y :: y in p ==> y in s
    requires x in s
    ensures f(x) in Map(f, p) <==> x in p
  {
    if f(x) in Map(f, p) {
      var k :| 0 <= k < |p| && Map(f, p)[k] == f(x);
      assert p[k] in s;
      var m :| 0 <= m < |s| && s[m] == p[k];
      var l :| 0 <= l < |s| && s[l] == x;
      assert f(s[m]) == f(s[l]);
    }
  }

  lemma InjectiveOnPrefix<T(!new), U>(f: T -> U, s: seq<T>, n: nat)
    requires n <= |s| && InjectiveOn(f, s)
    ensures InjectiveOn(f, s[..n])
  {
    var init := s[..n];
    forall i, j | 0 <= i < |init| && 0 <= j < |init| && f(init[i]) == f(init[j])
      ensures init[i] == init[j]
    {
      assert init[i] == s[i] && init[j] == s[j];
    }
  }

  /** De-duplication commutes with a map that never merges two values. */
  lemma {:induction false} DedupMap<T(!new), U(!new)>(f: T -> U, s: seq<T>)
    requires InjectiveOn(f, s)
    ensures Dedup(Map(f, s)) == Map(f, Dedup(s))
  {
    if s != [] {
      var n := |s| - 1;
      var init := s[..n];
      InjectiveOnPrefix(f, s, n);
      DedupMap(f, init);
      MapSnoc(f, s);
      var ms := Map(f, s);
      assert ms[..|ms| - 1] == Map(f, init);
      assert ms[|ms| - 1] == f(s[n]);
      var p := Dedup(init);
      DedupDistinct(init);
      MapMember(f, s, p, s[n]);
      if s[n] !in p {
        MapSnoc(f, p + [s[n]]);
        assert (p + [s[n]])[..|p|] == p;
      }
    }
  }
}

=== FILE: values.dfy ===
/**
 * The loosely typed values a creature record holds: a record is a JavaScript
 * object, here a map from field name to a value that may be missing
 * (`undefined` or `null`), a string, an integer number or a boolean.
 */
module Values {
  import opened Optional
  import opened Numbers

  datatype Field = Absent | Text(s: string) | Num(n: int) | Flag(b: bool)

  type Record = map<string, Field>

  /** JavaScript truthiness: '' , 0, false, undefined and null are falsy. */
  predicate Truthy(f: Field) {
    match f
    case Absent => false
    case Text(s) => s != ""
    case Num(n) => n != 0
    case Flag(b) => b
  }

  /** `a || b` */
  function Or(a: Field, b: Field): Field {
    if Truthy(a) then a else b
  }

  /** `String(f)` for a value that is present. */
  function Str(f: Field): string
    requires f != Absent
  {
    match f
    case Text(s) => s
    case Num(n) => IntToString(n)
    case Flag(b) => if b then "true" else "false"
  }

  /** `p?.[key]`: the field of a record that may itself be missing. */
  function Get(p: Option<Record>, key: string): Field {
    if p.Some? && key in p.value then p.value[key] else Absent
  }

  /** `p?.[key] || ''`, as a string. */
  function TextOr(p: Option<Record>, key: string): string {
    var f := Get(p, key);
    if Truthy(f) then Str(f) else ""
  }
}
